=== FILE: README.md ===
# RASPBERRYPI3 airline booking core, modelled in Dafny

RASPBERRYPI3 is an airline booking system in three parts:

- An airline backend in Java (Javalin over Oracle) with a React front end.
- A travel-agency portal: a FastAPI backend over MongoDB plus a Svelte-style front end with its own router.
- A central provisioning service that creates one Oracle schema per tenant.

This project models the logic of those parts and proves what it promises:

- **Agency router**: path normalisation, query splitting, `:param` matching, navigation and the link click filter.
- **`ORDEN` column maintenance** for tips and news: insert, move and delete while the positions stay 1..n.
  - The table is an array of rows updated in place.
- **Airline cart** (`ComprasDAO`): seat capacity, paired return flights, quantity updates, removal, checkout guard and cancellation of a reservation.
- **Flight rules** (`VueloDAO`):
  - pairing and unpairing of outbound and return flights;
  - the final CANCELADO state;
  - stopover compatibility;
  - the public listing's grouping of classes per flight.
- **Comments and ratings**:
  - comment validation and the comment forest;
  - one rating per user and flight, and the rating summary.
- **Front-end helpers**:
  - the checkout page's Luhn check, card formatting and form validation;
  - the catalogue's folding of round-trip pairs and its filter;
  - the admin editor's list moves and save loop.
- **Text helpers**:
  - ticket PDF text clean-up;
  - the fallbacks of the notification e-mails;
  - Oracle user names and passwords for new tenants.
- **Agency backend**: cart totals with markup, and flight search predicates.

The database is modelled as values. Tables are sequences or maps, and identity columns are counters.

- Each DAO whose methods change rows becomes a `class` whose methods state the new tables.
- Each pure helper becomes a function with lemmas about it.
- Money is kept in whole cents, or as exact decimals (`real`) where Python's `Decimal` computes.
- Clocks, random choices, generated ids and answers of other services are parameters.

The shared modules are:

- `Wrappers`: `Option`, `Result`, `Outcome`.
- `Text`: character classes, the Java, JavaScript and Python trims, ASCII case mapping and number rendering.

## Model

| member | source | states |
|---|---|---|
| Router.CollapseSlashes | AGENCIAS/frontend/src/lib/router.js:11 | the `/\/{2,}/g` replacement: the result never holds two slashes in a row, is no longer than the input and keeps its first and last character |
| Router.CollapseKeepsNonSlash | AGENCIAS/frontend/src/lib/router.js:11 | the replacement removes slashes only: the other characters are kept, in order |
| Router.CollapseExample | AGENCIAS/frontend/src/lib/router.js:11 | runs of two and three slashes become one: "//a///b" gives "/a/b" |
| Router.CollapseNoOp | AGENCIAS/frontend/src/lib/router.js:11 | a path without a double slash is left unchanged by the replacement |
| Router.Rooted | AGENCIAS/frontend/src/lib/router.js:6-8 | after the falsy fallback, trimming, dropping one `#` and prefixing `/`, the path always starts with `/` |
| Router.RootedLast | AGENCIAS/frontend/src/lib/router.js:6-8 | the rooted path never ends in white space, because the trim removed it |
| Router.DropHash | AGENCIAS/frontend/src/lib/router.js:7 | dropping a leading `#` keeps a non-blank last character |
| Router.WithRoot | AGENCIAS/frontend/src/lib/router.js:8 | the prefix step yields a path starting with `/` and leaves one that already does unchanged |
| Router.RootedId | AGENCIAS/frontend/src/lib/router.js:6-8 | a path that starts with `/` and ends in a non-blank character passes the first three steps unchanged |
| Router.Alias | AGENCIAS/frontend/src/lib/router.js:9-10 | the alias table keeps a leading `/`, adds no double slash and keeps a non-blank last character |
| Router.AliasIdempotent | AGENCIAS/frontend/src/lib/router.js:9-10 | the targets of the alias table are not aliases, so applying it twice is applying it once |
| Router.NormalizeAsWritten | AGENCIAS/frontend/src/lib/router.js:5-12 | `normalize` in its written order (aliases, then the collapse): the result starts with `/` and never contains `//` |
| Router.NormalizeClean | AGENCIAS/frontend/src/lib/router.js:5-12 | on an already clean path both the as-written and the corrected `normalize` only apply the alias table |
| Router.NormalizeExample | AGENCIAS/frontend/src/lib/router.js:5-12 | "//a///b" normalises to "/a/b" in both orders of the last two steps |
| Router.NormalizeAsWrittenNotIdempotent | AGENCIAS/frontend/src/lib/router.js:9-11 | as written (aliases before the collapse), "//registro" normalises to "/registro", and normalising that again gives "/register" |
| Router.Normalize | AGENCIAS/frontend/src/lib/router.js:5-12 | every normalised path starts with `/` and never contains `//` |
| Router.NormalizeLast | AGENCIAS/frontend/src/lib/router.js:6 | a normalised path never ends in white space |
| Router.NormalizeDoubleSlashAlias | AGENCIAS/frontend/src/lib/router.js:9-11 | with the collapse first, "//registro" reaches "/register" |
| Router.BlankNormalizesToRoot | AGENCIAS/frontend/src/lib/router.js:6 | a null, empty or all-white-space path normalises to "/" |
| Router.RegistroNormalizes | AGENCIAS/frontend/src/lib/router.js:9 | "/registro" normalises to "/register" |
| Router.IngresarNormalizes | AGENCIAS/frontend/src/lib/router.js:10 | "/ingresar" normalises to "/login" |
| Router.IniciarSesionNormalizes | AGENCIAS/frontend/src/lib/router.js:10 | "/iniciar-sesion" normalises to "/login" |
| Router.NormalizeIdempotent | AGENCIAS/frontend/src/lib/router.js:5-12 | normalising a normalised path changes nothing |
| Router.SplitPathAndQuery | AGENCIAS/frontend/src/lib/router.js:13-16 | with a `?`, the path part has none and path + "?" + query rebuilds the input; without one, the query is empty and the path is the input |
| Router.GetQuery | AGENCIAS/frontend/src/lib/router.js:70-76 | a non-empty `current` gives the query text of its normalised form; otherwise the browser's search string without one leading `?` |
| Router.SplitSlash | AGENCIAS/frontend/src/lib/router.js:59-60 | `split("/")` gives at least one piece, no piece contains `/`, and joining the pieces with `/` gives back the path, which fixes the split |
| Router.NonEmpty | AGENCIAS/frontend/src/lib/router.js:59-60 | `filter(Boolean)` keeps exactly the non-empty pieces, in order (`Seqs.Filter` with `Seqs.Filled`) |
| Router.Segments | AGENCIAS/frontend/src/lib/router.js:59-60 | the segments of a path are exactly the non-empty pieces between its slashes, in order |
| Router.PathSegments | AGENCIAS/frontend/src/lib/router.js:57-60 | the segments are exactly the non-empty pieces between the slashes of the normalised path with its query dropped, in order |
| Router.CurrentOr | AGENCIAS/frontend/src/lib/router.js:58 | a non-empty `current` is used as it is; a missing or empty one falls back to the normalised browser path, so the result is never empty |
| Router.BindingsLast | AGENCIAS/frontend/src/lib/router.js:63-64 | a `:name` segment binds its name to the path segment under its last occurrence |
| Router.BindingsKeys | AGENCIAS/frontend/src/lib/router.js:63-64 | a name is bound exactly when some `:name` segment of the pattern carries it |
| Router.Match | AGENCIAS/frontend/src/lib/router.js:56-68 | `match` succeeds exactly when the segment counts agree and every literal segment is equal; the parameters are the bindings on success and empty on failure; queries are ignored |
| Router.MatchSegments | AGENCIAS/frontend/src/lib/router.js:59-67 | the comparison loop returns ok iff the segments agree, with the bindings built left to right |
| Router.MatchExample | AGENCIAS/frontend/src/lib/router.js:56-68 | starting from the strings, "/vuelos/:id" against "/vuelos/42?x=1" agrees and binds `id` to "42", the query ignored; against "/vuelos/42/extra" it fails |
| Router.ParseUrl | AGENCIAS/frontend/src/lib/router.js:36 | the URL passed to the History API splits into pathname, search and hash that rebuild it; the pathname holds no `?` or `#` and stays rooted |
| Router.Migrated | AGENCIAS/frontend/src/lib/router.js:22-24 | a `#/route` hash is replaced by the location of the normalised route, which is rooted; any other location is kept |
| Router.Navigation.constructor | AGENCIAS/frontend/src/lib/router.js:22-27 | loading migrates a `#/route` hash first; the store then holds the normalised pathname only |
| Router.Navigation.Navigate | AGENCIAS/frontend/src/lib/router.js:31-41 | the location is rewritten only when the normalised target differs from the normalised pathname; the store then holds the normalised pathname, which is the target when it has no query or fragment |
| Router.Navigation.Apply | AGENCIAS/frontend/src/lib/router.js:28 | the store takes the normalised pathname, and the location is unchanged |
| Router.Navigation.PopState | AGENCIAS/frontend/src/lib/router.js:44 | the location becomes the history entry and the store follows its pathname |
| Router.Navigation.HashChange | AGENCIAS/frontend/src/lib/router.js:46-51 | a `#/route` hash is migrated and the store follows; with any other hash the store is left alone |
| Router.QueryTargetRewritesAgain | AGENCIAS/frontend/src/lib/router.js:31-41 | after navigating to "/vuelos?origen=GUA" the pathname is "/vuelos", which never equals the target, so the same navigation rewrites the location every time |
| Router.HashWithQueryMigrates | AGENCIAS/frontend/src/lib/router.js:46-51 | the hash "#/a?b=1" migrates to pathname "/a" with search "?b=1", and the store holds "/a" |
| Router.OnLinkClick | AGENCIAS/frontend/src/lib/router.js:86-104 | a click passes the anchor's raw non-empty `href` to `navigate` only when it is an unprevented primary click, not to a new tab, not external and not an anchor |
| Router.LinkIntercepts | AGENCIAS/frontend/src/lib/router.js:86-104 | a click is taken over iff it is a plain primary click on this anchor with an in-app href that is not mailto, tel, http(s) or `#`; it then navigates to that href, which normalises to a path starting with `/` |
| Router.MixedCaseSchemeIsExternal | AGENCIAS/frontend/src/lib/router.js:99 | the `i` flag makes "HtTp://" external too |
| OrdenTable.ShiftRow | backend/src/main/java/com/aerolineas/dao/TipDAO.java:72 | one row of `SET ORDEN = ORDEN + delta WHERE …`: a selected row moves by delta, any other row is unchanged, keys and data never change |
| OrdenTable.Shifted | backend/src/main/java/com/aerolineas/dao/TipDAO.java:70-76 | the bulk UPDATE applies the row rule to every row and keeps the table's length |
| OrdenTable.ShiftOrden | backend/src/main/java/com/aerolineas/dao/TipDAO.java:140-154 | the in-place row-by-row UPDATE over the array leaves exactly the set-at-a-time result |
| OrdenTable.MaxOrden | backend/src/main/java/com/aerolineas/dao/TipDAO.java:55-58 | `MAX(ORDEN)` is NULL iff every ORDEN is NULL; otherwise it is one of the values and bounds them all |
| OrdenTable.InsertPosition | backend/src/main/java/com/aerolineas/dao/TipDAO.java:61-68 | `crear`'s position is the requested one when it lies in 1..max+1, and max+1 when it is null, not positive or too large |
| OrdenTable.TargetPosition | backend/src/main/java/com/aerolineas/dao/TipDAO.java:128-135 | `actualizar` keeps the current position for a null or non-positive request, takes a request in 1..max, and clamps a larger one to max |
| OrdenTable.Without | backend/src/main/java/com/aerolineas/dao/TipDAO.java:198-202 | `DELETE … WHERE ID` keeps exactly the rows with another key, in their order, and changes nothing when there is none |
| OrdenTable.WithoutUnique | backend/src/main/java/com/aerolineas/dao/TipDAO.java:198-202 | with unique keys, deleting a present key removes exactly its row |
| OrdenTable.IndexOf | backend/src/main/java/com/aerolineas/dao/TipDAO.java:112-118 | the lookup finds the row with the key, or reports that there is none |
| OrdenTable.FindRow | backend/src/main/java/com/aerolineas/dao/TipDAO.java:112-118 | the scan over the array returns the lookup's index |
| OrdenTable.Appended | backend/src/main/java/com/aerolineas/dao/TipDAO.java:78-83 | the INSERT adds the row at the end of a fresh table |
| OrdenTable.Deleted | backend/src/main/java/com/aerolineas/dao/TipDAO.java:198-202 | the DELETE gives a fresh table holding the rows without the key |
| OrdenTable.ShiftedKeepsKeys | backend/src/main/java/com/aerolineas/dao/TipDAO.java:70-76 | renumbering never changes the keys |
| OrdenTable.CreateKeepsKeys | backend/src/main/java/com/aerolineas/dao/TipDAO.java:78-89 | a row keyed with the next identity value keeps the keys unique and below the identity counter |
| OrdenTable.MoveKeepsKeys | backend/src/main/java/com/aerolineas/dao/TipDAO.java:137-168 | moving a row keeps the keys unique |
| OrdenTable.DeleteKeepsKeys | backend/src/main/java/com/aerolineas/dao/TipDAO.java:198-210 | deleting and closing the gap keeps the keys unique |
| OrdenTable.DenseMax | backend/src/main/java/com/aerolineas/dao/TipDAO.java:54-58 | on a dense table `NVL(MAX(ORDEN), 0)` is the row count and bounds every position |
| OrdenTable.CreateKeepsDense | backend/src/main/java/com/aerolineas/dao/TipDAO.java:61-83 | if the positions were 1..n before `crear`, they are 1..n+1 after, and the new row lands in 1..n+1 |
| OrdenTable.InsertInsideKeepsDense | backend/src/main/java/com/aerolineas/dao/TipDAO.java:70-83 | inserting inside the range after shifting ORDEN ≥ p up by one keeps the positions dense |
| OrdenTable.AppendAfterMaxKeepsDense | backend/src/main/java/com/aerolineas/dao/TipDAO.java:63-65 | appending at max+1 keeps the positions dense |
| OrdenTable.MoveKeepsDense | backend/src/main/java/com/aerolineas/dao/TipDAO.java:128-163 | `actualizar` keeps the positions exactly 1..n |
| OrdenTable.MoveUpKeepsDense | backend/src/main/java/com/aerolineas/dao/TipDAO.java:138-146 | moving a row up shifts [nuevo, actual) by +1, skips the moved row, and keeps the positions dense |
| OrdenTable.MoveDownKeepsDense | backend/src/main/java/com/aerolineas/dao/TipDAO.java:147-154 | moving a row down shifts (actual, nuevo] by −1, skips the moved row, and keeps the positions dense |
| OrdenTable.DeleteKeepsDense | backend/src/main/java/com/aerolineas/dao/TipDAO.java:198-210 | deleting a row and decrementing every greater ORDEN keeps the positions dense |
| OrdenTable.CloseGapKeepsDense | backend/src/main/java/com/aerolineas/dao/TipDAO.java:204-210 | closing the gap left by a removed position gives positions 1..n−1 |
| Tips.DeletedOrden | backend/src/main/java/com/aerolineas/dao/TipDAO.java:187-196 | `eliminar` reads no ORDEN for a missing tip, and otherwise reads the stored ORDEN with NULL read as 0 by `getInt` |
| Tips.TipDAO.constructor | backend/src/main/java/com/aerolineas/dao/TipDAO.java:10 | an empty TIPS table whose keys are valid |
| Tips.TipDAO.Crear | backend/src/main/java/com/aerolineas/dao/TipDAO.java:49-104 | the tip goes to the clamped position, the tips from there on move one place down, and the returned key is the identity's next value, which then advances by one |
| Tips.TipDAO.Actualizar | backend/src/main/java/com/aerolineas/dao/TipDAO.java:106-180 | a missing tip fails with "Tip no encontrado" and changes nothing; otherwise the tip moves to the clamped position, the tips between shift, and it is rewritten |
| Tips.TipDAO.Eliminar | backend/src/main/java/com/aerolineas/dao/TipDAO.java:182-220 | the tip is deleted (a missing one is not an error), the tips after it move up one place, and the identity is not touched |
| Tips.TipOperationsKeepDense | backend/src/main/java/com/aerolineas/dao/TipDAO.java:61-210 | creating, editing and deleting tips keep the positions exactly 1..n |
| Noticias.UrlColumn | backend/src/main/java/com/aerolineas/dao/NoticiaDAO.java:105-109 | URL_IMAGEN is NULL exactly for a missing or blank URL, and otherwise the URL as given |
| Noticias.NewData | backend/src/main/java/com/aerolineas/dao/NoticiaDAO.java:92-109 | the inserted row's date defaults to the database clock, and its URL column follows the blank rule |
| Noticias.UpdatedData | backend/src/main/java/com/aerolineas/dao/NoticiaDAO.java:187-204 | an update keeps the stored date when none is given and rewrites title, content and URL column |
| Noticias.DeletedOrden | backend/src/main/java/com/aerolineas/dao/NoticiaDAO.java:230-239 | `eliminar` reads no ORDEN for a missing row, and otherwise the stored ORDEN, NULL included (`wasNull`) |
| Noticias.NoticiaDAO.constructor | backend/src/main/java/com/aerolineas/dao/NoticiaDAO.java:9 | an empty NOTICIAS table whose keys are valid |
| Noticias.NoticiaDAO.Crear | backend/src/main/java/com/aerolineas/dao/NoticiaDAO.java:62-130 | the row goes to the clamped position, the rows from there on move down, and it is inserted with the default date and the URL rule under the identity's next value, which then advances by one |
| Noticias.NoticiaDAO.Actualizar | backend/src/main/java/com/aerolineas/dao/NoticiaDAO.java:133-221 | a missing row fails with "Noticia no encontrada" and changes nothing; otherwise the row moves to the clamped position, the rows between shift, and its columns are rewritten |
| Noticias.NoticiaDAO.Eliminar | backend/src/main/java/com/aerolineas/dao/NoticiaDAO.java:225-262 | the row is deleted and, only when its ORDEN was not NULL, the rows after it move up one place; the identity is not touched |
| Noticias.NoticiaOperationsKeepDense | backend/src/main/java/com/aerolineas/dao/NoticiaDAO.java:75-254 | creating, editing and deleting news items keep the positions exactly 1..n |
| Noticias.DeleteNullOrdenShiftsNothing | backend/src/main/java/com/aerolineas/dao/NoticiaDAO.java:230-254 | deleting a row whose ORDEN is NULL removes only that row and renumbers nothing |
| Compras.Reservados | backend/src/main/java/com/aerolineas/dao/ComprasDAO.java:111-123 | the seats of a class held by reservations in estado 1 never exceed the number of reservation seats |
| Compras.EnCarritosAppend | backend/src/main/java/com/aerolineas/dao/ComprasDAO.java:125-134 | a new cart line adds its quantity to its own class's count of seats in carts |
| Compras.EnCarritosUpdate | backend/src/main/java/com/aerolineas/dao/ComprasDAO.java:125-134 | changing one line moves its class's count by the difference of the two quantities |
| Compras.EnCarritosRemove | backend/src/main/java/com/aerolineas/dao/ComprasDAO.java:125-134 | deleting one line takes its quantity off its class's count |
| Compras.CheckVuelo | backend/src/main/java/com/aerolineas/dao/ComprasDAO.java:57-74 | a flight passes iff it exists, is active (NULL counts as active) and its state is not CANCELADO in any case; a missing one fails with "Vuelo no existe" |
| Compras.Precio | backend/src/main/java/com/aerolineas/dao/ComprasDAO.java:81-109 | SALIDA_CLASE's price wins; without one, a VUELO_CLASE price is found exactly when that row exists |
| Compras.LineIndex | backend/src/main/java/com/aerolineas/dao/ComprasDAO.java:136-148 | the cart's line for a flight and class is found when it exists, and none is reported only when there is none |
| Compras.ItemIndex | backend/src/main/java/com/aerolineas/dao/ComprasDAO.java:350-357 | the line with the given id in the user's cart is found when it exists, and none is reported only when there is none |
| Compras.MergeCount | backend/src/main/java/com/aerolineas/dao/ComprasDAO.java:291-305 | the MERGE adds the quantity to its own class and to no other |
| Compras.MergePositive | backend/src/main/java/com/aerolineas/dao/ComprasDAO.java:291-305 | a MERGE of at least one seat keeps every cart line positive |
| Compras.Merge | backend/src/main/java/com/aerolineas/dao/ComprasDAO.java:291-305 | the MERGE leaves the cart with a line for the flight and class holding the old seats plus the quantity (or just the quantity when the line is new), adds a line only when none existed, and leaves every other line as it was |
| Compras.Cantidad | backend/src/main/java/com/aerolineas/dao/ComprasDAO.java:260 | a quantity of zero or less is read as one seat; a positive one is kept |
| Compras.AddCheck | backend/src/main/java/com/aerolineas/dao/ComprasDAO.java:259-287 | the add succeeds iff the flight is available, the class is offered with a price and enough free seats and, with the pair booked, the return class passes the same checks; the plan carries those prices; each failing stage gives its own error, in the source's order |
| Compras.AddKeepsNoOverbooking | backend/src/main/java/com/aerolineas/dao/ComprasDAO.java:259-320 | a successful add never takes any class past its seats |
| Compras.AddLines | backend/src/main/java/com/aerolineas/dao/ComprasDAO.java:291-325 | the two MERGEs leave the cart with a line for the outbound class and, when booked, one for the return class; at most two lines are added and other carts' lines are untouched |
| Compras.PairLine | backend/src/main/java/com/aerolineas/dao/ComprasDAO.java:365-372 | with syncPareja, the return line is the cart's line for the paired flight in the same class |
| Compras.RaiseCheck | backend/src/main/java/com/aerolineas/dao/ComprasDAO.java:394-402 | growing a line passes iff the flight is available, its class is offered and the added seats are free; an unavailable flight gives the flight's own error |
| Compras.PairRaiseCheck | backend/src/main/java/com/aerolineas/dao/ComprasDAO.java:403-421 | the return line passes iff its flight is available and its class offered and, only when it grows, the added seats are free; an unavailable flight gives its own error |
| Compras.UpdateCheckAsWritten | backend/src/main/java/com/aerolineas/dao/ComprasDAO.java:340-421 | as written: a quantity of zero or less fails with "Cantidad debe ser > 0", a line outside the cart with "Item no encontrado."; a shrinking line is accepted with no check, the return line's included; a growing one passes iff both lines pass their room checks |
| Compras.UpdateCheck | backend/src/main/java/com/aerolineas/dao/ComprasDAO.java:340-421 | the corrected checks: the same errors, and success iff each of the two lines that grows passes its room check |
| Compras.UpdatedLines | backend/src/main/java/com/aerolineas/dao/ComprasDAO.java:424-438 | the UPDATEs set the line and, when synced, its return line to the new quantity; only CANTIDAD changes, and every other line is as before |
| Compras.SetLineKeepsRoom | backend/src/main/java/com/aerolineas/dao/ComprasDAO.java:374-402 | setting a line to n seats keeps every class within its seats when the class had room for the growth |
| Compras.UpdateKeepsNoOverbooking | backend/src/main/java/com/aerolineas/dao/ComprasDAO.java:374-440 | with the corrected checks, a quantity change never overbooks a class, the synced return line included |
| Compras.UpdateAsWrittenOverbooks | backend/src/main/java/com/aerolineas/dao/ComprasDAO.java:374-390 | as written, lowering the outbound line from 5 to 3 with the pair in step raises the return line to 3 on a one-seat class; the corrected checks refuse it |
| Compras.DropLines | backend/src/main/java/com/aerolineas/dao/ComprasDAO.java:480-484 | the DELETE keeps exactly the lines that are not the cart's line with that id, in their order |
| Compras.RemovedLines | backend/src/main/java/com/aerolineas/dao/ComprasDAO.java:480-494 | after the DELETEs neither the line nor, when synced, its return line is in the cart, and every line left was there before |
| Compras.DropLinesCount | backend/src/main/java/com/aerolineas/dao/ComprasDAO.java:480-494 | deleting lines never raises a class's seats in carts and keeps lines positive |
| Compras.RemoveCheck | backend/src/main/java/com/aerolineas/dao/ComprasDAO.java:454-478 | a line outside the user's cart fails with "Item no encontrado."; otherwise the line and, with syncPareja, its return line are chosen |
| Compras.RemoveKeepsNoOverbooking | backend/src/main/java/com/aerolineas/dao/ComprasDAO.java:454-500 | removing lines never overbooks a class and keeps lines positive |
| Compras.Seats | backend/src/main/java/com/aerolineas/dao/ComprasDAO.java:983-988 | the reservation's seat count on a class, grouped by flight and class |
| Compras.Restored | backend/src/main/java/com/aerolineas/dao/ComprasDAO.java:983-1004 | CUPO_TOTAL grows by the reservation's seats on each class, and no class is added or dropped |
| Compras.CancelledItems | backend/src/main/java/com/aerolineas/dao/ComprasDAO.java:1012-1016 | exactly the reservation's seats move to estado 2 |
| Compras.ReservadosIgnoresItemEstado | backend/src/main/java/com/aerolineas/dao/ComprasDAO.java:111-123 | whether a seat is held depends on its reservation's estado, not on the seat's own |
| Compras.ReservadosAfterCancel | backend/src/main/java/com/aerolineas/dao/ComprasDAO.java:1007-1010 | cancelling a confirmed reservation stops its seats from being held |
| Compras.RestoredStep | backend/src/main/java/com/aerolineas/dao/ComprasDAO.java:989-1002 | each reservation seat raises its own class by one when that class exists |
| Compras.RestoreSeats | backend/src/main/java/com/aerolineas/dao/ComprasDAO.java:983-1004 | the batch UPDATE, seat by seat, ends with the restored CUPO_TOTAL of every class |
| Compras.CancelFreesSeats | backend/src/main/java/com/aerolineas/dao/ComprasDAO.java:983-1016 | a cancellation raises every class's free seats by twice the reservation's seats on it, so it never overbooks |
| Compras.AfterCancel | backend/src/main/java/com/aerolineas/dao/ComprasDAO.java:983-1016 | the cancellation moves the reservation to estado 2 under the same owner, leaves every other reservation, flight, fare and cart line as it was, and touches only the reservation's own seats |
| Compras.LineCount | backend/src/main/java/com/aerolineas/dao/ComprasDAO.java:508-516 | the cart's line count is zero exactly when no line belongs to the cart |
| Compras.ComprasDAO.constructor | backend/src/main/java/com/aerolineas/dao/ComprasDAO.java:15 | the DAO starts on tables without overbooking, positive lines and no self-paired flight, with no carts and the cart identity at 1 |
| Compras.ComprasDAO.EnsureCart | backend/src/main/java/com/aerolineas/dao/ComprasDAO.java:150-174 | the user's cart is returned, or a new one is created and recorded |
| Compras.ComprasDAO.AddOrIncrementItem | backend/src/main/java/com/aerolineas/dao/ComprasDAO.java:259-334 | after the checks, the outbound line and the paired return line grow by the quantity (one seat for zero or less); a failed check changes no line; the cart identity advances exactly when the user's cart is new; the invariants hold |
| Compras.ComprasDAO.UpdateQuantity | backend/src/main/java/com/aerolineas/dao/ComprasDAO.java:340-448 | the corrected update (room checked for whichever line grows): a quantity of zero or less is refused first; otherwise the checked lines get the new quantity, and a failed check changes nothing; for a positive quantity the cart identity advances exactly when the user's cart is new |
| Compras.ComprasDAO.RemoveItem | backend/src/main/java/com/aerolineas/dao/ComprasDAO.java:454-503 | a line outside the cart is an error; otherwise it and, with syncPareja, its return line are deleted; the cart identity advances exactly when the user's cart is new |
| Compras.ComprasDAO.Checkout | backend/src/main/java/com/aerolineas/dao/ComprasDAO.java:505-516 | the checkout fails with "El carrito está vacío o ya fue procesado." exactly when the cart has no lines; no line changes, and the cart identity advances exactly when the user's cart is new |
| Compras.ComprasDAO.CancelarReserva | backend/src/main/java/com/aerolineas/dao/ComprasDAO.java:952-1027 | an unknown reservation and a caller who is neither owner nor admin are errors; estado other than 1 gives false and changes nothing; otherwise seats go back to CUPO_TOTAL and the reservation and its seats move to estado 2 |
| Vuelos.Unlinked | backend/src/main/java/com/aerolineas/dao/VueloDAO.java:111-132 | clearing the flight's own pair and every pair pointing at it keeps the set of flights |
| Vuelos.LinkCheck | backend/src/main/java/com/aerolineas/dao/VueloDAO.java:49-83 | linking passes iff both ids are positive and distinct, both flights exist, and no other flight already has the return flight as its pair |
| Vuelos.LinkedShape | backend/src/main/java/com/aerolineas/dao/VueloDAO.java:84-94 | after linking, the outbound flight's pair is the return flight, the return flight has none, and no other flight changes |
| Vuelos.Linked | backend/src/main/java/com/aerolineas/dao/VueloDAO.java:84-94 | the two UPDATEs keep the set of flights, point the outbound flight at the return flight, and change nothing but pairs |
| Vuelos.LinkKeepsWellPaired | backend/src/main/java/com/aerolineas/dao/VueloDAO.java:49-94 | linking keeps every pair pointing at another existing flight and no flight the return of two |
| Vuelos.UnlinkedShape | backend/src/main/java/com/aerolineas/dao/VueloDAO.java:124-132 | after unlinking, the flight has no pair, no flight points at it, and every other pair is as before |
| Vuelos.UnlinkKeepsWellPaired | backend/src/main/java/com/aerolineas/dao/VueloDAO.java:107-132 | unlinking keeps the pairing well formed |
| Vuelos.EstadoCheck | backend/src/main/java/com/aerolineas/dao/VueloDAO.java:732-762 | a state change passes iff the state is PROGRAMADO or CANCELADO, the flight exists, a cancelled flight stays cancelled, and a cancellation has a non-blank motivo |
| Vuelos.StoredMotivoNotEmpty | backend/src/main/java/com/aerolineas/dao/VueloDAO.java:758-782 | a motivo with a character above U+0020 is stored trimmed and non-empty |
| Vuelos.EscalaCheck | backend/src/main/java/com/aerolineas/dao/VueloDAO.java:996-1051 | a stopover passes iff the ids are positive and distinct, both flights exist, are active and not cancelled, the first lands where the second departs, and no later |
| Vuelos.SegmentsCheck | backend/src/main/java/com/aerolineas/dao/VueloDAO.java:1030-1051 | once both flights are found: both active (a NULL reads as inactive), neither state named cancelled in any case, destination meets origin, and arrival no later than departure |
| Vuelos.VueloDAO.constructor | backend/src/main/java/com/aerolineas/dao/VueloDAO.java:12 | the DAO starts on a well-paired VUELO table with no motivos |
| Vuelos.VueloDAO.VincularPareja | backend/src/main/java/com/aerolineas/dao/VueloDAO.java:49-103 | the result is the link check; on success the flights are linked, on failure nothing changes; the pairing stays well formed |
| Vuelos.VueloDAO.DesvincularPareja | backend/src/main/java/com/aerolineas/dao/VueloDAO.java:107-141 | a non-positive id fails with "ID de vuelo inválido", an unknown one with "Vuelo no encontrado: id"; otherwise the flight's pair and every pair pointing at it are cleared |
| Vuelos.VueloDAO.ActualizarEstado | backend/src/main/java/com/aerolineas/dao/VueloDAO.java:732-791 | the result is the state check; nothing changes on failure or when the state is already the requested one; otherwise the state changes and a cancellation records its trimmed motivo; a cancelled flight stays cancelled |
| Vuelos.Order | backend/src/main/java/com/aerolineas/dao/VueloDAO.java:417-459 | the listed flights are distinct and are exactly the flights with a row that has seats left, in first-seen order |
| Vuelos.ClassesOf | backend/src/main/java/com/aerolineas/dao/VueloDAO.java:422-458 | a flight never has more classes than there are rows |
| Vuelos.GroupedMeaning | backend/src/main/java/com/aerolineas/dao/VueloDAO.java:417-459 | the grouping lists exactly the flights with a kept row, each with the classes of its kept rows in row order |
| Vuelos.GroupPublic | backend/src/main/java/com/aerolineas/dao/VueloDAO.java:417-459 | the listing loop over the rows fills the LinkedHashMap with exactly that grouping, in first-seen order |
| Vuelos.ClassesOfStep | backend/src/main/java/com/aerolineas/dao/VueloDAO.java:422-458 | reading a row appends its class under its flight only when the row has seats left |
| Vuelos.NotListedNoClasses | backend/src/main/java/com/aerolineas/dao/VueloDAO.java:424-425 | a flight with no kept row has no classes |
| Vuelos.ListedStep | backend/src/main/java/com/aerolineas/dao/VueloDAO.java:450-457 | one more kept row adds one class under its flight |
| Vuelos.ListedSkip | backend/src/main/java/com/aerolineas/dao/VueloDAO.java:424-425 | a row with no seats left, or a NULL count, is skipped |
| Vuelos.GroupingConservesRows | backend/src/main/java/com/aerolineas/dao/VueloDAO.java:417-459 | every kept row appears exactly once in the grouped listing |
| Comentarios.RootsOf | backend/src/main/java/com/aerolineas/dao/ComentarioDAO.java:46-54 | a comment is listed as a root iff it was fetched and has no parent or a parent that was not fetched |
| Comentarios.RepliesOf | backend/src/main/java/com/aerolineas/dao/ComentarioDAO.java:46-54 | a comment is listed under p iff it was fetched and its parent is p |
| Comentarios.Linked | backend/src/main/java/com/aerolineas/dao/ComentarioDAO.java:46-54 | the linking loop gives every fetched comment a reply list |
| Comentarios.LinkedMeaning | backend/src/main/java/com/aerolineas/dao/ComentarioDAO.java:46-54 | the linked forest holds exactly the roots and, under each comment, its replies, in fetch order |
| Comentarios.BuildForest | backend/src/main/java/com/aerolineas/dao/ComentarioDAO.java:17-55 | the two loops of `listarPublic` collect the comments by id and link them into exactly that forest |
| Comentarios.UniquePrefix | backend/src/main/java/com/aerolineas/dao/ComentarioDAO.java:41 | distinct ids stay distinct in a prefix, and the last comment's id is not in it |
| Comentarios.RootsNoDup | backend/src/main/java/com/aerolineas/dao/ComentarioDAO.java:46-52 | the root list repeats no comment |
| Comentarios.RepliesNoDup | backend/src/main/java/com/aerolineas/dao/ComentarioDAO.java:46-51 | no reply list repeats a comment |
| Comentarios.PlacedOnce | backend/src/main/java/com/aerolineas/dao/ComentarioDAO.java:46-54 | every fetched comment appears exactly once: a root among the roots only, any other comment under its parent only |
| Comentarios.RootsAreTopLevel | backend/src/main/java/com/aerolineas/dao/ComentarioDAO.java:47-52 | when every parent was fetched, the roots are exactly the comments without a parent |
| Comentarios.OfVuelo | backend/src/main/java/com/aerolineas/dao/ComentarioDAO.java:15 | the query returns exactly the comments of the flight |
| Comentarios.OfVueloUnique | backend/src/main/java/com/aerolineas/dao/ComentarioDAO.java:15 | selecting a flight's comments keeps the ids distinct |
| Comentarios.ThreadedHasNoOrphans | backend/src/main/java/com/aerolineas/dao/ComentarioDAO.java:80-88 | since a parent must exist on the same flight, every parent of a flight's comment is among that flight's comments |
| Comentarios.AppendKeepsThreaded | backend/src/main/java/com/aerolineas/dao/ComentarioDAO.java:80-95 | storing a comment whose parent is a comment of the same flight keeps every parent earlier and on the same flight |
| Comentarios.AppendKeepsUnique | backend/src/main/java/com/aerolineas/dao/ComentarioDAO.java:90-101 | storing a comment under a new identity value keeps the ids distinct |
| Comentarios.CrearCheck | backend/src/main/java/com/aerolineas/dao/ComentarioDAO.java:58-88 | `crear` passes iff the comment is present, not blank, at most 2000 characters long, the flight exists, and any parent is a comment of that flight; the first failing check is the error |
| Comentarios.ComentarioDAO.constructor | backend/src/main/java/com/aerolineas/dao/ComentarioDAO.java:9 | an empty comment table over the given flights |
| Comentarios.ComentarioDAO.Crear | backend/src/main/java/com/aerolineas/dao/ComentarioDAO.java:58-114 | on a failed check nothing is stored; otherwise the trimmed comment is appended under a new id, which is returned |
| Comentarios.ComentarioDAO.ListarPublic | backend/src/main/java/com/aerolineas/dao/ComentarioDAO.java:11-56 | the flight's comments linked into threads; the roots are exactly its top-level comments |
| Ratings.CountMatches | backend/src/main/java/com/aerolineas/dao/RatingDAO.java:60-78 | the UPDATE touches no row iff no row is the user's rating of the flight |
| Ratings.Updated | backend/src/main/java/com/aerolineas/dao/RatingDAO.java:60-64 | the user's rating of the flight gets the new value and time; every other row is unchanged |
| Ratings.Upsert | backend/src/main/java/com/aerolineas/dao/RatingDAO.java:56-87 | a rating outside 1..5 is refused; otherwise the existing row is updated, or a row is inserted when the update touched none |
| Ratings.UpsertKeepsWellFormed | backend/src/main/java/com/aerolineas/dao/RatingDAO.java:56-87 | upserting keeps at most one rating per flight and user, each within 1..5 |
| Ratings.OfVuelo | backend/src/main/java/com/aerolineas/dao/RatingDAO.java:13-17 | the aggregate reads the ratings of exactly the flight's rows, in table order |
| Ratings.Mine | backend/src/main/java/com/aerolineas/dao/RatingDAO.java:18-22 | the user's own rating is missing iff the user has not rated the flight, and otherwise is one of their rows |
| Ratings.MineIsTheRating | backend/src/main/java/com/aerolineas/dao/RatingDAO.java:18-22 | with one rating per user and flight, the user's own rating is the value of their row |
| Ratings.MineOfOnlyMatch | backend/src/main/java/com/aerolineas/dao/RatingDAO.java:18-22 | when a single row is the user's rating of the flight, that row's value is returned |
| Ratings.Summary | backend/src/main/java/com/aerolineas/dao/RatingDAO.java:12-54 | total and sum are the count and sum of the flight's ratings; an anonymous user has no own rating, a signed-in one has one iff they rated the flight, and it is the value of one of their rows |
| Ratings.NoRatingsSummary | backend/src/main/java/com/aerolineas/dao/RatingDAO.java:24-36 | a flight nobody rated reports average 0, total 0 and no own rating |
| Ratings.NoRowsNoRatings | backend/src/main/java/com/aerolineas/dao/RatingDAO.java:13-17 | with no row for the flight the aggregate sees nothing |
| Ratings.SumBounds | backend/src/main/java/com/aerolineas/dao/RatingDAO.java:13-17 | ratings within 1..5 add up to between one and five times their number |
| Ratings.AverageBounds | backend/src/main/java/com/aerolineas/dao/RatingDAO.java:33-34 | a rated flight's average lies within 1..5 |
| Ratings.Promedio | backend/src/main/java/com/aerolineas/dao/RatingDAO.java:33-34 | the average is 0 for an unrated flight, and otherwise times the count gives the sum |
| Ratings.UpsertReadsBack | backend/src/main/java/com/aerolineas/dao/RatingDAO.java:12-97 | after a successful upsert the user's own rating reads back as given, and the count grows by one exactly when they had not rated before |
| Ratings.OfVueloAppend | backend/src/main/java/com/aerolineas/dao/RatingDAO.java:65-68 | an inserted row for the flight adds one to its count |
| Ratings.MineAppend | backend/src/main/java/com/aerolineas/dao/RatingDAO.java:65-68 | an inserted rating is found as the user's own |
| Ratings.OfVueloUpdated | backend/src/main/java/com/aerolineas/dao/RatingDAO.java:60-64 | updating a rating keeps the flight's count |
| Ratings.MineUpdated | backend/src/main/java/com/aerolineas/dao/RatingDAO.java:60-64 | an updated rating is found as the user's own |
| Ratings.RatingDAO.constructor | backend/src/main/java/com/aerolineas/dao/RatingDAO.java:8 | an empty table |
| Ratings.RatingDAO.UpsertRating | backend/src/main/java/com/aerolineas/dao/RatingDAO.java:56-97 | a refused rating leaves the table alone; otherwise the table becomes the upserted one and keeps one rating per user and flight |
| Ratings.RatingDAO.Resumen | backend/src/main/java/com/aerolineas/dao/RatingDAO.java:12-54 | the flight's summary, whose average lies within 1..5 whenever someone rated it |
| Checkout.Digits | frontend/src/paginas/Checkout.jsx:11 | dropping the non-digits leaves only digits, never more of them than the input, and leaves a string of digits as it is |
| Checkout.Contribution | frontend/src/paginas/Checkout.jsx:15-16 | one digit adds less than 10 to the sum, whether it is doubled or not |
| Checkout.Luhn | frontend/src/paginas/Checkout.jsx:10-20 | the right-to-left loop accepts exactly the numbers with at least 12 digits whose Luhn sum is divisible by 10 |
| Checkout.LuhnSumStep | frontend/src/paginas/Checkout.jsx:14-17 | each step of the loop adds its digit's contribution to the sum of the digits already seen |
| Checkout.LuhnSum | frontend/src/paginas/Checkout.jsx:13-18 | the Luhn sum of n digits is at most 9n, since no digit contributes more than 9 |
| Checkout.Digit | frontend/src/paginas/Checkout.jsx:15-16 | one step's value is the digit's Luhn contribution: doubled on every second step, less 9 when the double passes 9 |
| Checkout.LuhnIgnoresNonDigits | frontend/src/paginas/Checkout.jsx:11 | separators and other non-digits never change the verdict |
| Checkout.LuhnAcceptsTestCard | frontend/src/paginas/Checkout.jsx:10-20 | the standard test number 4111 1111 1111 1111 is accepted |
| Checkout.TestCardSum | frontend/src/paginas/Checkout.jsx:13-18 | the test number's Luhn sum is 30 |
| Checkout.TestCardDigits | frontend/src/paginas/Checkout.jsx:11 | the grouped test number reads back as its sixteen digits |
| Checkout.TestCardIsGrouped | frontend/src/paginas/Checkout.jsx:23 | sixteen digits are grouped as four groups of four |
| Checkout.LuhnSumOnes | frontend/src/paginas/Checkout.jsx:13-18 | among n ones the n/2 doubled ones count twice |
| Checkout.LuhnSumReplace | frontend/src/paginas/Checkout.jsx:13-18 | replacing one digit changes the sum by the difference of that position's contributions |
| Checkout.ContributionInjective | frontend/src/paginas/Checkout.jsx:15-16 | different digits contribute differently in the same position |
| Checkout.SingleDigitErrorDetected | frontend/src/paginas/Checkout.jsx:10-20 | a number with one mistyped digit never passes when the original does, since its sum modulo 10 changes |
| Checkout.Take | frontend/src/paginas/Checkout.jsx:23 | `slice(0, n)` keeps a prefix of at most n characters, and the whole text when it is short enough |
| Checkout.GroupedDigits | frontend/src/paginas/Checkout.jsx:23 | the grouped digits read back as the digits |
| Checkout.GroupedLayout | frontend/src/paginas/Checkout.jsx:23 | a space sits at every fifth position and nowhere else, and n digits take n + (n - 1) / 4 characters |
| Checkout.FormatCard | frontend/src/paginas/Checkout.jsx:22-23 | removing the spaces gives back the input's first 19 digits; a space sits exactly at every fifth position; at most 23 characters |
| Checkout.FormatCardIdempotent | frontend/src/paginas/Checkout.jsx:22-23 | formatting a formatted number changes nothing, so formatting on every keystroke is stable |
| Checkout.NoSpaces | frontend/src/paginas/Checkout.jsx:66 | the cleaned number holds no whitespace |
| Checkout.Validar | frontend/src/paginas/Checkout.jsx:64-76 | no message iff every field is acceptable; a blank holder name and then a bad card number are reported first |
| Checkout.ExpandTwoDigitYear | frontend/src/paginas/Checkout.jsx:70 | a two-digit year yy stands for the year 2000 + yy |
| Checkout.PayloadOf | frontend/src/paginas/Checkout.jsx:83-97 | the posted card number has no whitespace, the month is within 1..12, a two-digit year is 2000 + yy and the billing address, city and country are not empty |
| Catalogo.Shown | frontend/src/paginas/VuelosCatalogo.jsx:131 | the shown flights are exactly the map's entries for the listed flights that are not hidden |
| Catalogo.IndexOf | frontend/src/paginas/VuelosCatalogo.jsx:108-109 | the partner is found at a listed position with that id, or it is not listed at all |
| Catalogo.FoldStep | frontend/src/paginas/VuelosCatalogo.jsx:116-128 | attaching the later flight to the earlier one and hiding it keeps the fold's invariant |
| Catalogo.FoldPair | frontend/src/paginas/VuelosCatalogo.jsx:111-128 | the flight departing first (the partner when a date is unknown) hosts the other, and the invariant is kept |
| Catalogo.HostedStep | frontend/src/paginas/VuelosCatalogo.jsx:116-128 | when each flight has at most one partner, hiding one of two linked flights under the other keeps every hidden flight attached to a shown one |
| Catalogo.ShownOrder | frontend/src/paginas/VuelosCatalogo.jsx:131 | the map's values are listed in the listing's order |
| Catalogo.FoldPairs | frontend/src/paginas/VuelosCatalogo.jsx:102-132 | the folded list is no longer than the listing and keeps its order; each entry is a listed flight, unchanged or showing a partner it is linked with, departs no later than and is not itself shown; every flight linked with no other is shown unchanged; when each flight is linked with at most one other, every flight is shown or attached to a shown one, and of each linked pair exactly one is shown, attaching the other |
| Catalogo.FoldAt | frontend/src/paginas/VuelosCatalogo.jsx:106-129 | one turn of the loop keeps the fold's state: every listed flight is itself or hosts a hidden partner linked with it, every hidden flight has a host when the pairs are disjoint, and of each pair named so far one flight is hidden; the hidden set only grows |
| Catalogo.ShownFolded | frontend/src/paginas/VuelosCatalogo.jsx:131 | the fold's final state shows only listed flights, each unchanged or hosting a hidden partner, and every unlinked flight |
| Catalogo.ShownBound | frontend/src/paginas/VuelosCatalogo.jsx:131 | filtering the map's values never lists more flights than were fetched |
| Catalogo.NonEmpty | frontend/src/paginas/VuelosCatalogo.jsx:143-144 | `filter(Boolean)` keeps exactly the non-empty parts, in order |
| Catalogo.Keep | frontend/src/paginas/VuelosCatalogo.jsx:137-155 | a kept flight with a known departure lies within the dates; with a blank query, a flight without a known departure is always kept |
| Catalogo.Filtered | frontend/src/paginas/VuelosCatalogo.jsx:137-155 | exactly the flights that pass the filter are kept, in their order; a kept flight was listed and every listed flight that passes is kept |
| Catalogo.QueryCaseInsensitive | frontend/src/paginas/VuelosCatalogo.jsx:138-147 | the text filter ignores the case of the query |
| Catalogo.NoFilterKeepsAll | frontend/src/paginas/VuelosCatalogo.jsx:138-153 | with no query and no dates every flight is kept |
| PaginasAdmin.Remove | frontend/src/paginas/admin/PaginasInfoAdmin.jsx:24 | `splice(from, 1)` drops exactly the item at `from`, shifting the later ones down |
| PaginasAdmin.Insert | frontend/src/paginas/admin/PaginasInfoAdmin.jsx:25 | `splice(to, 0, item)` puts the item at `to`, shifting the later ones up |
| PaginasAdmin.MoveOutOfRange | frontend/src/paginas/admin/PaginasInfoAdmin.jsx:22 | a target outside the list leaves it as it was |
| PaginasAdmin.MovePermutes | frontend/src/paginas/admin/PaginasInfoAdmin.jsx:20-28 | the moved item lands at `to`, the others keep their order, and the list is a permutation of the old one |
| PaginasAdmin.Move | frontend/src/paginas/admin/PaginasInfoAdmin.jsx:20-28 | the two `splice` calls keep the length, and an in-range move puts the item taken from `from` at `to` |
| PaginasAdmin.MoveBack | frontend/src/paginas/admin/PaginasInfoAdmin.jsx:20-28 | moving the item back undoes a move |
| PaginasAdmin.MoveNeighbour | frontend/src/paginas/admin/PaginasInfoAdmin.jsx:20-28 | a move by one place swaps the two neighbours |
| PaginasAdmin.MoveMedia | frontend/src/paginas/admin/PaginasInfoAdmin.jsx:30-42 | only the chosen section's media move, as a list move; an out-of-range target leaves the section alone, and every other section is unchanged |
| PaginasAdmin.SubmitCheck | frontend/src/paginas/admin/PaginasInfoAdmin.jsx:187-194 | saving goes ahead iff a page is selected and the title is not blank; otherwise the first missing one is reported |
| PaginasAdmin.NamedIff | frontend/src/paginas/admin/PaginasInfoAdmin.jsx:222-227 | a section name has a non-blank character iff its trimmed form is not empty |
| PaginasAdmin.ConIdSaved | frontend/src/paginas/admin/PaginasInfoAdmin.jsx:218-246 | every collected section is named and has an id, and there are no more of them than entries |
| PaginasAdmin.ConIdKeepsSaved | frontend/src/paginas/admin/PaginasInfoAdmin.jsx:229-245 | a named section that already had an id is always collected, whatever the server answers for the new ones |
| PaginasAdmin.ConIdStep | frontend/src/paginas/admin/PaginasInfoAdmin.jsx:220-246 | one more entry adds its collected section, if any |
| PaginasAdmin.SeccionesConId | frontend/src/paginas/admin/PaginasInfoAdmin.jsx:218-246 | the loop collects exactly the named sections with their own or their new id, in order |
| PaginasAdmin.ReorderNumbers | frontend/src/paginas/admin/PaginasInfoAdmin.jsx:249-255 | the reorder request sends each collected section's id with positions 1, 2, ..., n in order |
| PaginasAdmin.NumberMedia | frontend/src/paginas/admin/PaginasInfoAdmin.jsx:258-263 | each section's media are sent with their positions from 1, otherwise unchanged |
| PaginasAdmin.Editor.constructor | frontend/src/paginas/admin/PaginasInfoAdmin.jsx:73-91 | the loaded sections, with nothing removed yet |
| PaginasAdmin.Editor.MovePunto | frontend/src/paginas/admin/PaginasInfoAdmin.jsx:20-28 | the sections are moved as a list move: a permutation with the moved section at its target, nothing removed |
| PaginasAdmin.Editor.MoveMediaOf | frontend/src/paginas/admin/PaginasInfoAdmin.jsx:30-42 | the sections become the media move of the chosen one |
| PaginasAdmin.Editor.AddPunto | frontend/src/paginas/admin/PaginasInfoAdmin.jsx:113-124 | a new, unsaved, empty section is appended, numbered after the others |
| PaginasAdmin.Editor.RemovePunto | frontend/src/paginas/admin/PaginasInfoAdmin.jsx:132-140 | the entry at the index goes and a saved section's id is queued for deletion; an index outside the list changes nothing |
| PdfBoleto.Clean | backend/src/main/java/com/aerolineas/util/PdfBoleto.java:54-60 | every replacement is a code unit from 32 to 255, and a unit in 32-255 is kept |
| PdfBoleto.CleanCases | backend/src/main/java/com/aerolineas/util/PdfBoleto.java:54-60 | line breaks and tabs become spaces; typographic dashes and box drawing become '-', single quotes an apostrophe, double quotes '"', the bullet '*'; exactly the other undrawable units (and '?' itself) give '?' |
| PdfBoleto.Sanitized | backend/src/main/java/com/aerolineas/util/PdfBoleto.java:51-62 | the cleaned text has one unit per input unit, each the replacement of its own |
| PdfBoleto.SanitizedDrawableIdempotent | backend/src/main/java/com/aerolineas/util/PdfBoleto.java:49-63 | the cleaned text can be drawn, and cleaning it again changes nothing |
| PdfBoleto.Sanitize | backend/src/main/java/com/aerolineas/util/PdfBoleto.java:49-63 | a missing field gives "-"; otherwise the loop builds exactly the cleaned text |
| Notificaciones.Safe | backend/src/main/java/com/aerolineas/service/NotificacionesService.java:132 | a missing text reads as empty, a present one as itself |
| Notificaciones.Ruta | backend/src/main/java/com/aerolineas/service/NotificacionesService.java:111-118 | "city, country" when both are given, the one that is not blank otherwise, the dash when both are blank |
| Notificaciones.RutaNotBlank | backend/src/main/java/com/aerolineas/service/NotificacionesService.java:111-118 | a route line is never blank, and it ends with the country whenever there is one |
| Notificaciones.Dt | backend/src/main/java/com/aerolineas/service/NotificacionesService.java:120-123 | a missing date is shown as the dash |
| Notificaciones.BuildNombre | backend/src/main/java/com/aerolineas/service/NotificacionesService.java:125-130 | the greeting is the trimmed "nombres apellidos", or "cliente" when that is blank; it is never blank |
| Notificaciones.BuildNombreJoins | backend/src/main/java/com/aerolineas/service/NotificacionesService.java:125-130 | names without surrounding blanks are greeted as "nombres apellidos", and with neither name the greeting is "cliente" |
| Provision.StrongPassword | CENTRAL/app/services/provision_service.py:17-19 | a password has the length asked for, and every character comes from the alphabet of letters, digits and !@#$%^&*()_+-= |
| Provision.Underscored | CENTRAL/app/services/provision_service.py:31 | every character outside [A-Za-z0-9_] becomes "_", the others are kept, and the length is unchanged |
| Provision.SanitizeUsername | CENTRAL/app/services/provision_service.py:21-37 | an empty identifier is refused with status 400, and only an empty one |
| Provision.SanitizeValid | CENTRAL/app/services/provision_service.py:21-37 | any other identifier gives a valid Oracle name: 1 to 30 characters from [A-Z0-9_], not starting with a digit, prefixed "U_" exactly when the identifier starts with a digit |
| Provision.SanitizeKeepsValid | CENTRAL/app/services/provision_service.py:21-37 | a valid name comes back unchanged |
| Provision.SanitizeIdempotent | CENTRAL/app/services/provision_service.py:21-37 | sanitising a sanitised name changes nothing |
| AgenciasCompras.RoundHalfEven | AGENCIAS/backend/app/services/compras_service.py:41 | `quantize` to a whole cent lands within half a cent of the exact amount |
| AgenciasCompras.RoundExact | AGENCIAS/backend/app/services/compras_service.py:41 | whole amounts are kept, and a tie goes to the even neighbour |
| AgenciasCompras.RoundMonotone | AGENCIAS/backend/app/services/compras_service.py:41 | rounding never reverses an order |
| AgenciasCompras.ApplyMarkup | AGENCIAS/backend/app/services/compras_service.py:25-28 | the marked-up price in cents is within half a cent of the exact base × (1 + pct/100) |
| AgenciasCompras.ApplyMarkupBounds | AGENCIAS/backend/app/services/compras_service.py:25-28 | with no markup the price is the base rounded to cents; a markup never lowers it, and the result is within half a cent of the exact marked-up price |
| AgenciasCompras.Recomputed | AGENCIAS/backend/app/services/compras_service.py:38-42 | every line gets the subtotal of its price and quantity, and is otherwise unchanged |
| AgenciasCompras.Price | AGENCIAS/backend/app/services/compras_service.py:39 | the unit price is precioFinal when present, and otherwise precioBase or 0; it is never negative when the prices are not |
| AgenciasCompras.SubtotalOf | AGENCIAS/backend/app/services/compras_service.py:39-41 | the subtotal in cents lies within half a cent of price × quantity |
| AgenciasCompras.Sum | AGENCIAS/backend/app/services/compras_service.py:37-43 | the running total of the subtotals; `SumAppend`, `SumRemove` and `SumReplace` state how it moves when a line is added, removed or replaced |
| AgenciasCompras.SumAppend | AGENCIAS/backend/app/services/compras_service.py:43 | adding a line to the running total adds its subtotal |
| AgenciasCompras.SumRemove | AGENCIAS/backend/app/services/compras_service.py:167 | deleting a line lowers the sum by its subtotal |
| AgenciasCompras.SumReplace | AGENCIAS/backend/app/services/compras_service.py:156 | replacing a line changes the sum by the difference of the subtotals |
| AgenciasCompras.FindLine | AGENCIAS/backend/app/services/compras_service.py:89-92 | the first airline line for the flight and class, or none iff there is no such line |
| AgenciasCompras.FindItem | AGENCIAS/backend/app/services/compras_service.py:153 | the first line with the id, or none iff there is no such line |
| AgenciasCompras.CheckoutCheck | AGENCIAS/backend/app/services/compras_service.py:180-186 | checkout goes ahead iff the cart holds an airline line; an empty cart is refused as empty, and a non-empty cart without airline lines with "No hay items de vuelo en el carrito" |
| AgenciasCompras.AirlineLines | AGENCIAS/backend/app/services/compras_service.py:184 | exactly the airline lines are sent, in cart order |
| AgenciasCompras.Totals | AGENCIAS/backend/app/services/compras_service.py:37-44 | the loop leaves every subtotal that of its line and the total their sum |
| AgenciasCompras.SubtotalIgnoresSubtotal | AGENCIAS/backend/app/services/compras_service.py:39-41 | a line's subtotal does not depend on the subtotal it held |
| AgenciasCompras.Carrito.constructor | AGENCIAS/backend/app/services/compras_service.py:46-48 | a loaded cart, with its subtotals and total recomputed |
| AgenciasCompras.Carrito.Recalculate | AGENCIAS/backend/app/services/compras_service.py:31-44 | every subtotal is recomputed and the total is their sum |
| AgenciasCompras.Carrito.AddOrIncrement | AGENCIAS/backend/app/services/compras_service.py:82-148 | an existing line for the flight and class grows by at least one seat; otherwise a new line with at least one seat, priced with the markup, is appended; the cart stays totaled |
| AgenciasCompras.Carrito.UpdateQuantity | AGENCIAS/backend/app/services/compras_service.py:151-159 | an unknown id fails with "Item no encontrado" and changes nothing; otherwise that line gets the quantity and the cart stays totaled |
| AgenciasCompras.Carrito.RemoveItem | AGENCIAS/backend/app/services/compras_service.py:162-170 | an unknown id changes nothing; otherwise the first line with that id goes and the cart stays totaled |
| AgenciasCompras.NewLine | AGENCIAS/backend/app/services/compras_service.py:126-144 | the new line is an airline line with the new id, the flight, the class and max(1, cantidad) seats, and no subtotal yet; it keeps the class price as base price, has a final price iff the class has a price, within half a cent of the marked-up price, and names its pair iff asked |
| AgenciasCompras.GrownHoldsLine | AGENCIAS/backend/app/services/compras_service.py:89-95 | after an existing line grows and the cart is recomputed, the lookup finds that line, its seats raised by the amount |
| AgenciasCompras.AppendedHoldsLine | AGENCIAS/backend/app/services/compras_service.py:126-147 | after a new line for the flight and class is appended and the cart recomputed, the lookup finds it at the end with its seats |
| AgenciasCompras.RecomputedTotaled | AGENCIAS/backend/app/services/compras_service.py:31-44 | recomputing a totaled cart changes nothing |
| AgenciasCompras.AddedLineTotal | AGENCIAS/backend/app/services/compras_service.py:145-147 | adding a new line raises the total by exactly its subtotal |
| AgenciasCompras.ChangedLineTotal | AGENCIAS/backend/app/services/compras_service.py:156-158 | changing one quantity changes the total by the difference of that line's subtotals |
| AgenciasCompras.RemovedLineTotal | AGENCIAS/backend/app/services/compras_service.py:167-169 | removing a line lowers the total by exactly its subtotal |
| AgenciasVuelos.ClassHasCapacity | AGENCIAS/backend/app/services/vuelos_service.py:43-51 | an integer count has room iff it covers the passengers; without one, only a single passenger (or none) fits |
| AgenciasVuelos.HasCapacity | AGENCIAS/backend/app/services/vuelos_service.py:53-55 | a flight has room iff some class has room |
| AgenciasVuelos.CapacityMonotone | AGENCIAS/backend/app/services/vuelos_service.py:43-55 | fewer passengers never need more room |
| AgenciasVuelos.IsCancelled | AGENCIAS/backend/app/services/vuelos_service.py:31-36 | a flight is cancelled iff its state id is the configured one or its trimmed, lower-cased state name is "cancelado" |
| AgenciasVuelos.MinPrice | AGENCIAS/backend/app/services/vuelos_service.py:38-41 | no price iff no class has a numeric price; otherwise the lowest of them, which is some class's price |
| AgenciasVuelos.ValidFlight | AGENCIAS/backend/app/services/vuelos_service.py:80-87 | a flight is offered iff it is active, cancelled under neither test, and some class has a numeric price |
| AgenciasVuelos.ParseDatetimeToDate | AGENCIAS/backend/app/services/vuelos_service.py:20-29 | empty text gives no date |
| AgenciasVuelos.NormUpper | AGENCIAS/backend/app/services/vuelos_service.py:96-97 | normalising an upper-cased place gives the same text as normalising it as typed |
| AgenciasVuelos.Norm | AGENCIAS/backend/app/services/vuelos_service.py:96-97 | `(x or "").strip().lower()`: never longer than the text, and with no upper-case letter left |
| AgenciasVuelos.MatchIgnoresCase | AGENCIAS/backend/app/services/vuelos_service.py:89-110 | the origin and destination filters ignore the case of the query |
| AgenciasVuelos.PlaceIgnoresCase | AGENCIAS/backend/app/services/vuelos_service.py:99-102 | one place filter ignores the case of the query |
| AgenciasVuelos.PlaceOk | AGENCIAS/backend/app/services/vuelos_service.py:99-102 | an empty or missing filter passes every place, and a passing non-empty filter normalises to the place |
| AgenciasVuelos.MatchFilters | AGENCIAS/backend/app/services/vuelos_service.py:89-110 | a flight matches iff a given origin and destination equal its own once normalised, a given date is its departure day, and for a passenger count some class has room for them |
| AgenciasVuelos.EmptyFiltersMatch | AGENCIAS/backend/app/services/vuelos_service.py:89-110 | empty or missing filters match every flight |
| AgenciasVuelos.MatchNeedsRoom | AGENCIAS/backend/app/services/vuelos_service.py:108-109 | a flight matches a search for two or more passengers only if some class has an integer count covering them all |
| AgenciasModels.NormalizeDt | AGENCIAS/backend/app/models/compras.py:7-25 | only a missing value gives none; text comes back as it is; a list or tuple of at least three parts becomes the zero-padded date-time stamp; anything else becomes its `str` |
| AgenciasModels.ShowParts | AGENCIAS/backend/app/models/compras.py:25 | Python's `str` of a list is bracketed, of a tuple parenthesised, a one-tuple ends in ",)", and no parts give "[]" or "()" |
| AgenciasModels.MissingTimeIsMidnight | AGENCIAS/backend/app/models/compras.py:19-24 | missing hours, minutes and seconds read as zero |
| AgenciasModels.Stamp | AGENCIAS/backend/app/models/compras.py:20-24 | in-range parts give the 19-character "YYYY-MM-DDTHH:mm:ss" layout, and each fixed-width field is all digits and reads back as its part, missing hours, minutes and seconds as 0 |
| AgenciasModels.PadExact | AGENCIAS/backend/app/models/compras.py:24 | a number from 0 up to below 10^w is padded to exactly w digits |
| AgenciasModels.PadValue | AGENCIAS/backend/app/models/compras.py:24 | a non-negative number zero-padded by `:0wd` is all digits and reads back as the number |
| AgenciasModels.NatToStringValue | AGENCIAS/backend/app/models/compras.py:24 | the decimal digits of a number read back as that number, by induction |
| AgenciasModels.NatToStringLength | AGENCIAS/backend/app/models/compras.py:24 | numbers below 10, 100, 1000 and 10000 have at most 1, 2, 3 and 4 digits |

## Left out

- SQL text, JDBC, transactions and rollbacks, MongoDB and HTTP are left out. Tables and documents are sequences and maps, and each operation is atomic. A failed check leaves the state unchanged, as a rollback would.
- Calls to other services become parameters:
  - the airline's flight detail (the class price in the agency cart);
  - `uuid4` and the identity columns (the new line's id, the counters);
  - `secrets.choice` (the positions picked);
  - `SYSDATE`/`SYSTIMESTAMP` (a `now` argument);
  - `toDate`, `fromisoformat` and the e-mail date formatter (functions passed in).
- The stored procedure `PR_CHECKOUT_CARRITO` is not part of this model. Only the guard of `ComprasDAO.checkout` is modelled.
- `Compras.CancelFreesSeats` states that a cancellation raises a class's free seats by twice the seats returned. The reason:
  - `cancelarReserva` adds the seats back to CUPO_TOTAL;
  - it also stops counting them as held.
  - Whether CUPO_TOTAL was lowered at checkout is decided in that procedure, so it is not reported as a defect here.
- Floating point is not modelled.
  - The agency's float copies of prices and totals are exact `real`s.
  - `Decimal`'s 28-digit context is unbounded.
  - The rating average is an exact quotient.
  - Double prices in the Java DAOs are integer cents.
- Integer widths are unbounded. No 32- or 64-bit overflow is modelled.
- Case mapping is ASCII only.
  - JavaScript's `toLowerCase` and Python's `lower` map letters outside ASCII too; here those letters are left as they are.
  - This touches the router's external-link test, the catalogue filter and the agency's place filters.
  - Oracle user names hold only ASCII after the substitution, so their case mapping is exact.
- Strings are sequences of characters. Only `PdfBoleto.sanitize` works on UTF-16 code units, as Java's `char` does.
- `PaginasAdmin.Editor.MovePunto` and `PaginasAdmin.MoveMedia` require `from` to lie in the list whenever `to` does. The buttons only pass neighbouring positions. With `from` out of range, JavaScript's `splice` would insert `undefined`; that case is not modelled.
- `PaginasAdmin.Editor.MoveMediaOf` carries the same requirement, since it applies `PaginasAdmin.MoveMedia`.
- `addMedia`, `removeMedia`, `updatePuntoField`, `updateMediaField` and the media save loop of `PaginasInfoAdmin` are left out. They are plain field updates and HTTP calls, except for the media numbering, which `PaginasAdmin.NumberMedia` models.
- `Catalogo.FoldPairs` requires distinct flight ids. ID_VUELO is the primary key, so the listing never repeats one. With repeated ids, a JavaScript `Map` keeps only the last copy.
- `AgenciasCompras.NewLine` leaves out the descriptive fields of a new cart line: flight code, dates, cities and class name. They are copied from the airline's answer and no rule reads them.
- `AgenciasCompras.ApplyMarkupBounds` covers non-negative prices and markups only. Negative markups do not occur in the provider configuration.
- The agency's `search_flights` sort, `list_origins`, and the reads that only map documents (`get_cart`, the reservation views) are left out.
- The environment overrides of `ESTADO_CANCELADO_ID` and `ESTADO_CANCELADO_TXT` are fixed at their defaults, 2 and "cancelado".
- `AgenciasVuelos.ParseDatetimeToDate` states only the empty-text case. `fromisoformat` is a parameter, so nothing more can be said about what it accepts.
- `NoticiaDAO.actualizar`'s "Noticia no encontrada" after the UPDATE cannot happen once the row was found. The same holds for `TipDAO.actualizar`'s "Tip no encontrado" after its UPDATE (backend/src/main/java/com/aerolineas/dao/TipDAO.java:165-167). Only the check before each is modelled.
- `RatingDAO.resumen` returns a `Double`. Here the average is kept as an exact sum over a count (`Ratings.Promedio`).
- The browser's History API is a single `location` field of `Router.Navigation`, updated by `Navigate`, `Apply`, `PopState` and `HashChange`. The history stack is not modelled, so `pushState` and `replaceState` (the `replace` option) have the same effect here. The microtask that runs `apply` after `navigate` runs at once, and the `load` listener is `Apply`.
- `Router.ParseUrl` splits the URL at the first `#` and the first `?` before it. The browser's percent-encoding of the pathname and its resolution of `.` and `..` segments are not modelled.
- `Router.GetQuery`: returns the query text that `URLSearchParams` is built from. Splitting it into pairs, `+` and percent decoding are not modelled.
- `Router.PathSegments`: normalises with `Router.Normalize`, which collapses slashes before consulting the alias table (see Findings). The two orders differ only on an alias written with repeated slashes, such as "//registro".
- `Router.CurrentOr`: falls back to `Router.Normalize`, the corrected order.
- `Router.Match`: compares segments of paths normalised by `Router.Normalize`, the corrected order.
- `Router.Migrated`: normalises the route with `Router.Normalize`, the corrected order.
- `Router.Navigation.constructor`: the store takes the pathname normalised by `Router.Normalize`, the corrected order.
- `Router.Navigation.Navigate`: compares and stores paths normalised by `Router.Normalize`, the corrected order.
- `Router.Navigation.Apply`: normalises with `Router.Normalize`, the corrected order.
- `Router.Navigation.PopState`: normalises with `Router.Normalize`, the corrected order.
- `Router.Navigation.HashChange`: normalises with `Router.Normalize`, the corrected order.
- `Router.LinkIntercepts`: its last clause speaks of `Router.Normalize`, the corrected order; `Router.NormalizeAsWritten` also returns a path starting with `/`.
- `Router.QueryTargetRewritesAgain` and `Router.HashWithQueryMigrates` use paths without repeated slashes, on which both orders agree (`Router.NormalizeClean`).
- `Compras.ComprasDAO.UpdateQuantity`: models the corrected check, `Compras.UpdateCheck`. The check as written is `Compras.UpdateCheckAsWritten`, and `Compras.UpdateAsWrittenOverbooks` shows the input on which the two differ.
- `Catalogo.FoldPairs`: "every flight is shown or attached to a shown one" and "of each linked pair exactly one is shown, attaching the other" are stated only when each flight is linked with at most one other. With chains (A's pair is B, B's pair is C), a later fold can overwrite an earlier attachment or hide a flight that hosts another, and a flight paired with itself hides itself; those listings are not characterised beyond the other clauses.
- `Compras.Merge`: grows only the first line of the cart for the flight and class, where the SQL MERGE updates every matching row. The model takes a cart to hold at most one line per flight and class, which `Merge` keeps by inserting only when none exists; `Compras.ComprasDAO.Valid` does not state it, so a table seeded with duplicate lines is not modelled.
- Mail sending, PDF page layout, JWT, password hashing, reCAPTCHA, the launcher, schema provisioning SQL and the mailing thread of `VueloController` are foreign libraries, network calls or concurrency, and are left out.
- Plain CRUD mappers (`UsuarioDAO`, `PaisDAO`, `CiudadDAO`, `RutaDAO`, `PaginaDAO`, `SeccionDAO`, `MediaDAO`, the configuration DAOs) and UI rendering are left out.

## Findings

| source | as written | input that shows it | evidently intended | confidence | as-written member | corrected member |
|---|---|---|---|---|---|---|
| AGENCIAS/frontend/src/lib/router.js:9-11 | the alias table is consulted before runs of slashes are collapsed | "//registro" normalises to "/registro", and normalising that again gives "/register" | normalising is idempotent, and an aliased path is recognised however many slashes it has | not executed | Router.NormalizeAsWrittenNotIdempotent | Router.NormalizeIdempotent |
| backend/src/main/java/com/aerolineas/dao/ComprasDAO.java:374-390 | when a line does not grow, no capacity check runs, and the paired return line is set to the new quantity even when that raises it | outbound line of 5 seats, return line of 1 seat on a 1-seat class, quantity set to 3 with the pair in step: the return class gets 3 seats in carts | the return line's seats are checked whenever it grows, so no class is overbooked | not executed | Compras.UpdateAsWrittenOverbooks | Compras.UpdateKeepsNoOverbooking |

=== FILE: agencias_compras.dfy ===
/** The travel agency's shopping cart: flight seats from the airline,
    priced with the provider's markup, with subtotals and a total that are
    recomputed after every change. Amounts are exact decimals (`real`);
    rounded amounts are whole cents (`int`). */
module AgenciasCompras {
  import opened Wrappers
  import opened Seqs

  const AEROLINEAS := "AEROLINEAS"

  // ------------------------------------------------------------ rounding

  /** `Decimal.quantize` to a whole unit with the default rounding,
      half to even. */
  function RoundHalfEven(x: real): (r: int)
    ensures r as real - 0.5 <= x <= r as real + 0.5
  {
    var f := x.Floor;
    var d := x - f as real;
    if d < 0.5 then f
    else if d > 0.5 then f + 1
    else if f % 2 == 0 then f
    else f + 1
  }

  /** Whole amounts are kept, and a tie goes to the even neighbour. */
  lemma RoundExact(n: int)
    ensures RoundHalfEven(n as real) == n
    ensures RoundHalfEven(n as real + 0.5) % 2 == 0
  {
    assert (n as real).Floor == n;
    assert (n as real + 0.5).Floor == n;
  }

  /** Rounding never reverses an order. */
  lemma RoundMonotone(x: real, y: real)
    requires x <= y
    ensures RoundHalfEven(x) <= RoundHalfEven(y)
  {
  }

  /** `_apply_markup`: the base price raised by `pct` percent, in cents,
      within half a cent of the exact marked-up amount. */
  function ApplyMarkup(base: real, pct: real): (cents: int)
    ensures cents as real - 0.5 <= base * (1.0 + pct / 100.0) * 100.0 <= cents as real + 0.5
  {
    if pct == 0.0 then RoundHalfEven(base * 100.0)
    else RoundHalfEven(base * (1.0 + pct / 100.0) * 100.0)
  }

  /** With no markup the price is the base rounded to cents; a markup
      never lowers it, and the result is within half a cent of the exact
      marked-up price. */
  lemma ApplyMarkupBounds(base: real, pct: real)
    requires base >= 0.0 && pct >= 0.0
    ensures pct == 0.0 ==> ApplyMarkup(base, pct) == RoundHalfEven(base * 100.0)
    ensures ApplyMarkup(base, pct) >= RoundHalfEven(base * 100.0)
    ensures ApplyMarkup(base, pct) as real - 0.5 <= base * (1.0 + pct / 100.0) * 100.0 <= ApplyMarkup(base, pct) as real + 0.5
  {
    assert base * (1.0 + pct / 100.0) * 100.0 == base * 100.0 + base * pct;
    assert base * pct >= 0.0;
    RoundMonotone(base * 100.0, base * (1.0 + pct / 100.0) * 100.0);
  }

  // ------------------------------------------------------------ the cart

  /** A cart line; `precioBase`/`precioFinal` are none when the airline
      gave no price for the class, `subtotal` is in cents. */
  datatype Item = Item(idItem: string, proveedor: string, idVuelo: int, idClase: int, cantidad: int,
                       precioBase: Option<real>, precioFinal: Option<real>, subtotal: int,
                       parejaDe: Option<int>)

  /** The unit price used: the final price, else the base price, else 0
      (a missing price does not parse as a decimal). */
  function Price(it: Item): (p: real)
    ensures it.precioFinal.Some? ==> p == it.precioFinal.value
    ensures p == 0.0 || Some(p) == it.precioFinal || Some(p) == it.precioBase
    ensures (it.precioFinal.Some? ==> it.precioFinal.value >= 0.0) && (it.precioBase.Some? ==> it.precioBase.value >= 0.0)
      ==> p >= 0.0
  {
    if it.precioFinal.Some? then it.precioFinal.value
    else if it.precioBase.Some? then it.precioBase.value
    else 0.0
  }

  /** Unit price times quantity, rounded to cents. */
  function LineCents(price: real, cantidad: int): int {
    RoundHalfEven(price * cantidad as real * 100.0)
  }

  /** A line's subtotal. */
  function SubtotalOf(it: Item): (c: int)
    ensures -0.5 <= c as real - Price(it) * it.cantidad as real * 100.0 <= 0.5
  {
    LineCents(Price(it), it.cantidad)
  }

  /** The total of the subtotals. */
  function Sum(items: seq<Item>): int {
    if items == [] then 0 else Sum(items[..|items| - 1]) + items[|items| - 1].subtotal
  }

  /** Every subtotal is its line's, and the total is their sum. */
  predicate Totaled(items: seq<Item>, total: int) {
    (forall i :: 0 <= i < |items| ==> items[i].subtotal == SubtotalOf(items[i])) && total == Sum(items)
  }

  /** The lines with their subtotals recomputed. */
  function Recomputed(items: seq<Item>): (r: seq<Item>)
    ensures |r| == |items|
    ensures forall i :: 0 <= i < |items| ==> r[i] == items[i].(subtotal := SubtotalOf(items[i]))
  {
    seq(|items|, i requires 0 <= i < |items| => items[i].(subtotal := SubtotalOf(items[i])))
  }

  lemma {:induction false} SumAppend(items: seq<Item>, it: Item)
    ensures Sum(items + [it]) == Sum(items) + it.subtotal
  {
    assert (items + [it])[..|items|] == items;
  }

  lemma {:induction false} SumRemove(items: seq<Item>, k: int)
    requires 0 <= k < |items|
    ensures Sum(items[..k] + items[k + 1..]) == Sum(items) - items[k].subtotal
    decreases |items|
  {
    var n := |items| - 1;
    if k == n {
      assert items[..k] + items[k + 1..] == items[..n];
    } else {
      SumRemove(items[..n], k);
      assert items[..n][..k] + items[..n][k + 1..] == (items[..k] + items[k + 1..])[..n - 1];
      assert (items[..k] + items[k + 1..])[n - 1] == items[n];
      assert items[..n][k] == items[k];
    }
  }

  lemma {:induction false} SumReplace(items: seq<Item>, k: int, it: Item)
    requires 0 <= k < |items|
    ensures Sum(items[k := it]) == Sum(items) - items[k].subtotal + it.subtotal
    decreases |items|
  {
    var n := |items| - 1;
    if k < n {
      SumReplace(items[..n], k, it);
      assert items[k := it][..n] == items[..n][k := it];
    } else {
      assert items[k := it][..n] == items[..n];
    }
  }

  /** The first line for this airline flight and class, if any. */
  function FindLine(items: seq<Item>, idVuelo: int, idClase: int): (k: int)
    ensures k == -1 || (0 <= k < |items| && Same(items[k], idVuelo, idClase))
    ensures k == -1 <==> forall i :: 0 <= i < |items| ==> !Same(items[i], idVuelo, idClase)
    ensures k != -1 ==> forall i :: 0 <= i < k ==> !Same(items[i], idVuelo, idClase)
  {
    if items == [] then -1
    else if Same(items[0], idVuelo, idClase) then 0
    else
      var k := FindLine(items[1..], idVuelo, idClase);
      if k == -1 then -1 else k + 1
  }

  /** Recomputing the subtotals keeps the first line for the flight and
      class where it was, with its quantity. */
  lemma FindLineRecomputed(items: seq<Item>, idVuelo: int, idClase: int, k: int)
    requires 0 <= k < |items| && Same(items[k], idVuelo, idClase)
    requires forall i :: 0 <= i < k ==> !Same(items[i], idVuelo, idClase)
    ensures FindLine(Recomputed(items), idVuelo, idClase) == k
    ensures Recomputed(items)[k].cantidad == items[k].cantidad
  {
    FindLineAt(Recomputed(items), idVuelo, idClase, k);
  }

  /** The first line for the flight and class is the one the lookup finds. */
  lemma FindLineAt(items: seq<Item>, idVuelo: int, idClase: int, k: int)
    requires 0 <= k < |items| && Same(items[k], idVuelo, idClase)
    requires forall i :: 0 <= i < k ==> !Same(items[i], idVuelo, idClase)
    ensures FindLine(items, idVuelo, idClase) == k
  {
  }

  predicate Same(it: Item, idVuelo: int, idClase: int) {
    it.proveedor == AEROLINEAS && it.idVuelo == idVuelo && it.idClase == idClase
  }

  /** The first line with this id, if any. */
  function FindItem(items: seq<Item>, idItem: string): (k: int)
    ensures k == -1 || (0 <= k < |items| && items[k].idItem == idItem)
    ensures k == -1 <==> forall i :: 0 <= i < |items| ==> items[i].idItem != idItem
    ensures k != -1 ==> forall i :: 0 <= i < k ==> items[i].idItem != idItem
  {
    if items == [] then -1
    else if items[0].idItem == idItem then 0
    else
      var k := FindItem(items[1..], idItem);
      if k == -1 then -1 else k + 1
  }

  function Max1(n: int): int { if n < 1 then 1 else n }

  /** The guards of `checkout`, and the lines sent to the airline. */
  function CheckoutCheck(items: seq<Item>): (r: Outcome)
    ensures r.Pass? <==> exists i :: 0 <= i < |items| && items[i].proveedor == AEROLINEAS
    ensures items == [] ==> r == Fail("El carrito está vacío")
    ensures items != [] && r.Fail? ==> r == Fail("No hay items de vuelo en el carrito")
  {
    if items == [] then Fail("El carrito está vacío")
    else if AirlineLines(items) == [] then Fail("No hay items de vuelo en el carrito")
    else
      assert AirlineLines(items)[0] in AirlineLines(items);
      Pass
  }

  /** The lines the airline sells, in cart order. */
  function AirlineLines(items: seq<Item>): (r: seq<Item>)
    ensures r == Filter(items, FromAirline)
    ensures forall it :: it in r <==> it in items && it.proveedor == AEROLINEAS
  {
    if items == [] then []
    else (if items[0].proveedor == AEROLINEAS then [items[0]] else []) + AirlineLines(items[1..])
  }

  predicate FromAirline(it: Item) {
    it.proveedor == AEROLINEAS
  }

  /** The loop of `_recalculate_totals`: each line's subtotal is set and
      added to the running total. */
  method Totals(its: seq<Item>) returns (out: seq<Item>, t: int)
    ensures out == Recomputed(its)
    ensures Totaled(out, t)
  {
    out := [];
    t := 0;
    var i := 0;
    while i < |its|
      invariant 0 <= i <= |its|
      invariant |out| == i
      invariant forall k :: 0 <= k < i ==> out[k] == its[k].(subtotal := SubtotalOf(its[k]))
      invariant t == Sum(out)
    {
      var it := its[i];
      var sub := SubtotalOf(it);
      SumAppend(out, it.(subtotal := sub));
      out := out + [it.(subtotal := sub)];
      t := t + sub;
      i := i + 1;
    }
    forall k | 0 <= k < |out| ensures out[k].subtotal == SubtotalOf(out[k]) {
      SubtotalIgnoresSubtotal(its[k], SubtotalOf(its[k]));
    }
  }

  /** A line's subtotal does not depend on the subtotal it holds. */
  lemma SubtotalIgnoresSubtotal(it: Item, x: int)
    ensures SubtotalOf(it.(subtotal := x)) == SubtotalOf(it)
  {
    assert Price(it.(subtotal := x)) == Price(it);
  }

  /** A user's cart, as stored. */
  class Carrito {
    var items: seq<Item>
    var total: int

    predicate Valid()
      reads this
    {
      Totaled(items, total)
    }

    constructor (its: seq<Item>)
      ensures items == Recomputed(its) && Valid()
    {
      items := its;
      total := 0;
      new;
      Recalculate();
    }

    /** `_recalculate_totals`: every subtotal and the total, line by line. */
    method Recalculate()
      modifies this
      ensures items == Recomputed(old(items))
      ensures total == Sum(items)
      ensures Valid()
    {
      var out, t := Totals(items);
      items := out;
      total := t;
    }

    /** `add_or_increment_item`: an existing line for the flight and class
        grows by at least one seat; otherwise a new line is added, priced
        with the markup. `precioClase` is the airline's price for the class
        (none when it has none), `nuevoId` the new line's id. */
    method AddOrIncrement(idVuelo: int, idClase: int, cantidad: int, incluirPareja: bool,
                          markup: real, precioClase: Option<real>, nuevoId: string)
      requires Valid()
      modifies this
      ensures Valid()
      ensures var k := FindLine(old(items), idVuelo, idClase);
        if k != -1 then
          items == Recomputed(old(items)[k := old(items)[k].(cantidad := old(items)[k].cantidad + Max1(cantidad))])
        else
          items == Recomputed(old(items) + [NewLine(idVuelo, idClase, cantidad, incluirPareja, markup, precioClase, nuevoId)])
    {
      var k := FindLine(items, idVuelo, idClase);
      if k != -1 {
        items := items[k := items[k].(cantidad := items[k].cantidad + Max1(cantidad))];
      } else {
        items := items + [NewLine(idVuelo, idClase, cantidad, incluirPareja, markup, precioClase, nuevoId)];
      }
      Recalculate();
    }

    /** `update_quantity`: sets the quantity of the line with that id. */
    method UpdateQuantity(idItem: string, cantidad: int) returns (r: Outcome)
      requires Valid()
      modifies this
      ensures Valid()
      ensures r.Fail? <==> FindItem(old(items), idItem) == -1
      ensures r.Fail? ==> r.error == "Item no encontrado" && items == old(items) && total == old(total)
      ensures r.Pass? ==>
        var k := FindItem(old(items), idItem);
        items == Recomputed(old(items)[k := old(items)[k].(cantidad := cantidad)])
    {
      var k := FindItem(items, idItem);
      if k == -1 {
        return Fail("Item no encontrado");
      }
      items := items[k := items[k].(cantidad := cantidad)];
      Recalculate();
      r := Pass;
    }

    /** `remove_item`: the first line with that id goes; an unknown id
        changes nothing. */
    method RemoveItem(idItem: string)
      requires Valid()
      modifies this
      ensures Valid()
      ensures var k := FindItem(old(items), idItem);
        if k == -1 then items == old(items) && total == old(total)
        else items == Recomputed(old(items)[..k] + old(items)[k + 1..])
    {
      var k := FindItem(items, idItem);
      if k == -1 {
        return;
      }
      items := items[..k] + items[k + 1..];
      Recalculate();
    }
  }

  /** The line `add_or_increment_item` creates. */
  function NewLine(idVuelo: int, idClase: int, cantidad: int, incluirPareja: bool,
                   markup: real, precioClase: Option<real>, nuevoId: string): (it: Item)
    ensures it.idItem == nuevoId && it.idVuelo == idVuelo && it.idClase == idClase
    ensures it.cantidad == Max1(cantidad) && it.cantidad >= 1 && it.proveedor == AEROLINEAS
    ensures it.precioFinal.Some? <==> precioClase.Some?
    ensures it.precioBase == precioClase && it.subtotal == 0
    ensures precioClase.Some? ==>
      -0.005 <= it.precioFinal.value - precioClase.value * (1.0 + markup / 100.0) <= 0.005
    ensures incluirPareja <==> it.parejaDe == Some(idVuelo)
  {
    Item(nuevoId, AEROLINEAS, idVuelo, idClase, Max1(cantidad), precioClase,
         if precioClase.Some? then Some(ApplyMarkup(precioClase.value, markup) as real / 100.0) else None,
         0, if incluirPareja then Some(idVuelo) else None)
  }

  /** After `AddOrIncrement` grows the line at `k`, the lookup still finds
      that line, now `n` seats larger. */
  lemma GrownHoldsLine(items: seq<Item>, idVuelo: int, idClase: int, k: int, n: int)
    requires k == FindLine(items, idVuelo, idClase) && k != -1
    ensures var r := Recomputed(items[k := items[k].(cantidad := items[k].cantidad + n)]);
      FindLine(r, idVuelo, idClase) == k && r[k].cantidad == items[k].cantidad + n
  {
    var t := items[k := items[k].(cantidad := items[k].cantidad + n)];
    assert forall i :: 0 <= i < k ==> t[i] == items[i];
    FindLineRecomputed(t, idVuelo, idClase, k);
  }

  /** After `AddOrIncrement` appends a new line (one that `NewLine` builds for
      the flight and class), the lookup finds it at the end with its seats. */
  lemma AppendedHoldsLine(items: seq<Item>, idVuelo: int, idClase: int, line: Item)
    requires FindLine(items, idVuelo, idClase) == -1 && Same(line, idVuelo, idClase)
    ensures var r := Recomputed(items + [line]);
      FindLine(r, idVuelo, idClase) == |items| && r[|items|].cantidad == line.cantidad
  {
    var t := items + [line];
    assert forall i :: 0 <= i < |items| ==> t[i] == items[i];
    FindLineRecomputed(t, idVuelo, idClase, |items|);
  }

  /** Recomputing a totaled cart changes nothing. */
  lemma {:induction false} RecomputedTotaled(items: seq<Item>, total: int)
    requires Totaled(items, total)
    ensures Recomputed(items) == items
  {
  }

  /** Adding a new line raises a totaled cart's total by exactly that
      line's subtotal. */
  lemma AddedLineTotal(items: seq<Item>, total: int, it: Item)
    requires Totaled(items, total)
    ensures Sum(Recomputed(items + [it])) == total + SubtotalOf(it)
  {
    RecomputedTotaled(items, total);
    assert Recomputed(items + [it]) == items + [it.(subtotal := SubtotalOf(it))];
    SumAppend(items, it.(subtotal := SubtotalOf(it)));
  }

  /** Changing one line's quantity changes the total by the difference of
      that line's subtotals. */
  lemma ChangedLineTotal(items: seq<Item>, total: int, k: int, cantidad: int)
    requires Totaled(items, total) && 0 <= k < |items|
    ensures var it := items[k].(cantidad := cantidad);
      Sum(Recomputed(items[k := it])) == total - items[k].subtotal + SubtotalOf(it)
  {
    var it := items[k].(cantidad := cantidad);
    RecomputedTotaled(items, total);
    assert Recomputed(items[k := it]) == items[k := it.(subtotal := SubtotalOf(it))];
    SumReplace(items, k, it.(subtotal := SubtotalOf(it)));
  }

  /** Removing a line lowers the total by exactly its subtotal. */
  lemma RemovedLineTotal(items: seq<Item>, total: int, k: int)
    requires Totaled(items, total) && 0 <= k < |items|
    ensures Sum(Recomputed(items[..k] + items[k + 1..])) == total - items[k].subtotal
  {
    RecomputedTotaled(items, total);
    assert Recomputed(items[..k] + items[k + 1..]) == items[..k] + items[k + 1..];
    SumRemove(items, k);
  }
}

=== FILE: agencias_models.dfy ===
/** How the agency's purchase models read a date-time that arrives either
    as text or as the list of its parts. */
module AgenciasModels {
  import opened Wrappers
  import opened Text

  /** The shapes a date-time field takes: missing, text, a list or tuple of
      integer parts, or anything else (with its `str`). */
  datatype DtValue = Null | Text(s: string) | Parts(xs: seq<int>, tuple: bool) | Other(shown: string)

  /** Python's `str` of a list or tuple of integers. */
  function ShowParts(xs: seq<int>, tuple: bool): (r: string)
    ensures |r| >= 2
    ensures !tuple ==> r[0] == '[' && r[|r| - 1] == ']'
    ensures tuple ==> r[0] == '(' && r[|r| - 1] == ')'
    ensures xs == [] ==> r == (if tuple then "()" else "[]")
    ensures tuple && |xs| == 1 ==> r[|r| - 2] == ','
  {
    var items := Join(seq(|xs|, i requires 0 <= i < |xs| => IntToString(xs[i])), ", ");
    if !tuple then "[" + items + "]"
    else if |xs| == 1 then "(" + items + ",)"
    else "(" + items + ")"
  }

  /** The part at `i`, 0 when the list is shorter. */
  function PartOr0(xs: seq<int>, i: nat): int { if i < |xs| then xs[i] else 0 }

  /** `s` is all digits and spells `n` in base 10. */
  predicate Spells(s: string, n: int) { AllDigits(s) && DecimalValue(s) == n }

  /** "YYYY-MM-DDTHH:mm:ss" from the parts, hours to seconds defaulting to 0. */
  function Stamp(xs: seq<int>): (r: string)
    requires |xs| >= 3
    ensures (&& 0 <= xs[0] < 10000 && 0 <= xs[1] < 100 && 0 <= xs[2] < 100
             && forall i :: 3 <= i < 6 ==> 0 <= PartOr0(xs, i) < 100) ==>
      && |r| == 19 && r[4] == '-' && r[7] == '-' && r[10] == 'T' && r[13] == ':' && r[16] == ':'
      && Spells(r[..4], xs[0]) && Spells(r[5..7], xs[1]) && Spells(r[8..10], xs[2])
      && Spells(r[11..13], PartOr0(xs, 3)) && Spells(r[14..16], PartOr0(xs, 4)) && Spells(r[17..19], PartOr0(xs, 5))
  {
    var y, mo, d := ZeroPadInt(xs[0], 4), ZeroPadInt(xs[1], 2), ZeroPadInt(xs[2], 2);
    var h, mi, se := ZeroPadInt(PartOr0(xs, 3), 2), ZeroPadInt(PartOr0(xs, 4), 2), ZeroPadInt(PartOr0(xs, 5), 2);
    PadSpells(xs[0], 4);
    PadSpells(xs[1], 2);
    PadSpells(xs[2], 2);
    PadSpells(PartOr0(xs, 3), 2);
    PadSpells(PartOr0(xs, 4), 2);
    PadSpells(PartOr0(xs, 5), 2);
    StampPieces(y, mo, d, h, mi, se);
    y + "-" + mo + "-" + d + "T" + h + ":" + mi + ":" + se
  }

  /** An in-range number pads to exactly the width and reads back as itself. */
  lemma PadSpells(n: int, w: nat)
    requires w == 2 || w == 4
    ensures 0 <= n && (w == 2 ==> n < 100) && (w == 4 ==> n < 10000) ==>
      |ZeroPadInt(n, w)| == w && Spells(ZeroPadInt(n, w), n)
  {
    PadExact(n, w);
    if 0 <= n {
      PadValue(n, w);
    }
  }

  /** The pieces of a stamp sit at their fixed offsets. */
  lemma StampPieces(y: string, mo: string, d: string, h: string, mi: string, se: string)
    ensures var r := y + "-" + mo + "-" + d + "T" + h + ":" + mi + ":" + se;
      |y| == 4 && |mo| == 2 && |d| == 2 && |h| == 2 && |mi| == 2 && |se| == 2 ==>
      && |r| == 19 && r[4] == '-' && r[7] == '-' && r[10] == 'T' && r[13] == ':' && r[16] == ':'
      && r[..4] == y && r[5..7] == mo && r[8..10] == d && r[11..13] == h && r[14..16] == mi && r[17..19] == se
  {
    var r := y + "-" + mo + "-" + d + "T" + h + ":" + mi + ":" + se;
    if |y| == 4 && |mo| == 2 && |d| == 2 && |h| == 2 && |mi| == 2 && |se| == 2 {
      assert r == y + ("-" + mo + ("-" + d + ("T" + h + (":" + mi + (":" + se)))));
      assert r[..4] == y;
      assert r[5..7] == mo by { assert forall i :: 0 <= i < 2 ==> r[5 + i] == mo[i]; }
      assert r[8..10] == d by { assert forall i :: 0 <= i < 2 ==> r[8 + i] == d[i]; }
      assert r[11..13] == h by { assert forall i :: 0 <= i < 2 ==> r[11 + i] == h[i]; }
      assert r[14..16] == mi by { assert forall i :: 0 <= i < 2 ==> r[14 + i] == mi[i]; }
      assert r[17..19] == se by { assert forall i :: 0 <= i < 2 ==> r[17 + i] == se[i]; }
    }
  }

  /** `_normalize_dt`. */
  function NormalizeDt(v: DtValue): (r: Option<string>)
    ensures r.None? <==> v.Null?
    ensures v.Text? ==> r == Some(v.s)
    ensures v.Parts? && |v.xs| >= 3 ==> r == Some(Stamp(v.xs))
    ensures v.Parts? && |v.xs| < 3 ==> r == Some(ShowParts(v.xs, v.tuple))
    ensures v.Other? ==> r == Some(v.shown)
  {
    match v
    case Null => None
    case Text(s) => Some(s)
    case Parts(xs, tuple) => if |xs| >= 3 then Some(Stamp(xs)) else Some(ShowParts(xs, tuple))
    case Other(shown) => Some(shown)
  }

  /** Missing hours, minutes and seconds read as zero. */
  lemma MissingTimeIsMidnight(y: int, m: int, d: int)
    ensures NormalizeDt(Parts([y, m, d], false)) == NormalizeDt(Parts([y, m, d, 0, 0, 0], true))
  {
  }

  /** A number below 10^w pads to exactly `w` characters. */
  lemma PadExact(n: int, w: nat)
    requires w == 2 || w == 4
    ensures 0 <= n && (w == 2 ==> n < 100) && (w == 4 ==> n < 10000) ==> |ZeroPadInt(n, w)| == w
  {
    if 0 <= n {
      NatToStringLength(n);
    }
  }

  /** A non-negative number padded with zeros reads back as itself. */
  lemma PadValue(n: int, w: nat)
    requires 0 <= n
    ensures Spells(ZeroPadInt(n, w), n)
  {
    var digits := NatToString(n);
    var pad := if |digits| < w then w - |digits| else 0;
    var zeros: string := seq(pad, _ => '0');
    assert ZeroPadInt(n, w) == zeros + digits;
    NatToStringValue(n);
    ZerosValue(zeros, digits);
  }

  /** `NatToString` spells its number. */
  lemma {:induction false} NatToStringValue(n: nat)
    ensures Spells(NatToString(n), n)
  {
    var s := NatToString(n);
    if n >= 10 {
      NatToStringValue(n / 10);
      assert s[..|s| - 1] == NatToString(n / 10);
    } else {
      assert s[..|s| - 1] == [];
    }
  }

  /** Leading zeros do not change the number a string spells. */
  lemma {:induction false} ZerosValue(z: string, s: string)
    requires forall i :: 0 <= i < |z| ==> z[i] == '0'
    requires AllDigits(s)
    ensures AllDigits(z + s) && DecimalValue(z + s) == DecimalValue(s)
  {
    if s == [] {
      assert z + s == z;
      ZerosZero(z);
    } else {
      var t := z + s;
      assert t[..|t| - 1] == z + s[..|s| - 1];
      ZerosValue(z, s[..|s| - 1]);
    }
  }

  lemma {:induction false} ZerosZero(z: string)
    requires forall i :: 0 <= i < |z| ==> z[i] == '0'
    ensures AllDigits(z) && DecimalValue(z) == 0
  {
    if z != [] {
      ZerosZero(z[..|z| - 1]);
    }
  }

  lemma {:induction false} NatToStringLength(n: nat)
    ensures n < 10 ==> |NatToString(n)| == 1
    ensures n < 100 ==> |NatToString(n)| <= 2
    ensures n < 1000 ==> |NatToString(n)| <= 3
    ensures n < 10000 ==> |NatToString(n)| <= 4
  {
    if n >= 10 {
      NatToStringLength(n / 10);
    }
  }
}

=== FILE: agencias_vuelos.dfy ===
/** The travel agency's view of the airline catalogue: which flights may be
    offered (active, not cancelled, priced) and which match a search by
    origin, destination, departure day and passengers. */
module AgenciasVuelos {
  import opened Wrappers
  import opened Text

  /** The configured cancelled state: its id and its lower-cased name. */
  const ESTADO_CANCELADO_ID := 2
  const ESTADO_CANCELADO_TXT := "cancelado"

  /** A seat class as the airline sends it: `disponible` when it is an
      integer, `precio` when it is a number. */
  datatype Clase = Clase(disponible: Option<int>, precio: Option<real>)

  datatype Vuelo = Vuelo(activo: bool, idEstado: Option<int>, estado: Option<string>,
                         origen: Option<string>, destino: Option<string>,
                         fechaSalida: Option<string>, clases: seq<Clase>)

  datatype Date = Date(year: int, month: int, day: int)

  // ------------------------------------------------------------ capacity

  /** `_class_has_capacity`: enough free seats, or, when the count is not
      an integer, a single passenger at most. */
  function ClassHasCapacity(c: Clase, pax: int): (r: bool)
    ensures c.disponible.Some? ==> (r <==> c.disponible.value >= pax)
    ensures c.disponible.None? ==> (r <==> pax <= 1)
  {
    match c.disponible
    case Some(n) => n >= pax
    case None => pax <= 1
  }

  /** `_has_capacity`: `any` over the classes. */
  function HasCapacity(clases: seq<Clase>, pax: int): (r: bool)
    ensures r <==> exists i :: 0 <= i < |clases| && ClassHasCapacity(clases[i], pax)
  {
    if clases == [] then false
    else
      assert forall i :: 1 <= i < |clases| ==> clases[i] == clases[1..][i - 1];
      ClassHasCapacity(clases[0], pax) || HasCapacity(clases[1..], pax)
  }

  /** Fewer passengers never need more room. */
  lemma CapacityMonotone(clases: seq<Clase>, pax: int, fewer: int)
    requires fewer <= pax && HasCapacity(clases, pax)
    ensures HasCapacity(clases, fewer)
  {
    var i :| 0 <= i < |clases| && ClassHasCapacity(clases[i], pax);
    assert ClassHasCapacity(clases[i], fewer);
  }

  // ------------------------------------------------------------ validity

  /** Python's `str.strip().lower()`, lower-casing ASCII letters. */
  function Norm(s: Option<string>): (r: string)
    ensures |r| <= |s.GetOr("")|
    ensures forall i :: 0 <= i < |r| ==> !IsUpper(r[i])
  {
    LowerStr(PyStrip(s.GetOr("")))
  }

  /** `_is_cancelled`: the configured state id, or the state's name. */
  function IsCancelled(v: Vuelo): (r: bool)
    ensures r <==> v.idEstado == Some(ESTADO_CANCELADO_ID) || Norm(v.estado) == ESTADO_CANCELADO_TXT
  {
    if ESTADO_CANCELADO_ID != 0 && v.idEstado == Some(ESTADO_CANCELADO_ID) then true
    else Norm(v.estado) == ESTADO_CANCELADO_TXT
  }

  /** `_min_price`: the lowest numeric class price, if any. */
  function MinPrice(clases: seq<Clase>): (r: Option<real>)
    ensures r.None? <==> forall i :: 0 <= i < |clases| ==> clases[i].precio.None?
    ensures r.Some? ==> exists i :: 0 <= i < |clases| && clases[i].precio == r
    ensures r.Some? ==> forall i :: 0 <= i < |clases| && clases[i].precio.Some? ==> r.value <= clases[i].precio.value
  {
    if clases == [] then None
    else
      var rest := MinPrice(clases[1..]);
      assert forall i :: 1 <= i < |clases| ==> clases[i] == clases[1..][i - 1];
      match clases[0].precio
      case None => rest
      case Some(p) =>
        if rest.Some? && rest.value < p then rest else Some(p)
  }

  /** `_valid_flight`: active, not cancelled, and with a price. */
  function ValidFlight(v: Vuelo): (r: bool)
    ensures r <==> (&& v.activo
                    && v.idEstado != Some(ESTADO_CANCELADO_ID)
                    && Norm(v.estado) != ESTADO_CANCELADO_TXT
                    && exists i :: 0 <= i < |v.clases| && v.clases[i].precio.Some?)
  {
    v.activo && !IsCancelled(v) && MinPrice(v.clases).Some?
  }

  // ------------------------------------------------------------ matching

  /** `_parse_datetime_to_date`: empty text gives none; otherwise the text,
      stripped and without a trailing "Z", is read by `fromisoformat`, a
      parameter here. */
  function ParseDatetimeToDate(s: string, fromIso: string -> Option<Date>): (r: Option<Date>)
    ensures s == [] ==> r.None?
  {
    if s == [] then None
    else
      var t := PyStrip(s);
      var t := if EndsWith(t, "Z") then t[..|t| - 1] else t;
      fromIso(t)
  }

  /** `str(fs)` for a departure that may be missing. */
  function Str(s: Option<string>): string { if s.None? then "None" else s.value }

  /** A place filter: none or empty, or equal to the flight's place once
      both are normalised. */
  predicate PlaceOk(place: Option<string>, filter: Option<string>)
    ensures filter.None? || filter.value == [] ==> PlaceOk(place, filter)
    ensures PlaceOk(place, filter) && filter.Some? && filter.value != [] ==> Norm(place) == Norm(filter)
  {
    !(filter.Some? && filter.value != [] && Norm(place) != Norm(filter))
  }

  /** `_match_filters`. */
  function MatchFilters(v: Vuelo, origin: Option<string>, destination: Option<string>,
                        depDate: Option<Date>, pax: int, fromIso: string -> Option<Date>): (r: bool)
    ensures r <==> (&& (origin.Some? && origin.value != [] ==> Norm(v.origen) == Norm(origin))
                    && (destination.Some? && destination.value != [] ==> Norm(v.destino) == Norm(destination))
                    && (depDate.Some? ==> ParseDatetimeToDate(Str(v.fechaSalida), fromIso) == depDate)
                    && (pax != 0 ==> exists i :: 0 <= i < |v.clases| && ClassHasCapacity(v.clases[i], pax)))
  {
    && PlaceOk(v.origen, origin)
    && PlaceOk(v.destino, destination)
    && !(depDate.Some? && ParseDatetimeToDate(Str(v.fechaSalida), fromIso) != depDate)
    && !(pax != 0 && !HasCapacity(v.clases, pax))
  }

  lemma NormUpper(s: string)
    ensures Norm(Some(UpperStr(s))) == Norm(Some(s))
  {
    UpperTrim(s, PySpace);
    LowerUpper(PyStrip(s));
  }

  /** The origin and destination filters ignore the case of the query. */
  lemma MatchIgnoresCase(v: Vuelo, origin: string, destination: string, depDate: Option<Date>, pax: int,
                         fromIso: string -> Option<Date>)
    ensures MatchFilters(v, Some(UpperStr(origin)), Some(UpperStr(destination)), depDate, pax, fromIso)
        <==> MatchFilters(v, Some(origin), Some(destination), depDate, pax, fromIso)
  {
    PlaceIgnoresCase(v.origen, origin);
    PlaceIgnoresCase(v.destino, destination);
  }

  lemma PlaceIgnoresCase(place: Option<string>, filter: string)
    ensures PlaceOk(place, Some(UpperStr(filter))) == PlaceOk(place, Some(filter))
  {
    NormUpper(filter);
  }

  /** Empty or missing filters match every flight. */
  lemma EmptyFiltersMatch(v: Vuelo, fromIso: string -> Option<Date>)
    ensures MatchFilters(v, Some(""), None, None, 0, fromIso)
  {
  }

  /** A flight matches a search for a number of passengers only if some
      class has room for them all. */
  lemma MatchNeedsRoom(v: Vuelo, origin: Option<string>, destination: Option<string>,
                       depDate: Option<Date>, pax: int, fromIso: string -> Option<Date>)
    requires pax >= 2 && MatchFilters(v, origin, destination, depDate, pax, fromIso)
    ensures exists i :: 0 <= i < |v.clases| && v.clases[i].disponible.Some? && v.clases[i].disponible.value >= pax
  {
    var i :| 0 <= i < |v.clases| && ClassHasCapacity(v.clases[i], pax);
  }
}

=== FILE: catalogo.dfy ===
/** The flight catalogue page: round-trip pairs are folded into one entry
    (the earlier flight shows its partner, the partner is hidden), and the
    list is filtered by free text and a departure date range. */
module Catalogo {
  import opened Wrappers
  import opened Text
  import opened Seqs

  /** What a folded entry shows of its partner. */
  datatype Partner = Partner(id: int, codigo: string, origen: string, destino: string,
                             salida: Option<int>, llegada: Option<int>)

  /** A flight of the listing. `pareja` is `idVueloPareja`; `salida` is the
      departure as `toDate` reads it (none when it cannot be read);
      `adjunta` is the `pareja` object the page attaches. */
  datatype Item = Item(id: int, pareja: Option<int>, codigo: string, origen: string, destino: string,
                       estado: string, idRuta: Option<int>, salida: Option<int>, llegada: Option<int>,
                       adjunta: Option<Partner>)

  /** The same flight, whatever partner is attached to it. */
  predicate SameFlight(a: Item, b: Item) {
    a.(adjunta := None) == b.(adjunta := None)
  }

  function PartnerOf(v: Item): Partner {
    Partner(v.id, v.codigo, v.origen, v.destino, v.salida, v.llegada)
  }

  /** `v.idVueloPareja` is truthy: present and not 0. */
  predicate HasPartner(v: Item) { v.pareja.Some? && v.pareja.value != 0 }

  /** One of the two names the other as its partner. */
  predicate Linked(a: Item, b: Item) {
    (HasPartner(a) && a.pareja.value == b.id) || (HasPartner(b) && b.pareja.value == a.id)
  }

  /** `a` departs no later than `b`, or a departure is unknown. */
  predicate NotLater(a: Item, b: Item) {
    a.salida.Some? && b.salida.Some? ==> a.salida.value <= b.salida.value
  }

  /** The flight ids of the listing are distinct. */
  predicate UniqueIds(list: seq<Item>) {
    forall a, b :: 0 <= a < b < |list| ==> list[a].id != list[b].id
  }

  /** No flight of the listing is linked with `v`. */
  predicate Unlinked(list: seq<Item>, v: Item) {
    forall k :: 0 <= k < |list| ==> !Linked(v, list[k])
  }

  /** `p` is what host `h` may show: the summary of a listed flight linked
      with `h` that departs no earlier than `h`. */
  predicate Hosts(list: seq<Item>, h: Item, p: Partner) {
    exists k :: 0 <= k < |list| && p == PartnerOf(list[k]) && Linked(h, list[k]) && NotLater(h, list[k])
  }

  /** `v` of the folded list `out` is listed flight `j`, unchanged or
      showing a partner it hosts, which `out` does not show. */
  predicate Faithful(list: seq<Item>, out: seq<Item>, v: Item, j: int) {
    && 0 <= j < |list|
    && SameFlight(v, list[j])
    && (v.adjunta == list[j].adjunta ||
        (v.adjunta.Some? && Hosts(list, list[j], v.adjunta.value) &&
         forall w :: w in out ==> w.id != v.adjunta.value.id))
  }

  // ------------------------------------------------------------ folding

  /** `Array.from(byId.values()).filter(v => !hidden.has(v.idVuelo))`. */
  function Shown(list: seq<Item>, byId: map<int, Item>, hidden: set<int>): (out: seq<Item>)
    requires forall j :: 0 <= j < |list| ==> list[j].id in byId
    ensures forall v :: v in out ==> exists j :: 0 <= j < |list| && v == byId[list[j].id] && list[j].id !in hidden
    ensures forall j :: 0 <= j < |list| && list[j].id !in hidden ==> byId[list[j].id] in out
  {
    if list == [] then []
    else
      var rest := Shown(list[1..], byId, hidden);
      assert forall j :: 0 <= j < |list| - 1 ==> list[1..][j] == list[j + 1];
      (if list[0].id in hidden then [] else [byId[list[0].id]]) + rest
  }

  /** The fold's state: every listed flight is in `byId`, unchanged but for
      an attached partner, which it hosts; hidden flights are listed; and a
      flight linked with no other is untouched and not hidden. */
  predicate FoldInv(list: seq<Item>, byId: map<int, Item>, hidden: set<int>) {
    && (forall j :: 0 <= j < |list| ==> list[j].id in byId)
    && (forall j :: 0 <= j < |list| ==> SameFlight(byId[list[j].id], list[j]))
    && (forall j :: 0 <= j < |list| && byId[list[j].id].adjunta != list[j].adjunta ==>
          && byId[list[j].id].adjunta.Some?
          && byId[list[j].id].adjunta.value.id in hidden
          && Hosts(list, list[j], byId[list[j].id].adjunta.value))
    && (forall j :: 0 <= j < |list| && Unlinked(list, list[j]) ==>
          list[j].id !in hidden && byId[list[j].id] == list[j])
  }

  function IndexOf(list: seq<Item>, id: int): (k: int)
    ensures k == -1 || (0 <= k < |list| && list[k].id == id)
    ensures k == -1 ==> forall j :: 0 <= j < |list| ==> list[j].id != id
  {
    if list == [] then -1
    else if list[0].id == id then 0
    else
      var k := IndexOf(list[1..], id);
      assert forall j :: 0 <= j < |list| - 1 ==> list[1..][j] == list[j + 1];
      if k == -1 then -1 else k + 1
  }

  /** One fold step: `host` shows `regreso`, which is hidden. */
  lemma FoldStep(list: seq<Item>, byId: map<int, Item>, hidden: set<int>, a: int, b: int)
    requires UniqueIds(list) && FoldInv(list, byId, hidden)
    requires 0 <= a < |list| && 0 <= b < |list| && Linked(list[a], list[b]) && NotLater(list[a], list[b])
    ensures var byId' := byId[list[a].id := byId[list[a].id].(adjunta := Some(PartnerOf(list[b])))];
      FoldInv(list, byId', hidden + {list[b].id})
  {
    var byId' := byId[list[a].id := byId[list[a].id].(adjunta := Some(PartnerOf(list[b])))];
    var hidden' := hidden + {list[b].id};
    forall j | 0 <= j < |list| && byId'[list[j].id].adjunta != list[j].adjunta
      ensures byId'[list[j].id].adjunta.Some? && byId'[list[j].id].adjunta.value.id in hidden'
      ensures Hosts(list, list[j], byId'[list[j].id].adjunta.value)
    {
      if j == a {
        assert PartnerOf(list[b]) == PartnerOf(list[b]) && Linked(list[j], list[b]);
      }
    }
    forall j | 0 <= j < |list| && Unlinked(list, list[j])
      ensures list[j].id !in hidden' && byId'[list[j].id] == list[j]
    {
      assert !Linked(list[j], list[b]) && !Linked(list[j], list[a]);
      assert Linked(list[b], list[a]);
    }
  }

  /** `v` departs no later than `pair`, both departures being known. */
  predicate DepartsFirst(v: Item, pair: Item) {
    v.salida.Some? && pair.salida.Some? && v.salida.value <= pair.salida.value
  }

  /** The fold of flight `i` with its listed partner `k`: the one departing
      first shows the other, which is hidden. */
  lemma FoldPair(list: seq<Item>, byId: map<int, Item>, hidden: set<int>, i: int, k: int)
    requires UniqueIds(list) && FoldState(list, byId, hidden)
    requires 0 <= i < |list| && 0 <= k < |list| && HasPartner(list[i]) && list[k].id == list[i].pareja.value
    requires list[i].id !in hidden && list[k].id !in hidden
    ensures var first := DepartsFirst(list[i], byId[list[k].id]);
      var a, b := if first then i else k, if first then k else i;
      FoldState(list, byId[list[a].id := byId[list[a].id].(adjunta := Some(PartnerOf(list[b])))], hidden + {list[b].id})
  {
    assert SameFlight(byId[list[k].id], list[k]);
    if DepartsFirst(list[i], byId[list[k].id]) {
      FoldStep(list, byId, hidden, i, k);
      if OnePartner(list) {
        HostedStep(list, byId, hidden, i, k);
      }
    } else {
      FoldStep(list, byId, hidden, k, i);
      if OnePartner(list) {
        HostedStep(list, byId, hidden, k, i);
      }
    }
  }

  /** The loop invariant of the fold. */
  predicate FoldState(list: seq<Item>, byId: map<int, Item>, hidden: set<int>) {
    FoldInv(list, byId, hidden) && (OnePartner(list) ==> HiddenHosted(list, byId, hidden))
  }

  /** Every flight is linked with at most one listed flight, and none with
      itself: the pairs are disjoint, as `vincularPareja` keeps them. */
  predicate OnePartner(list: seq<Item>) {
    && (forall a :: 0 <= a < |list| ==> !Linked(list[a], list[a]))
    && (forall a, b, c ::
          (0 <= a < |list| && 0 <= b < |list| && 0 <= c < |list| &&
           Linked(list[a], list[b]) && Linked(list[a], list[c])) ==> b == c)
  }

  /** Every hidden flight is shown by a flight that is linked with it and
      not hidden. */
  predicate HiddenHosted(list: seq<Item>, byId: map<int, Item>, hidden: set<int>)
    requires forall j :: 0 <= j < |list| ==> list[j].id in byId
  {
    forall j :: 0 <= j < |list| && list[j].id in hidden ==>
      exists m :: (0 <= m < |list| && list[m].id !in hidden && Linked(list[m], list[j]) &&
                   byId[list[m].id].adjunta == Some(PartnerOf(list[j])))
  }

  /** Folding two flights that are not hidden keeps every hidden flight
      shown by its host, when the pairs are disjoint. */
  lemma HostedStep(list: seq<Item>, byId: map<int, Item>, hidden: set<int>, a: int, b: int)
    requires UniqueIds(list) && OnePartner(list)
    requires forall j :: 0 <= j < |list| ==> list[j].id in byId
    requires HiddenHosted(list, byId, hidden)
    requires 0 <= a < |list| && 0 <= b < |list| && Linked(list[a], list[b])
    requires list[a].id !in hidden && list[b].id !in hidden
    ensures var byId' := byId[list[a].id := byId[list[a].id].(adjunta := Some(PartnerOf(list[b])))];
      HiddenHosted(list, byId', hidden + {list[b].id})
  {
    var byId' := byId[list[a].id := byId[list[a].id].(adjunta := Some(PartnerOf(list[b])))];
    var hidden' := hidden + {list[b].id};
    forall j | 0 <= j < |list| && list[j].id in hidden'
      ensures exists m :: (0 <= m < |list| && list[m].id !in hidden' && Linked(list[m], list[j]) &&
                           byId'[list[m].id].adjunta == Some(PartnerOf(list[j])))
    {
      HostedOne(list, byId, hidden, a, b, j);
    }
  }

  /** After the fold, hidden flight `j` has a host: `a` when `j` is `b`, its
      earlier host otherwise. */
  lemma HostedOne(list: seq<Item>, byId: map<int, Item>, hidden: set<int>, a: int, b: int, j: int)
    requires UniqueIds(list) && OnePartner(list)
    requires forall j :: 0 <= j < |list| ==> list[j].id in byId
    requires HiddenHosted(list, byId, hidden)
    requires 0 <= a < |list| && 0 <= b < |list| && Linked(list[a], list[b])
    requires list[a].id !in hidden && list[b].id !in hidden
    requires 0 <= j < |list| && list[j].id in hidden + {list[b].id}
    ensures var byId' := byId[list[a].id := byId[list[a].id].(adjunta := Some(PartnerOf(list[b])))];
      exists m :: (0 <= m < |list| && list[m].id !in hidden + {list[b].id} && Linked(list[m], list[j]) &&
                   byId'[list[m].id].adjunta == Some(PartnerOf(list[j])))
  {
    var byId' := byId[list[a].id := byId[list[a].id].(adjunta := Some(PartnerOf(list[b])))];
    var hidden' := hidden + {list[b].id};
    assert a != b;
    if list[j].id == list[b].id {
      assert j == b;
      assert list[a].id !in hidden' && byId'[list[a].id].adjunta == Some(PartnerOf(list[j]));
    } else {
      assert list[j].id in hidden;
      var m :| 0 <= m < |list| && list[m].id !in hidden && Linked(list[m], list[j]) &&
        byId[list[m].id].adjunta == Some(PartnerOf(list[j]));
      OtherHost(list, hidden, a, b, j, m);
      assert list[m].id !in hidden' && byId'[list[m].id] == byId[list[m].id];
    }
  }

  /** The host of a flight hidden earlier is neither of the two flights now
      folded, since each of those is linked only with the other. */
  lemma OtherHost(list: seq<Item>, hidden: set<int>, a: int, b: int, j: int, m: int)
    requires UniqueIds(list) && OnePartner(list)
    requires 0 <= a < |list| && 0 <= b < |list| && 0 <= j < |list| && 0 <= m < |list|
    requires Linked(list[a], list[b]) && list[a].id !in hidden && list[b].id !in hidden
    requires list[j].id in hidden && Linked(list[m], list[j])
    ensures list[m].id != list[a].id && list[m].id != list[b].id
  {
    assert Linked(list[b], list[a]);
    assert m != a && m != b;
  }

  /** The shown entries keep the order of the listing. */
  predicate ListingOrder(list: seq<Item>, out: seq<Item>) {
    forall a, b :: 0 <= a < b < |out| ==> IndexOf(list, out[a].id) < IndexOf(list, out[b].id)
  }

  /** `foldPairsFromList`. Each flight with a listed partner, neither of
      them hidden yet, is folded with it: the one departing first (the
      partner, when a date is unknown) shows the other, which is hidden. The
      `Map` keeps its first insertion order, which is the listing's. */
  method FoldPairs(list: seq<Item>) returns (out: seq<Item>)
    requires UniqueIds(list)
    ensures |out| <= |list|
    ensures forall v :: v in out ==> exists j :: Faithful(list, out, v, j)
    ensures forall j :: 0 <= j < |list| && Unlinked(list, list[j]) ==> list[j] in out
    ensures ListingOrder(list, out)
    ensures OnePartner(list) ==> AllAccounted(list, out)
    ensures OnePartner(list) ==> PairsFolded(list, out)
  {
    var byId := map j | 0 <= j < |list| :: list[j].id := list[j];
    var hidden: set<int> := {};
    FoldStart(list);
    var i := 0;
    while i < |list|
      invariant 0 <= i <= |list|
      invariant FoldLoop(list, byId, hidden, i)
    {
      byId, hidden := FoldAt(list, byId, hidden, i);
      i := i + 1;
    }
    out := Shown(list, byId, hidden);
    FoldDone(list, byId, hidden);
  }

  /** One turn of the loop of `foldPairsFromList`, for flight `i`: passed
      over when it names no partner, when it or its partner is hidden, or
      when its partner is not listed; otherwise folded with that partner. */
  method FoldAt(list: seq<Item>, byId: map<int, Item>, hidden: set<int>, i: int)
    returns (byId': map<int, Item>, hidden': set<int>)
    requires UniqueIds(list) && 0 <= i < |list| && FoldLoop(list, byId, hidden, i)
    ensures FoldLoop(list, byId', hidden', i + 1)
    ensures hidden <= hidden'
  {
    var v := list[i];
    if !HasPartner(v) || v.id in hidden || v.pareja.value in hidden {
      SkipStep(list, byId, hidden, i);
      return byId, hidden;
    }
    var k := IndexOf(list, v.pareja.value);
    if k == -1 {
      SkipStep(list, byId, hidden, i);
      return byId, hidden;
    }
    var pair := byId[v.pareja.value];
    var ida, regreso := if DepartsFirst(v, pair) then i else k, if DepartsFirst(v, pair) then k else i;
    FoldNext(list, byId, hidden, i, k);
    var host := byId[list[ida].id];
    byId' := byId[list[ida].id := host.(adjunta := Some(PartnerOf(list[regreso])))];
    hidden' := hidden + {list[regreso].id};
  }

  /** The loop invariant of the fold, with the pairs met so far. */
  predicate FoldLoop(list: seq<Item>, byId: map<int, Item>, hidden: set<int>, i: int) {
    FoldState(list, byId, hidden) && PairsMet(list, hidden, i)
  }

  /** `x` names `y` as its partner. */
  predicate Names(x: Item, y: Item) { HasPartner(x) && x.pareja.value == y.id }

  /** Of each listed pair named by one of the first `i` flights, at least
      one flight is hidden. */
  predicate PairsMet(list: seq<Item>, hidden: set<int>, i: int) {
    forall a, b :: 0 <= a < i && a < |list| && 0 <= b < |list| && Names(list[a], list[b]) ==>
      list[a].id in hidden || list[b].id in hidden
  }

  /** Passing over flight `i` keeps the loop invariant: it names no listed
      flight, or it or its partner is already hidden. */
  lemma SkipStep(list: seq<Item>, byId: map<int, Item>, hidden: set<int>, i: int)
    requires 0 <= i < |list| && FoldLoop(list, byId, hidden, i)
    requires !HasPartner(list[i]) || list[i].id in hidden || list[i].pareja.value in hidden ||
             IndexOf(list, list[i].pareja.value) == -1
    ensures FoldLoop(list, byId, hidden, i + 1)
  {
  }

  /** Folding flight `i` with its listed partner `k` keeps the loop invariant. */
  lemma FoldNext(list: seq<Item>, byId: map<int, Item>, hidden: set<int>, i: int, k: int)
    requires UniqueIds(list) && FoldLoop(list, byId, hidden, i)
    requires 0 <= i < |list| && 0 <= k < |list| && HasPartner(list[i]) && list[k].id == list[i].pareja.value
    requires list[i].id !in hidden && list[k].id !in hidden
    ensures var first := DepartsFirst(list[i], byId[list[k].id]);
      var a, b := if first then i else k, if first then k else i;
      FoldLoop(list, byId[list[a].id := byId[list[a].id].(adjunta := Some(PartnerOf(list[b])))], hidden + {list[b].id}, i + 1)
  {
    FoldPair(list, byId, hidden, i, k);
    if DepartsFirst(list[i], byId[list[k].id]) {
      MetStep(list, hidden, i, k, k);
    } else {
      MetStep(list, hidden, i, k, i);
    }
  }

  /** Hiding flight `i` or the partner `k` it names meets that pair. */
  lemma MetStep(list: seq<Item>, hidden: set<int>, i: int, k: int, b: int)
    requires UniqueIds(list) && PairsMet(list, hidden, i)
    requires 0 <= i < |list| && 0 <= k < |list| && Names(list[i], list[k])
    requires b == i || b == k
    ensures PairsMet(list, hidden + {list[b].id}, i + 1)
  {
    forall a0, b0 | 0 <= a0 < i + 1 && a0 < |list| && 0 <= b0 < |list| && Names(list[a0], list[b0])
      ensures list[a0].id in hidden + {list[b].id} || list[b0].id in hidden + {list[b].id}
    {
      if a0 == i {
        assert list[b0].id == list[k].id;
      }
    }
  }

  /** Each pair of linked listed flights is folded into one entry of `out`:
      one of them is shown and attaches the other, which is not shown. */
  predicate PairsFolded(list: seq<Item>, out: seq<Item>) {
    forall a, b :: 0 <= a < |list| && 0 <= b < |list| && Linked(list[a], list[b]) ==>
      ShownWith(out, list[a], list[b]) || ShownWith(out, list[b], list[a])
  }

  /** `out` shows `h` attaching `g`, and does not show `g`. */
  predicate ShownWith(out: seq<Item>, h: Item, g: Item) {
    && (exists w :: w in out && w.id == h.id && w.adjunta == Some(PartnerOf(g)))
    && (forall w :: w in out ==> w.id != g.id)
  }

  /** Once one flight of every linked pair is hidden, every linked pair is
      folded in what is shown. */
  lemma FoldedShown(list: seq<Item>, byId: map<int, Item>, hidden: set<int>)
    requires OnePartner(list) && FoldInv(list, byId, hidden) && HiddenHosted(list, byId, hidden)
    requires PairsMet(list, hidden, |list|)
    ensures PairsFolded(list, Shown(list, byId, hidden))
  {
    var out := Shown(list, byId, hidden);
    forall j | 0 <= j < |list| ensures byId[list[j].id].id == list[j].id {
      assert SameFlight(byId[list[j].id], list[j]);
    }
    forall a, b | 0 <= a < |list| && 0 <= b < |list| && Linked(list[a], list[b])
      ensures ShownWith(out, list[a], list[b]) || ShownWith(out, list[b], list[a])
    {
      if list[b].id in hidden {
        HostIsPartner(list, byId, hidden, a, b);
        ShownHiding(list, byId, hidden, a, b);
      } else {
        HostIsPartner(list, byId, hidden, b, a);
        ShownHiding(list, byId, hidden, b, a);
      }
    }
  }

  /** The host of a hidden flight is the one flight linked with it. */
  lemma HostIsPartner(list: seq<Item>, byId: map<int, Item>, hidden: set<int>, h: int, g: int)
    requires OnePartner(list) && FoldInv(list, byId, hidden) && HiddenHosted(list, byId, hidden)
    requires 0 <= h < |list| && 0 <= g < |list| && (Linked(list[h], list[g]) || Linked(list[g], list[h]))
    requires list[g].id in hidden
    ensures list[h].id !in hidden && byId[list[h].id].adjunta == Some(PartnerOf(list[g]))
  {
    var m :| 0 <= m < |list| && list[m].id !in hidden && Linked(list[m], list[g]) &&
      byId[list[m].id].adjunta == Some(PartnerOf(list[g]));
    assert Linked(list[g], list[m]) && Linked(list[g], list[h]);
    assert m == h;
  }

  /** A host that is not hidden is shown with what it attaches, and a hidden
      flight is not shown. */
  lemma ShownHiding(list: seq<Item>, byId: map<int, Item>, hidden: set<int>, h: int, g: int)
    requires forall j :: 0 <= j < |list| ==> list[j].id in byId && byId[list[j].id].id == list[j].id
    requires 0 <= h < |list| && 0 <= g < |list|
    requires list[h].id !in hidden && list[g].id in hidden
    requires byId[list[h].id].adjunta == Some(PartnerOf(list[g]))
    ensures ShownWith(Shown(list, byId, hidden), list[h], list[g])
  {
    var out := Shown(list, byId, hidden);
    assert byId[list[h].id] in out;
    forall w | w in out ensures w.id != list[g].id {
      var m :| 0 <= m < |list| && w == byId[list[m].id] && list[m].id !in hidden;
    }
  }

  /** Before the loop every listed flight maps to itself and none is hidden. */
  lemma FoldStart(list: seq<Item>)
    requires UniqueIds(list)
    ensures FoldState(list, map j | 0 <= j < |list| :: list[j].id := list[j], {})
  {
    IdentityMap(list);
  }

  lemma IdentityMap(list: seq<Item>)
    requires UniqueIds(list)
    ensures var byId := map j | 0 <= j < |list| :: list[j].id := list[j];
      forall j :: 0 <= j < |list| ==> list[j].id in byId && byId[list[j].id] == list[j]
  {
    var byId := map j | 0 <= j < |list| :: list[j].id := list[j];
    forall j | 0 <= j < |list| ensures list[j].id in byId && byId[list[j].id] == list[j] {
      assert list[j].id in byId;
    }
  }

  /** What the fold's final state shows, gathered for `FoldPairs`. */
  lemma FoldDone(list: seq<Item>, byId: map<int, Item>, hidden: set<int>)
    requires UniqueIds(list) && FoldLoop(list, byId, hidden, |list|)
    ensures var out := Shown(list, byId, hidden);
      && |out| <= |list|
      && (forall v :: v in out ==> exists j :: Faithful(list, out, v, j))
      && (forall j :: 0 <= j < |list| && Unlinked(list, list[j]) ==> list[j] in out)
      && ListingOrder(list, out)
      && (OnePartner(list) ==> AllAccounted(list, out))
      && (OnePartner(list) ==> PairsFolded(list, out))
  {
    ShownFolded(list, byId, hidden);
    forall j | 0 <= j < |list| ensures byId[list[j].id].id == list[j].id {
      assert SameFlight(byId[list[j].id], list[j]);
    }
    ShownOrder(list, byId, hidden);
    if OnePartner(list) {
      ShownHosted(list, byId, hidden);
      FoldedShown(list, byId, hidden);
    }
  }

  /** Every listed flight is shown, or attached to a shown entry. */
  predicate AllAccounted(list: seq<Item>, out: seq<Item>) {
    forall j :: 0 <= j < |list| ==>
      (exists w :: w in out && w.id == list[j].id) ||
      (exists w :: w in out && w.adjunta == Some(PartnerOf(list[j])))
  }

  /** With every hidden flight hosted, each listed flight is shown or attached
      to a shown entry. */
  lemma ShownHosted(list: seq<Item>, byId: map<int, Item>, hidden: set<int>)
    requires FoldInv(list, byId, hidden) && HiddenHosted(list, byId, hidden)
    ensures AllAccounted(list, Shown(list, byId, hidden))
  {
    var out := Shown(list, byId, hidden);
    forall j | 0 <= j < |list|
      ensures (exists w :: w in out && w.id == list[j].id) ||
              (exists w :: w in out && w.adjunta == Some(PartnerOf(list[j])))
    {
      if list[j].id !in hidden {
        assert byId[list[j].id] in out && byId[list[j].id].id == list[j].id;
      } else {
        var m :| 0 <= m < |list| && list[m].id !in hidden && Linked(list[m], list[j]) &&
          byId[list[m].id].adjunta == Some(PartnerOf(list[j]));
        assert byId[list[m].id] in out;
      }
    }
  }

  /** `Shown` walks the listing in order. */
  lemma {:induction false} ShownOrder(list: seq<Item>, byId: map<int, Item>, hidden: set<int>)
    requires UniqueIds(list)
    requires forall j :: 0 <= j < |list| ==> list[j].id in byId && byId[list[j].id].id == list[j].id
    ensures ListingOrder(list, Shown(list, byId, hidden))
  {
    if list != [] {
      var tail := list[1..];
      TailUnique(list);
      ShownOrder(tail, byId, hidden);
      var rest := Shown(tail, byId, hidden);
      ShownTailIndices(list, byId, hidden);
      if list[0].id !in hidden {
        ConsOrder(list, byId[list[0].id], rest);
      }
    }
  }

  lemma TailUnique(list: seq<Item>)
    requires UniqueIds(list) && list != []
    ensures UniqueIds(list[1..])
    ensures forall j :: 0 <= j < |list| - 1 ==> list[1..][j] == list[j + 1]
  {
    var tail := list[1..];
    forall a, b | 0 <= a < b < |tail| ensures tail[a].id != tail[b].id {
      assert tail[a] == list[a + 1] && tail[b] == list[b + 1];
    }
  }

  /** The entries shown for the tail sit one position further in the listing. */
  lemma ShownTailIndices(list: seq<Item>, byId: map<int, Item>, hidden: set<int>)
    requires UniqueIds(list) && list != []
    requires forall j :: 0 <= j < |list| ==> list[j].id in byId && byId[list[j].id].id == list[j].id
    ensures forall x :: x in Shown(list[1..], byId, hidden) ==>
      IndexOf(list[1..], x.id) >= 0 && IndexOf(list, x.id) == IndexOf(list[1..], x.id) + 1
  {
    var tail := list[1..];
    TailUnique(list);
    forall x | x in Shown(tail, byId, hidden)
      ensures IndexOf(tail, x.id) >= 0 && IndexOf(list, x.id) == IndexOf(tail, x.id) + 1
    {
      var j :| 0 <= j < |tail| && x == byId[tail[j].id] && tail[j].id !in hidden;
      assert x.id == list[j + 1].id != list[0].id;
      IndexOfPresent(tail, j);
    }
  }

  /** Putting the first listed flight in front of entries that come later in
      the listing keeps the listing's order. */
  lemma ConsOrder(list: seq<Item>, h: Item, rest: seq<Item>)
    requires list != [] && h.id == list[0].id
    requires ListingOrder(list[1..], rest)
    requires forall x :: x in rest ==>
      IndexOf(list[1..], x.id) >= 0 && IndexOf(list, x.id) == IndexOf(list[1..], x.id) + 1
    ensures ListingOrder(list, [h] + rest)
  {
    var out := [h] + rest;
    forall a, b | 0 <= a < b < |out|
      ensures IndexOf(list, out[a].id) < IndexOf(list, out[b].id)
    {
      assert out[b] == rest[b - 1] && out[b] in rest;
      if a > 0 {
        assert out[a] == rest[a - 1] && out[a] in rest;
      }
    }
  }

  /** With distinct ids, a listed flight is found at its own position. */
  lemma IndexOfPresent(list: seq<Item>, j: int)
    requires UniqueIds(list) && 0 <= j < |list|
    ensures IndexOf(list, list[j].id) == j
  {
  }

  /** What the fold's final state shows: listed flights, each unchanged or
      hosting a hidden partner, and every flight linked with no other. */
  lemma ShownFolded(list: seq<Item>, byId: map<int, Item>, hidden: set<int>)
    requires FoldInv(list, byId, hidden)
    ensures var out := Shown(list, byId, hidden);
      && |out| <= |list|
      && (forall v :: v in out ==> exists j :: Faithful(list, out, v, j))
      && (forall j :: 0 <= j < |list| && Unlinked(list, list[j]) ==> list[j] in out)
  {
    var out := Shown(list, byId, hidden);
    ShownBound(list, byId, hidden);
    forall v | v in out
      ensures exists j :: Faithful(list, out, v, j)
    {
      var j :| 0 <= j < |list| && v == byId[list[j].id] && list[j].id !in hidden;
      if v.adjunta != list[j].adjunta {
        forall w | w in out ensures w.id != v.adjunta.value.id {
          var m :| 0 <= m < |list| && w == byId[list[m].id] && list[m].id !in hidden;
          assert w.id == list[m].id;
        }
      }
      assert Faithful(list, out, v, j);
    }
  }

  lemma {:induction false} ShownBound(list: seq<Item>, byId: map<int, Item>, hidden: set<int>)
    requires forall j :: 0 <= j < |list| ==> list[j].id in byId
    ensures |Shown(list, byId, hidden)| <= |list|
  {
    if list != [] {
      assert forall j :: 0 <= j < |list| - 1 ==> list[1..][j] == list[j + 1];
      ShownBound(list[1..], byId, hidden);
    }
  }

  // ------------------------------------------------------------ filtering

  /** The searchable text: code, origin, destination, state and "ruta <id>",
      empty parts dropped, joined by spaces and lower-cased. */
  function SearchText(v: Item): string {
    var ruta := if v.idRuta.Some? && v.idRuta.value != 0 then ["ruta " + IntToString(v.idRuta.value)] else [];
    var parts := [v.codigo, v.origen, v.destino, v.estado] + ruta;
    LowerStr(Join(NonEmpty(parts), " "))
  }

  /** `filter(Boolean)`: the non-empty parts, in order. */
  function NonEmpty(parts: seq<string>): (r: seq<string>)
    ensures forall i :: 0 <= i < |r| ==> r[i] != []
    ensures r == Filter(parts, Filled)
  {
    if parts == [] then []
    else (if parts[0] == [] then [] else [parts[0]]) + NonEmpty(parts[1..])
  }

  /** The filter of `filtered`: the trimmed, lower-cased query is a substring
      of the search text, and a known departure lies within the bounds
      given (`desde` the start of its day, `hasta` the end of its day). */
  predicate Keep(v: Item, q: string, desde: Option<int>, hasta: Option<int>)
    ensures Keep(v, q, desde, hasta) && v.salida.Some? ==>
      (desde.None? || desde.value <= v.salida.value) && (hasta.None? || v.salida.value <= hasta.value)
    ensures v.salida.None? && LowerStr(JsTrim(q)) == [] ==> Keep(v, q, desde, hasta)
  {
    var qx := LowerStr(JsTrim(q));
    && (qx == [] || Contains(SearchText(v), qx))
    && !(desde.Some? && v.salida.Some? && v.salida.value < desde.value)
    && !(hasta.Some? && v.salida.Some? && v.salida.value > hasta.value)
  }

  /** `Keep` with the page's query and dates fixed. */
  function Kept(q: string, desde: Option<int>, hasta: Option<int>): Item -> bool {
    (v: Item) => Keep(v, q, desde, hasta)
  }

  /** `filtered`: the flights kept, in order. */
  function Filtered(vs: seq<Item>, q: string, desde: Option<int>, hasta: Option<int>): (r: seq<Item>)
    ensures r == Filter(vs, Kept(q, desde, hasta))
    ensures forall v :: v in r ==> v in vs && Keep(v, q, desde, hasta)
    ensures forall v :: v in vs && Keep(v, q, desde, hasta) ==> v in r
  {
    if vs == [] then []
    else (if Keep(vs[0], q, desde, hasta) then [vs[0]] else []) + Filtered(vs[1..], q, desde, hasta)
  }

  /** The query is case-insensitive: an upper-cased query keeps the same flights. */
  lemma QueryCaseInsensitive(v: Item, q: string, desde: Option<int>, hasta: Option<int>)
    ensures Keep(v, UpperStr(q), desde, hasta) <==> Keep(v, q, desde, hasta)
  {
    UpperTrim(q, JsSpace);
    LowerUpper(JsTrim(q));
  }

  /** With no query and no dates, nothing is filtered out. */
  lemma {:induction false} NoFilterKeepsAll(vs: seq<Item>)
    ensures Filtered(vs, "", None, None) == vs
  {
    if vs != [] {
      NoFilterKeepsAll(vs[1..]);
    }
  }
}

=== FILE: checkout.dfy ===
/** The card form of the checkout page: the Luhn check of the card number,
    the formatting of the number as it is typed, the form validation and the
    payload sent on submit. */
module Checkout {
  import opened Wrappers
  import opened Text
  import opened Seqs

  /** `replace(/\D/g, "")`: the ASCII digits of `s`, in order. */
  function Digits(s: string): (d: string)
    ensures AllDigits(d) && |d| <= |s|
    ensures AllDigits(s) ==> d == s
  {
    Filter(s, IsDigit)
  }

  // ------------------------------------------------------------------ luhn

  /** What one digit adds to the Luhn sum: doubled digits above 9 lose 9. */
  function Contribution(d: nat, doubled: bool): (c: nat)
    requires d < 10
    ensures c < 10
  {
    if !doubled then d else if 2 * d > 9 then 2 * d - 9 else 2 * d
  }

  /** The Luhn sum of an all-digit string: counting from the right, every
      second digit is doubled. */
  function LuhnSum(s: string): (n: nat)
    requires AllDigits(s)
    ensures n <= 9 * |s|
  {
    if s == [] then 0
    else Contribution(DigitValue(s[0]), (|s| - 1) % 2 == 1) + LuhnSum(s[1..])
  }

  /** A card number passes: at least 12 digits once the non-digits are
      dropped, and a Luhn sum divisible by 10. */
  predicate LuhnValid(num: string) {
    |Digits(num)| >= 12 && LuhnSum(Digits(num)) % 10 == 0
  }

  /** `luhn`: the loop runs from the last digit to the first, doubling
      every second one. */
  method Luhn(num: string) returns (ok: bool)
    ensures ok <==> LuhnValid(num)
    ensures |Digits(num)| < 12 ==> !ok
  {
    var s := Digits(num);
    if |s| < 12 {
      return false;
    }
    var sum := 0;
    var alt := false;
    var i := |s| - 1;
    while i >= 0
      invariant -1 <= i < |s|
      invariant sum == LuhnSum(s[i + 1..])
      invariant alt <==> (|s| - 1 - i) % 2 == 1
    {
      LuhnSumStep(s, i);
      var n := Digit(DigitValue(s[i]), alt);
      sum := sum + n;
      alt := !alt;
      i := i - 1;
    }
    assert s[0..] == s;
    ok := sum % 10 == 0;
  }

  /** One digit of the loop: doubled on every second step, less 9 when the
      double passes 9. */
  method Digit(d: nat, alt: bool) returns (n: nat)
    requires d < 10
    ensures n == Contribution(d, alt)
  {
    n := d;
    if alt {
      n := n * 2;
      if n > 9 {
        n := n - 9;
      }
    }
  }

  /** The sum of a suffix: its first digit's contribution plus the rest. */
  lemma LuhnSumStep(s: string, i: int)
    requires AllDigits(s) && 0 <= i < |s|
    ensures LuhnSum(s[i..]) == Contribution(DigitValue(s[i]), (|s| - 1 - i) % 2 == 1) + LuhnSum(s[i + 1..])
  {
    assert s[i..][0] == s[i] && s[i..][1..] == s[i + 1..];
  }

  /** Separators and other non-digits never change the verdict. */
  lemma LuhnIgnoresNonDigits(num: string)
    ensures LuhnValid(num) <==> LuhnValid(Digits(num))
  {
  }

  /** The standard test number is accepted. */
  lemma LuhnAcceptsTestCard()
    ensures LuhnValid("4111 1111 1111 1111")
  {
    TestCardDigits();
    TestCardSum();
  }

  /** Its digits are a 4 and fifteen ones: 8 + 15 + 7 = 30. */
  lemma TestCardSum()
    ensures "4111111111111111" == ['4'] + Ones(15)
    ensures LuhnSum(['4'] + Ones(15)) == 30
  {
    var d := ['4'] + Ones(15);
    assert d[1..] == Ones(15);
    LuhnSumOnes(15);
  }

  lemma TestCardDigits()
    ensures Digits("4111 1111 1111 1111") == "4111111111111111"
  {
    TestCardIsGrouped();
    GroupedDigits("4111111111111111");
  }

  lemma TestCardIsGrouped()
    ensures Grouped("4111111111111111") == "4111 1111 1111 1111"
  {
    var d := "4111111111111111";
    assert d[4..] == "111111111111";
    assert d[4..][4..] == "11111111";
    assert d[4..][4..][4..] == "1111";
  }

  /** `n` ones. */
  function Ones(n: nat): (s: string)
    ensures |s| == n && AllDigits(s)
  {
    seq(n, _ => '1')
  }

  /** Among `n` ones, the n/2 doubled ones count twice. */
  lemma {:induction false} LuhnSumOnes(n: nat)
    ensures LuhnSum(Ones(n)) == n + n / 2
  {
    if n > 0 {
      var s := Ones(n);
      assert s[1..] == Ones(n - 1);
      assert DigitValue(s[0]) == 1;
      LuhnSumOnes(n - 1);
      assert LuhnSum(s) == Contribution(1, (n - 1) % 2 == 1) + (n - 1) + (n - 1) / 2;
      if n % 2 == 0 {
        assert (n - 1) % 2 == 1 && (n - 1) / 2 == n / 2 - 1;
      } else {
        assert (n - 1) % 2 == 0 && (n - 1) / 2 == n / 2;
      }
    }
  }

  /** Replacing one digit changes the sum by the difference of that
      position's contributions. */
  lemma {:induction false} LuhnSumReplace(s: string, k: int, c: char)
    requires AllDigits(s) && 0 <= k < |s| && IsDigit(c)
    ensures AllDigits(s[k := c])
    ensures LuhnSum(s[k := c]) + Contribution(DigitValue(s[k]), (|s| - 1 - k) % 2 == 1)
         == LuhnSum(s) + Contribution(DigitValue(c), (|s| - 1 - k) % 2 == 1)
  {
    var t := s[k := c];
    if k > 0 {
      assert t[1..] == s[1..][k - 1 := c];
      LuhnSumReplace(s[1..], k - 1, c);
    } else {
      assert t[1..] == s[1..];
    }
  }

  /** Different digits contribute differently in the same position. */
  lemma ContributionInjective(d: nat, e: nat, doubled: bool)
    requires d < 10 && e < 10 && d != e
    ensures Contribution(d, doubled) != Contribution(e, doubled)
  {
  }

  /** A mistyped digit never passes for a valid number: changing one digit
      always changes the Luhn sum modulo 10. */
  lemma SingleDigitErrorDetected(s: string, k: int, c: char)
    requires AllDigits(s) && 0 <= k < |s| && IsDigit(c) && c != s[k]
    ensures AllDigits(s[k := c])
    ensures LuhnSum(s[k := c]) % 10 != LuhnSum(s) % 10
  {
    var w := (|s| - 1 - k) % 2 == 1;
    LuhnSumReplace(s, k, c);
    assert DigitValue(c) != DigitValue(s[k]);
    ContributionInjective(DigitValue(s[k]), DigitValue(c), w);
    ModDiffers(LuhnSum(s[k := c]), LuhnSum(s), Contribution(DigitValue(s[k]), w), Contribution(DigitValue(c), w));
  }

  /** Two numbers that differ by a non-zero amount below 10 differ modulo 10. */
  lemma ModDiffers(x: int, y: int, a: int, b: int)
    requires x + a == y + b && 0 <= a < 10 && 0 <= b < 10 && a != b
    ensures x % 10 != y % 10
  {
  }

  // ------------------------------------------------------------ formatting

  /** `replace(/(\d{4})(?=\d)/g, "$1 ")`: a space after every group of four
      digits that another digit follows. */
  function Grouped(d: string): string {
    if |d| > 4 then d[..4] + " " + Grouped(d[4..]) else d
  }

  /** `slice(0, n)`. */
  function Take(s: string, n: nat): (r: string)
    ensures |r| <= n && |r| <= |s| && r == s[..|r|]
    ensures |s| <= n ==> r == s
  {
    if |s| <= n then s else s[..n]
  }

  /** `formatCard`: at most 19 digits, in groups of four. Removing the
      spaces gives back the input's first 19 digits, and a space sits
      exactly at every fifth position. */
  function FormatCard(val: string): (r: string)
    ensures Digits(r) == Take(Digits(val), 19)
    ensures forall i :: 0 <= i < |r| ==> (r[i] == ' ' <==> i % 5 == 4)
    ensures |r| <= 23
  {
    var d := Take(Digits(val), 19);
    GroupedDigits(d);
    GroupedLayout(d);
    Grouped(d)
  }

  /** The grouped digits read back as the digits. */
  lemma {:induction false} GroupedDigits(d: string)
    requires AllDigits(d)
    ensures Digits(Grouped(d)) == d
  {
    if |d| > 4 {
      GroupedDigits(d[4..]);
      FilterAppend(d[..4] + " ", Grouped(d[4..]), IsDigit);
      FilterAppend(d[..4], " ", IsDigit);
      assert d[..4] + d[4..] == d;
    }
  }

  /** A space sits exactly at every fifth position, so groups hold four
      digits and the text never ends in a space; n digits take
      n + (n - 1) / 4 characters. */
  lemma {:induction false} GroupedLayout(d: string)
    requires AllDigits(d)
    ensures forall i :: 0 <= i < |Grouped(d)| ==> (Grouped(d)[i] == ' ' <==> i % 5 == 4)
    ensures |Grouped(d)| == if d == [] then 0 else |d| + (|d| - 1) / 4
  {
    if |d| > 4 {
      var rest := Grouped(d[4..]);
      GroupedLayout(d[4..]);
      var g := Grouped(d);
      forall i | 0 <= i < |g| ensures g[i] == ' ' <==> i % 5 == 4 {
        if i >= 5 {
          assert g[i] == rest[i - 5];
        } else if i < 4 {
          assert g[i] == d[i];
        }
      }
    }
  }

  /** Re-formatting a formatted number changes nothing, so formatting on
      every keystroke is stable. */
  lemma FormatCardIdempotent(val: string)
    ensures FormatCard(FormatCard(val)) == FormatCard(val)
  {
  }

  // ------------------------------------------------------------ validation

  /** The form's fields as typed. */
  datatype CardForm = CardForm(nombre: string, numero: string, expMes: string, expAnio: string,
                               cvv: string, direccion: string, ciudad: string, pais: string, zip: string)

  /** `/^\d{lo,hi}$/`. */
  predicate DigitRun(s: string, lo: nat, hi: nat) {
    lo <= |s| <= hi && AllDigits(s)
  }

  /** `replace(/\s+/g, "")`. */
  function NoSpaces(s: string): (r: string)
    ensures forall i :: 0 <= i < |r| ==> !JsWhitespace(r[i])
  {
    Filter(s, c => !JsWhitespace(c))
  }

  /** Valid month: two digits spelling 1..12. */
  predicate MonthOk(m: string) {
    DigitRun(m, 2, 2) && 1 <= DecimalValue(m) <= 12
  }

  /** A form `validar` accepts: a holder name, a card number passing the
      Luhn check once its spaces are removed, a month 01..12, a year of 2 to
      4 digits whose month has not ended, a CVV of 3 or 4 digits and a
      billing address, city and country. */
  predicate FormOk(f: CardForm, expirada: (int, int) -> bool) {
    && JsTrim(f.nombre) != []
    && LuhnValid(NoSpaces(f.numero))
    && MonthOk(f.expMes)
    && DigitRun(f.expAnio, 2, 4)
    && !expirada(DecimalValue(ExpandYear(f.expAnio)), DecimalValue(f.expMes))
    && DigitRun(f.cvv, 3, 4)
    && JsTrim(f.direccion) != [] && JsTrim(f.ciudad) != [] && JsTrim(f.pais) != []
  }

  /** A two-digit year is taken as 20yy. */
  function ExpandYear(a: string): string {
    if |a| == 2 then "20" + a else a
  }

  /** `validar`: the first problem's message, or none. `expirada(y, m)` says
      whether the last day of month `m` of year `y` lies before now. */
  function Validar(f: CardForm, expirada: (int, int) -> bool): (r: Option<string>)
    ensures r.None? <==> FormOk(f, expirada)
    ensures JsTrim(f.nombre) == [] ==> r == Some("Ingresa el nombre del titular.")
    ensures JsTrim(f.nombre) != [] && !LuhnValid(NoSpaces(f.numero)) ==> r == Some("Número de tarjeta inválido.")
  {
    if JsTrim(f.nombre) == [] then Some("Ingresa el nombre del titular.")
    else if !LuhnValid(NoSpaces(f.numero)) then Some("Número de tarjeta inválido.")
    else if !MonthOk(f.expMes) then Some("Mes inválido.")
    else if !DigitRun(f.expAnio, 2, 4) then Some("Año inválido.")
    else if expirada(DecimalValue(ExpandYear(f.expAnio)), DecimalValue(f.expMes)) then Some("Tarjeta expirada.")
    else if !DigitRun(f.cvv, 3, 4) then Some("CVV inválido.")
    else if JsTrim(f.direccion) == [] || JsTrim(f.ciudad) == [] || JsTrim(f.pais) == [] then
      Some("Completa la dirección de cobro.")
    else None
  }

  /** A two-digit year yy stands for the year 2000 + yy. */
  lemma ExpandTwoDigitYear(a: string)
    ensures DigitRun(a, 2, 2) ==>
      AllDigits(ExpandYear(a)) && DecimalValue(ExpandYear(a)) == 2000 + DecimalValue(a)
  {
    if DigitRun(a, 2, 2) {
      var y := "20" + a;
      assert AllDigits(y);
      assert y[..3] == "20" + [a[0]] && y[3] == a[1];
      assert y[..3][..2] == "20";
      assert "20"[..1] == "2" && "2"[..0] == [];
      assert DecimalValue("20") == 20;
      assert DecimalValue(y[..3]) == 200 + DigitValue(a[0]);
      assert DecimalValue(y) == 10 * DecimalValue(y[..3]) + DigitValue(a[1]);
      assert a[..1] == [a[0]] && [a[0]][..0] == [];
      assert DecimalValue(a) == 10 * DigitValue(a[0]) + DigitValue(a[1]);
    }
  }

  datatype Tarjeta = Tarjeta(nombre: string, numero: string, expMes: int, expAnio: int, cvv: string)
  datatype Facturacion = Facturacion(direccion: string, ciudad: string, pais: string, zip: string)
  datatype Payload = Payload(tarjeta: Tarjeta, facturacion: Facturacion)

  /** The body `onSubmit` posts once the form validates: trimmed texts, the
      card number without spaces and the year expanded. */
  function PayloadOf(f: CardForm, expirada: (int, int) -> bool): (p: Payload)
    requires Validar(f, expirada).None?
    ensures forall i :: 0 <= i < |p.tarjeta.numero| ==> !JsWhitespace(p.tarjeta.numero[i])
    ensures 1 <= p.tarjeta.expMes <= 12
    ensures |f.expAnio| == 2 ==> p.tarjeta.expAnio == 2000 + DecimalValue(f.expAnio)
    ensures p.facturacion.direccion != [] && p.facturacion.ciudad != [] && p.facturacion.pais != []
  {
    AcceptedFields(f, expirada);
    Payload(Tarjeta(JsTrim(f.nombre), NoSpaces(f.numero), DecimalValue(f.expMes),
                    DecimalValue(ExpandYear(f.expAnio)), f.cvv),
            Facturacion(JsTrim(f.direccion), JsTrim(f.ciudad), JsTrim(f.pais), JsTrim(f.zip)))
  }

  /** What an accepted form guarantees about the fields the payload reads. */
  lemma AcceptedFields(f: CardForm, expirada: (int, int) -> bool)
    requires Validar(f, expirada).None?
    ensures AllDigits(f.expMes) && 1 <= DecimalValue(f.expMes) <= 12
    ensures AllDigits(ExpandYear(f.expAnio))
    ensures |f.expAnio| == 2 ==> DecimalValue(ExpandYear(f.expAnio)) == 2000 + DecimalValue(f.expAnio)
    ensures JsTrim(f.direccion) != [] && JsTrim(f.ciudad) != [] && JsTrim(f.pais) != []
  {
    assert FormOk(f, expirada);
    ExpandTwoDigitYear(f.expAnio);
  }
}

=== FILE: comentarios.dfy ===
/** `ComentarioDAO`: the comments on a flight. `crear` validates and stores a
    comment, optionally as a reply to another comment of the same flight;
    `listarPublic` reads a flight's comments in creation order and links
    them into a forest of threads. */
module Comentarios {
  import opened Wrappers
  import opened Text

  /** A VUELO_COMENTARIO row; `padre` is ID_PADRE, NULL for a top-level comment. */
  datatype Comment = Comment(id: int, vuelo: int, usuario: int, texto: string, padre: Option<int>)

  function Ids(cs: seq<Comment>): set<int> {
    set c | c in cs :: c.id
  }

  /** ID_COMENTARIO is the primary key. */
  predicate UniqueIds(cs: seq<Comment>) {
    forall a, b :: 0 <= a < b < |cs| ==> cs[a].id != cs[b].id
  }

  predicate NoDup(xs: seq<int>) {
    forall a, b :: 0 <= a < b < |xs| ==> xs[a] != xs[b]
  }

  // ---------------------------------------------------------------- forest

  /** A comment with no parent, or whose parent is not among `ids`, is a root. */
  predicate IsRoot(c: Comment, ids: set<int>) {
    c.padre.None? || c.padre.value !in ids
  }

  /** The roots of `cs`, in order. */
  function RootsOf(cs: seq<Comment>, ids: set<int>): (r: seq<int>)
    ensures forall x :: x in r <==> exists j :: 0 <= j < |cs| && cs[j].id == x && IsRoot(cs[j], ids)
  {
    if cs == [] then []
    else
      var init := cs[..|cs| - 1];
      var c := cs[|cs| - 1];
      assert forall j :: 0 <= j < |init| ==> init[j] == cs[j];
      RootsOf(init, ids) + (if IsRoot(c, ids) then [c.id] else [])
  }

  /** The replies to comment `p` in `cs`, in order. */
  function RepliesOf(cs: seq<Comment>, p: int): (r: seq<int>)
    ensures forall x :: x in r <==> exists j :: 0 <= j < |cs| && cs[j].id == x && cs[j].padre == Some(p)
  {
    if cs == [] then []
    else
      var init := cs[..|cs| - 1];
      var c := cs[|cs| - 1];
      assert forall j :: 0 <= j < |init| ==> init[j] == cs[j];
      RepliesOf(init, p) + (if c.padre == Some(p) then [c.id] else [])
  }

  /** The forest as `listarPublic` links it: the root list, and each
      comment's `respuestas` list. */
  datatype Forest = Forest(roots: seq<int>, respuestas: map<int, seq<int>>)

  /** The second loop of `listarPublic` over the first `|cs|` comments: each
      goes under its parent when the parent was fetched, else among the
      roots. Every fetched comment starts with no replies. */
  function Linked(cs: seq<Comment>, ids: set<int>): (f: Forest)
    ensures f.respuestas.Keys == ids
  {
    if cs == [] then Forest([], map id | id in ids :: [])
    else
      var f := Linked(cs[..|cs| - 1], ids);
      var c := cs[|cs| - 1];
      if IsRoot(c, ids) then f.(roots := f.roots + [c.id])
      else f.(respuestas := f.respuestas[c.padre.value := f.respuestas[c.padre.value] + [c.id]])
  }

  /** The linked forest holds exactly the roots and, under each comment, its
      replies, all in fetch order. */
  lemma {:induction false} LinkedMeaning(cs: seq<Comment>, ids: set<int>)
    ensures Linked(cs, ids).roots == RootsOf(cs, ids)
    ensures forall p :: p in ids ==> Linked(cs, ids).respuestas[p] == RepliesOf(cs, p)
  {
    if cs != [] {
      var init := cs[..|cs| - 1];
      LinkedMeaning(init, ids);
    }
  }

  /** `listarPublic` on the comments it fetched: the first loop collects
      them by id, the second links them. */
  method BuildForest(cs: seq<Comment>) returns (f: Forest)
    requires UniqueIds(cs)
    ensures f.roots == RootsOf(cs, Ids(cs))
    ensures f.respuestas.Keys == Ids(cs)
    ensures forall p :: p in f.respuestas ==> f.respuestas[p] == RepliesOf(cs, p)
  {
    var ids: set<int> := {};
    var i := 0;
    while i < |cs|
      invariant 0 <= i <= |cs|
      invariant ids == Ids(cs[..i])
    {
      assert cs[..i + 1] == cs[..i] + [cs[i]];
      ids := ids + {cs[i].id};
      i := i + 1;
    }
    assert cs[..i] == cs;
    f := Forest([], map id | id in ids :: []);
    i := 0;
    while i < |cs|
      invariant 0 <= i <= |cs|
      invariant f == Linked(cs[..i], ids)
    {
      var c := cs[i];
      assert cs[..i + 1][..i] == cs[..i];
      if c.padre.None? || c.padre.value !in f.respuestas {
        f := f.(roots := f.roots + [c.id]);
      } else {
        f := f.(respuestas := f.respuestas[c.padre.value := f.respuestas[c.padre.value] + [c.id]]);
      }
      i := i + 1;
    }
    assert cs[..i] == cs;
    LinkedMeaning(cs, ids);
  }

  /** A prefix of distinct comments has distinct ids. */
  lemma UniquePrefix(cs: seq<Comment>)
    requires UniqueIds(cs) && cs != []
    ensures UniqueIds(cs[..|cs| - 1]) && cs[|cs| - 1].id !in Ids(cs[..|cs| - 1])
  {
    var init := cs[..|cs| - 1];
    forall c | c in init ensures c.id != cs[|cs| - 1].id {
      var k :| 0 <= k < |init| && init[k] == c;
      assert cs[k] == c;
    }
  }

  /** No comment is listed twice among the roots. */
  lemma {:induction false} RootsNoDup(cs: seq<Comment>, ids: set<int>)
    requires UniqueIds(cs)
    ensures NoDup(RootsOf(cs, ids))
  {
    if cs != [] {
      var init := cs[..|cs| - 1];
      UniquePrefix(cs);
      RootsNoDup(init, ids);
      var last := cs[|cs| - 1];
      var r := RootsOf(init, ids);
      forall a | 0 <= a < |r| ensures r[a] != last.id {
        assert r[a] in r;
        var j :| 0 <= j < |init| && init[j].id == r[a] && IsRoot(init[j], ids);
        assert init[j] in init;
      }
    }
  }

  /** No comment is listed twice among a comment's replies. */
  lemma {:induction false} RepliesNoDup(cs: seq<Comment>, p: int)
    requires UniqueIds(cs)
    ensures NoDup(RepliesOf(cs, p))
  {
    if cs != [] {
      var init := cs[..|cs| - 1];
      UniquePrefix(cs);
      RepliesNoDup(init, p);
      var last := cs[|cs| - 1];
      var r := RepliesOf(init, p);
      forall a | 0 <= a < |r| ensures r[a] != last.id {
        assert r[a] in r;
        var j :| 0 <= j < |init| && init[j].id == r[a] && init[j].padre == Some(p);
        assert init[j] in init;
      }
    }
  }

  /** Every fetched comment is placed exactly once: a root appears among the
      roots and under no fetched comment; any other comment appears under its parent
      and nowhere else; and no list repeats a comment. */
  lemma PlacedOnce(cs: seq<Comment>, j: int)
    requires UniqueIds(cs) && 0 <= j < |cs|
    ensures IsRoot(cs[j], Ids(cs)) ==> cs[j].id in RootsOf(cs, Ids(cs))
    ensures IsRoot(cs[j], Ids(cs)) ==> forall p :: p in Ids(cs) ==> cs[j].id !in RepliesOf(cs, p)
    ensures !IsRoot(cs[j], Ids(cs)) ==> cs[j].id !in RootsOf(cs, Ids(cs))
    ensures !IsRoot(cs[j], Ids(cs)) ==> cs[j].id in RepliesOf(cs, cs[j].padre.value)
    ensures forall p :: cs[j].padre != Some(p) ==> cs[j].id !in RepliesOf(cs, p)
    ensures NoDup(RootsOf(cs, Ids(cs)))
    ensures forall p :: NoDup(RepliesOf(cs, p))
  {
    var c := cs[j];
    var ids := Ids(cs);
    RootsNoDup(cs, ids);
    forall p ensures NoDup(RepliesOf(cs, p)) {
      RepliesNoDup(cs, p);
    }
    forall p | c.id in RepliesOf(cs, p) ensures c.padre == Some(p) {
      var k :| 0 <= k < |cs| && cs[k].id == c.id && cs[k].padre == Some(p);
      assert k == j;
    }
    if c.id in RootsOf(cs, ids) {
      var k :| 0 <= k < |cs| && cs[k].id == c.id && IsRoot(cs[k], ids);
      assert k == j;
    }
    if IsRoot(c, ids) {
      var r := RootsOf(cs, ids);
      assert 0 <= j < |cs| && cs[j].id == c.id && IsRoot(cs[j], ids);
      assert c.id in r;
    } else {
      var r := RepliesOf(cs, c.padre.value);
      assert 0 <= j < |cs| && cs[j].id == c.id && cs[j].padre == Some(c.padre.value);
      assert c.id in r;
    }
  }

  /** When every reply's parent was fetched, the roots are exactly the
      top-level comments. */
  lemma RootsAreTopLevel(cs: seq<Comment>)
    requires forall c :: c in cs && c.padre.Some? ==> c.padre.value in Ids(cs)
    ensures forall x :: x in RootsOf(cs, Ids(cs)) <==> exists c :: c in cs && c.id == x && c.padre.None?
  {
    forall x ensures x in RootsOf(cs, Ids(cs)) <==> exists c :: c in cs && c.id == x && c.padre.None? {
      if x in RootsOf(cs, Ids(cs)) {
        var j :| 0 <= j < |cs| && cs[j].id == x && IsRoot(cs[j], Ids(cs));
        assert cs[j] in cs;
      }
      if exists c :: c in cs && c.id == x && c.padre.None? {
        var c :| c in cs && c.id == x && c.padre.None?;
        var j :| 0 <= j < |cs| && cs[j] == c;
        assert IsRoot(cs[j], Ids(cs));
      }
    }
  }

  // --------------------------------------------------------------- threads

  /** Every reply's parent is an earlier comment of the same flight. */
  predicate WellThreaded(cs: seq<Comment>) {
    forall j :: 0 <= j < |cs| && cs[j].padre.Some? ==>
      exists k :: 0 <= k < j && cs[k].id == cs[j].padre.value && cs[k].vuelo == cs[j].vuelo
  }

  /** `listarPublic`'s query: the comments of one flight, in creation order. */
  function OfVuelo(cs: seq<Comment>, vuelo: int): (r: seq<Comment>)
    ensures forall c :: c in r <==> c in cs && c.vuelo == vuelo
  {
    if cs == [] then []
    else
      var init := cs[..|cs| - 1];
      var c := cs[|cs| - 1];
      assert forall j :: 0 <= j < |init| ==> init[j] == cs[j];
      OfVuelo(init, vuelo) + (if c.vuelo == vuelo then [c] else [])
  }

  /** Selecting a flight's comments keeps the ids distinct. */
  lemma {:induction false} OfVueloUnique(cs: seq<Comment>, vuelo: int)
    requires UniqueIds(cs)
    ensures UniqueIds(OfVuelo(cs, vuelo))
  {
    if cs != [] {
      var init := cs[..|cs| - 1];
      UniquePrefix(cs);
      OfVueloUnique(init, vuelo);
      var last := cs[|cs| - 1];
      var r := OfVuelo(init, vuelo);
      if last.vuelo == vuelo {
        forall k | 0 <= k < |r| ensures r[k].id != last.id {
          assert r[k] in init;
        }
      }
    }
  }

  /** In a table kept well threaded, a flight's comments have no orphans:
      the roots are exactly its top-level comments. */
  lemma {:induction false} ThreadedHasNoOrphans(cs: seq<Comment>, vuelo: int)
    requires WellThreaded(cs)
    ensures forall c :: c in OfVuelo(cs, vuelo) && c.padre.Some? ==> c.padre.value in Ids(OfVuelo(cs, vuelo))
  {
    if cs != [] {
      var init := cs[..|cs| - 1];
      var last := cs[|cs| - 1];
      assert WellThreaded(init) by {
        forall j | 0 <= j < |init| && init[j].padre.Some?
          ensures exists k :: 0 <= k < j && init[k].id == init[j].padre.value && init[k].vuelo == init[j].vuelo
        {
          var k :| 0 <= k < j && cs[k].id == cs[j].padre.value && cs[k].vuelo == cs[j].vuelo;
          assert init[k] == cs[k];
        }
      }
      ThreadedHasNoOrphans(init, vuelo);
      var r := OfVuelo(cs, vuelo);
      assert Ids(OfVuelo(init, vuelo)) <= Ids(r);
      if last.vuelo == vuelo && last.padre.Some? {
        var j := |cs| - 1;
        var k :| 0 <= k < j && cs[k].id == last.padre.value && cs[k].vuelo == last.vuelo;
        assert cs[k] in init;
        assert cs[k] in OfVuelo(init, vuelo);
      }
    }
  }

  /** Appending a comment whose parent, if any, is a comment of the same
      flight keeps the table well threaded. */
  lemma AppendKeepsThreaded(cs: seq<Comment>, c: Comment)
    requires WellThreaded(cs)
    requires c.padre.Some? ==> exists p :: p in cs && p.id == c.padre.value && p.vuelo == c.vuelo
    ensures WellThreaded(cs + [c])
  {
    var t := cs + [c];
    forall j | 0 <= j < |t| && t[j].padre.Some?
      ensures exists k :: 0 <= k < j && t[k].id == t[j].padre.value && t[k].vuelo == t[j].vuelo
    {
      if j < |cs| {
        var k :| 0 <= k < j && cs[k].id == cs[j].padre.value && cs[k].vuelo == cs[j].vuelo;
        assert t[k] == cs[k];
      } else {
        var p :| p in cs && p.id == c.padre.value && p.vuelo == c.vuelo;
        var k :| 0 <= k < |cs| && cs[k] == p;
        assert t[k] == p;
      }
    }
  }

  /** Appending a comment under a fresh id keeps the ids distinct. */
  lemma AppendKeepsUnique(cs: seq<Comment>, c: Comment)
    requires UniqueIds(cs) && forall d :: d in cs ==> d.id < c.id
    ensures UniqueIds(cs + [c]) && c.id !in Ids(cs)
  {
    var t := cs + [c];
    forall a, b | 0 <= a < b < |t| ensures t[a].id != t[b].id {
      if b == |cs| {
        assert t[a] in cs;
      }
    }
  }

  // ------------------------------------------------------------- the DAO

  /** `crear`'s checks, in order: a required, non-blank comment of at most
      2000 characters (counted before trimming), on an existing flight, and
      a parent, if given, among that flight's comments. */
  function CrearCheck(cs: seq<Comment>, vuelos: set<int>, idVuelo: int, comentario: Option<string>,
                      idPadre: Option<int>): (r: Outcome)
    ensures r.Pass? <==>
      && comentario.Some? && JavaTrim(comentario.value) != [] && |comentario.value| <= 2000
      && idVuelo in vuelos
      && (idPadre.Some? ==> exists c :: c in cs && c.id == idPadre.value && c.vuelo == idVuelo)
  {
    if comentario.None? || JavaTrim(comentario.value) == [] then Fail("El comentario es requerido")
    else if |comentario.value| > 2000 then Fail("Máximo 2000 caracteres")
    else if idVuelo !in vuelos then Fail("Vuelo no existe: " + IntToString(idVuelo))
    else if idPadre.Some? && !(exists c :: c in cs && c.id == idPadre.value && c.vuelo == idVuelo) then
      Fail("El comentario padre no existe en este vuelo")
    else Pass
  }

  /** The VUELO_COMENTARIO table, its identity column and the flight ids. */
  class ComentarioDAO {
    var rows: seq<Comment>
    var nextId: int
    var vuelos: set<int>

    ghost predicate Valid()
      reads this
    {
      && UniqueIds(rows) && WellThreaded(rows)
      && forall c :: c in rows ==> c.id < nextId
    }

    constructor (vs: set<int>)
      ensures Valid() && rows == [] && vuelos == vs
    {
      rows := [];
      nextId := 1;
      vuelos := vs;
    }

    /** `crear`: on a failed check nothing is stored; otherwise the trimmed
        comment is appended under a new id, which is returned. */
    method Crear(idVuelo: int, idUsuario: int, comentario: Option<string>, idPadre: Option<int>)
      returns (r: Result<int>)
      requires Valid()
      modifies this
      ensures Valid() && vuelos == old(vuelos)
      ensures var chk := CrearCheck(old(rows), vuelos, idVuelo, comentario, idPadre);
        && (chk.Fail? ==> r == Err(chk.error) && rows == old(rows))
        && (chk.Pass? ==>
              && r.Ok? && r.value !in Ids(old(rows))
              && rows == old(rows) + [Comment(r.value, idVuelo, idUsuario, JavaTrim(comentario.value), idPadre)])
    {
      var chk := CrearCheck(rows, vuelos, idVuelo, comentario, idPadre);
      if chk.Fail? {
        return Err(chk.error);
      }
      var c := Comment(nextId, idVuelo, idUsuario, JavaTrim(comentario.value), idPadre);
      AppendKeepsThreaded(rows, c);
      AppendKeepsUnique(rows, c);
      rows := rows + [c];
      r := Ok(nextId);
      nextId := nextId + 1;
    }

    /** `listarPublic`: the flight's comments linked into threads. Since
        every reply was stored under an existing parent, the roots are
        exactly the flight's top-level comments. */
    method ListarPublic(idVuelo: int) returns (f: Forest)
      requires Valid()
      ensures var cs := OfVuelo(rows, idVuelo);
        && f.roots == RootsOf(cs, Ids(cs))
        && (forall x :: x in f.roots <==> exists c :: c in cs && c.id == x && c.padre.None?)
        && f.respuestas.Keys == Ids(cs)
        && forall p :: p in f.respuestas ==> f.respuestas[p] == RepliesOf(cs, p)
    {
      var cs := OfVuelo(rows, idVuelo);
      ThreadedHasNoOrphans(rows, idVuelo);
      RootsAreTopLevel(cs);
      OfVueloUnique(rows, idVuelo);
      f := BuildForest(cs);
    }
  }
}

=== FILE: compras_dao.dfy ===
/** `ComprasDAO`: the shopping cart of the airline site and the seat count
    behind it. A class on a departure (SALIDA_CLASE) has CUPO_TOTAL seats; the
    seats still on sale are CUPO_TOTAL minus the seats held by reservations in
    estado 1 minus the seats sitting in any cart. */
module Compras {
  import opened Wrappers
  import opened Text
  import opened Seqs

  // ------------------------------------------------------------- the tables

  /** A fare class on a departure: the key of SALIDA_CLASE and of a cart line. */
  datatype Key = Key(vuelo: int, clase: int)

  /** VUELO joined with ESTADOS: ACTIVO (may be NULL), the state's name, and
      ID_VUELO_PAREJA. */
  datatype Vuelo = Vuelo(activo: Option<int>, estado: string, pareja: Option<int>)

  /** SALIDA_CLASE: the seats and the price of a class; the price may be NULL. */
  datatype Salida = Salida(cupoTotal: int, precio: Option<int>)

  /** CARRITO_ITEM. Prices are in cents. */
  datatype Item = Item(id: int, carrito: int, key: Key, cantidad: int, precio: int)

  /** RESERVA: the owner and ID_ESTADO (1 = confirmed, 2 = cancelled). */
  datatype Reserva = Reserva(owner: int, estado: int)

  /** RESERVA_ITEM: one seat of a reservation, with ID_ESTADO_RESERVA. */
  datatype ReservaItem = ReservaItem(reserva: int, key: Key, estado: int)

  /** The tables the cart rules read. VUELO_CLASE appears as `tarifas`, the
      price used when SALIDA_CLASE has none. */
  datatype Db = Db(vuelos: map<int, Vuelo>, salidas: map<Key, Salida>, tarifas: map<Key, int>,
                   items: seq<Item>, reservas: map<int, Reserva>, reservaItems: seq<ReservaItem>)

  // ------------------------------------------------------------ seat counts

  /** Whether a reservation seat holds a seat of `k`: it belongs to a
      reservation in estado 1. */
  predicate Holds(reservas: map<int, Reserva>, ri: ReservaItem, k: Key) {
    ri.key == k && ri.reserva in reservas && reservas[ri.reserva].estado == 1
  }

  /** `getReservados`: the seats of `k` held by confirmed reservations. */
  function Reservados(reservas: map<int, Reserva>, ris: seq<ReservaItem>, k: Key): (n: nat)
    ensures n <= |ris|
  {
    if ris == [] then 0
    else Reservados(reservas, ris[..|ris| - 1], k) + (if Holds(reservas, ris[|ris| - 1], k) then 1 else 0)
  }

  /** What a cart line puts on `k`. */
  function Share(it: Item, k: Key): int {
    if it.key == k then it.cantidad else 0
  }

  /** `getEnCarritos`: the seats of `k` in all carts together. */
  function EnCarritos(items: seq<Item>, k: Key): int {
    if items == [] then 0 else EnCarritos(items[..|items| - 1], k) + Share(items[|items| - 1], k)
  }

  /** The seats of `k` still on sale. */
  function Disponible(db: Db, k: Key): int
    requires k in db.salidas
  {
    db.salidas[k].cupoTotal - Reservados(db.reservas, db.reservaItems, k) - EnCarritos(db.items, k)
  }

  /** No class has more seats held or in carts than it has. */
  predicate NoOverbooking(db: Db) {
    forall k :: k in db.salidas ==> Disponible(db, k) >= 0
  }

  /** Every cart line holds at least one seat. */
  predicate PositiveLines(items: seq<Item>) {
    forall j :: 0 <= j < |items| ==> items[j].cantidad >= 1
  }

  lemma {:induction false} EnCarritosAppend(items: seq<Item>, x: Item, k: Key)
    ensures EnCarritos(items + [x], k) == EnCarritos(items, k) + Share(x, k)
  {
    assert (items + [x])[..|items|] == items;
  }

  /** Replacing one line changes the count of `k` by the difference of the two lines' shares. */
  lemma {:induction false} EnCarritosUpdate(items: seq<Item>, i: nat, x: Item, k: Key)
    requires i < |items|
    ensures EnCarritos(items[i := x], k) == EnCarritos(items, k) - Share(items[i], k) + Share(x, k)
  {
    var n := |items| - 1;
    if i < n {
      EnCarritosUpdate(items[..n], i, x, k);
      assert items[i := x][..n] == items[..n][i := x];
    } else {
      assert items[i := x][..n] == items[..n];
    }
  }

  /** Removing one line takes its share off the count of `k`. */
  lemma {:induction false} EnCarritosRemove(items: seq<Item>, i: nat, k: Key)
    requires i < |items|
    ensures EnCarritos(items[..i] + items[i + 1..], k) == EnCarritos(items, k) - Share(items[i], k)
  {
    var n := |items| - 1;
    if i < n {
      EnCarritosRemove(items[..n], i, k);
      assert (items[..i] + items[i + 1..])[..n - 1] == items[..n][..i] + items[..n][i + 1..];
      assert (items[..i] + items[i + 1..])[n - 1] == items[n];
    } else {
      assert items[..i] + items[i + 1..] == items[..n];
    }
  }

  // ------------------------------------------------------- flight checks

  /** `validarVueloDisponible`: the flight exists, is active (a NULL ACTIVO
      counts as active) and its state is not CANCELADO in any letter case. */
  function CheckVuelo(vuelos: map<int, Vuelo>, id: int): (r: Outcome)
    ensures r.Pass? <==> id in vuelos && vuelos[id].activo.GetOr(1) == 1 && UpperStr(vuelos[id].estado) != "CANCELADO"
    ensures id !in vuelos ==> r == Fail("Vuelo no existe")
  {
    if id !in vuelos then Fail("Vuelo no existe")
    else if vuelos[id].activo.GetOr(1) != 1 || UpperStr(vuelos[id].estado) == "CANCELADO" then
      Fail("Vuelo no disponible para compra")
    else Pass
  }

  /** `getClaseInfo`'s price: SALIDA_CLASE's, or else VUELO_CLASE's, or none. */
  function Precio(db: Db, k: Key): (p: Option<int>)
    requires k in db.salidas
    ensures db.salidas[k].precio.Some? ==> p == db.salidas[k].precio
    ensures db.salidas[k].precio.None? ==> (p.Some? <==> k in db.tarifas)
  {
    if db.salidas[k].precio.Some? then db.salidas[k].precio
    else if k in db.tarifas then Some(db.tarifas[k]) else None
  }

  /** `getParejaId`: the paired flight, none for an unknown flight. */
  function Pareja(vuelos: map<int, Vuelo>, id: int): Option<int> {
    if id in vuelos then vuelos[id].pareja else None
  }

  // ----------------------------------------------------------- cart lines

  /** The cart's line for `k`, if any (the MERGE key). */
  function LineIndex(items: seq<Item>, cart: int, k: Key): (i: Option<nat>)
    ensures i.Some? ==> i.value < |items| && items[i.value].carrito == cart && items[i.value].key == k
    ensures i.None? ==> forall j :: 0 <= j < |items| ==> !(items[j].carrito == cart && items[j].key == k)
    ensures i.Some? ==> forall j :: 0 <= j < i.value ==> !(items[j].carrito == cart && items[j].key == k)
  {
    if items == [] then None
    else if items[0].carrito == cart && items[0].key == k then Some(0)
    else match LineIndex(items[1..], cart, k)
      case None => None
      case Some(j) => Some(j + 1)
  }

  /** The line `idItem` of the cart, if any. */
  function ItemIndex(items: seq<Item>, cart: int, idItem: int): (i: Option<nat>)
    ensures i.Some? ==> i.value < |items| && items[i.value].carrito == cart && items[i.value].id == idItem
    ensures i.None? ==> forall j :: 0 <= j < |items| ==> !(items[j].carrito == cart && items[j].id == idItem)
  {
    if items == [] then None
    else if items[0].carrito == cart && items[0].id == idItem then Some(0)
    else match ItemIndex(items[1..], cart, idItem)
      case None => None
      case Some(j) => Some(j + 1)
  }

  /** The MERGE of `addOrIncrementItem`: the cart's line for `k` grows by `n`,
      or a line of `n` seats at `precio` is added under the key `id`. */
  function Merge(items: seq<Item>, cart: int, k: Key, n: int, precio: int, id: int): (r: seq<Item>)
    ensures |r| == |items| + (if LineIndex(items, cart, k).None? then 1 else 0)
    ensures var i := LineIndex(items, cart, k);
      LineIndex(r, cart, k).Some? &&
      r[LineIndex(r, cart, k).value].cantidad == (if i.Some? then items[i.value].cantidad + n else n)
    ensures forall j :: 0 <= j < |items| && !(items[j].carrito == cart && items[j].key == k) ==> r[j] == items[j]
  {
    match LineIndex(items, cart, k)
    case Some(i) =>
      var t := items[i := items[i].(cantidad := items[i].cantidad + n)];
      LineIndexAt(t, cart, k, i);
      t
    case None =>
      var t := items + [Item(id, cart, k, n, precio)];
      LineIndexAt(t, cart, k, |items|);
      t
  }

  /** The first line of the cart for `k` is the one the lookup finds. */
  lemma LineIndexAt(items: seq<Item>, cart: int, k: Key, i: nat)
    requires i < |items| && items[i].carrito == cart && items[i].key == k
    requires forall j :: 0 <= j < i ==> !(items[j].carrito == cart && items[j].key == k)
    ensures LineIndex(items, cart, k) == Some(i)
  {
  }

  /** The identity value after a MERGE: used only when a line was inserted. */
  function NextAfterMerge(items: seq<Item>, cart: int, k: Key, id: int): int {
    if LineIndex(items, cart, k).None? then id + 1 else id
  }

  /** A MERGE adds `n` seats to `k`'s count and nothing to any other key. */
  lemma MergeCount(items: seq<Item>, cart: int, k: Key, n: int, precio: int, id: int, k': Key)
    ensures EnCarritos(Merge(items, cart, k, n, precio, id), k') == EnCarritos(items, k') + (if k' == k then n else 0)
  {
    match LineIndex(items, cart, k)
    case Some(i) => EnCarritosUpdate(items, i, items[i].(cantidad := items[i].cantidad + n), k');
    case None => EnCarritosAppend(items, Item(id, cart, k, n, precio), k');
  }

  /** A MERGE of a positive amount keeps every line positive. */
  lemma MergePositive(items: seq<Item>, cart: int, k: Key, n: int, precio: int, id: int)
    requires PositiveLines(items) && n >= 1
    ensures PositiveLines(Merge(items, cart, k, n, precio, id))
  {
  }

  // --------------------------------------------------- addOrIncrementItem

  /** `addOrIncrementItem`'s reading of the quantity: zero or less means one seat. */
  function Cantidad(cantidad: int): (n: int)
    ensures n >= 1
    ensures cantidad >= 1 ==> n == cantidad
    ensures cantidad <= 0 ==> n == 1
  {
    if cantidad <= 0 then 1 else cantidad
  }

  /** The return leg `addOrIncrementItem` also books: its flight and price. */
  datatype Leg = Leg(vuelo: int, precio: int)

  /** What the checks of `addOrIncrementItem` settle: the price of the line and
      the return leg, if one is booked too. */
  datatype AddPlan = AddPlan(precio: int, regreso: Option<Leg>)

  /** The checks `addOrIncrementItem` runs on the outbound class: the flight is
      on sale, the class is offered, it has a price and `n` seats are free. */
  predicate OutboundOk(db: Db, k: Key, n: int) {
    CheckVuelo(db.vuelos, k.vuelo).Pass? && k in db.salidas && Precio(db, k).Some? && Disponible(db, k) >= n
  }

  /** The same checks on the return class, which are run only when the return
      leg is booked too. */
  predicate ReturnOk(db: Db, k: Key, n: int) {
    CheckVuelo(db.vuelos, k.vuelo).Pass? && k in db.salidas && Disponible(db, k) >= n && Precio(db, k).Some?
  }

  /** The checks of `addOrIncrementItem` in the order the source runs them; the
      first that fails is the error. */
  function AddCheck(db: Db, v: int, c: int, n: int, incluirPareja: bool): (r: Result<AddPlan>)
    ensures r.Ok? <==> (OutboundOk(db, Key(v, c), n) &&
      (incluirPareja && Pareja(db.vuelos, v).Some? ==> ReturnOk(db, Key(Pareja(db.vuelos, v).value, c), n)))
    ensures OutboundOk(db, Key(v, c), n) && (!incluirPareja || Pareja(db.vuelos, v).None?) ==>
      r == Ok(AddPlan(Precio(db, Key(v, c)).value, None))
    ensures OutboundOk(db, Key(v, c), n) && incluirPareja && Pareja(db.vuelos, v).Some? ==>
      var p := Pareja(db.vuelos, v).value;
      ReturnOk(db, Key(p, c), n) ==> r == Ok(AddPlan(Precio(db, Key(v, c)).value, Some(Leg(p, Precio(db, Key(p, c)).value))))
    ensures CheckVuelo(db.vuelos, v).Fail? ==> r == Err(CheckVuelo(db.vuelos, v).error)
    ensures CheckVuelo(db.vuelos, v).Pass? && Key(v, c) !in db.salidas ==>
      r == Err("Clase no disponible para esta salida")
    ensures CheckVuelo(db.vuelos, v).Pass? && Key(v, c) in db.salidas && Precio(db, Key(v, c)).None? ==>
      r == Err("No se encontró precio para la clase/vuelo.")
    ensures CheckVuelo(db.vuelos, v).Pass? && Key(v, c) in db.salidas && Precio(db, Key(v, c)).Some?
            && Disponible(db, Key(v, c)) < n ==>
      r == Err("Cupo insuficiente: quedan " + IntToString(Disponible(db, Key(v, c))))
    ensures r.Ok? ==> CheckVuelo(db.vuelos, v).Pass? && Key(v, c) in db.salidas
    ensures r.Ok? ==> Disponible(db, Key(v, c)) >= n && Precio(db, Key(v, c)) == Some(r.value.precio)
    ensures r.Ok? && r.value.regreso.Some? ==>
      && incluirPareja
      && Pareja(db.vuelos, v) == Some(r.value.regreso.value.vuelo)
      && CheckVuelo(db.vuelos, r.value.regreso.value.vuelo).Pass?
      && Key(r.value.regreso.value.vuelo, c) in db.salidas
      && Disponible(db, Key(r.value.regreso.value.vuelo, c)) >= n
      && Precio(db, Key(r.value.regreso.value.vuelo, c)) == Some(r.value.regreso.value.precio)
    ensures r.Ok? && r.value.regreso.None? ==> !incluirPareja || Pareja(db.vuelos, v).None?
  {
    var k := Key(v, c);
    if CheckVuelo(db.vuelos, v).Fail? then Err(CheckVuelo(db.vuelos, v).error)
    else if k !in db.salidas then Err("Clase no disponible para esta salida")
    else if Precio(db, k).None? then Err("No se encontró precio para la clase/vuelo.")
    else if Disponible(db, k) < n then Err("Cupo insuficiente: quedan " + IntToString(Disponible(db, k)))
    else
      var pareja := if incluirPareja then Pareja(db.vuelos, v) else None;
      if pareja.None? then Ok(AddPlan(Precio(db, k).value, None))
      else
        var kp := Key(pareja.value, c);
        if CheckVuelo(db.vuelos, pareja.value).Fail? then Err(CheckVuelo(db.vuelos, pareja.value).error)
        else if kp !in db.salidas then Err("Clase no disponible en el regreso")
        else if Disponible(db, kp) < n then Err("Cupo insuficiente en regreso: quedan " + IntToString(Disponible(db, kp)))
        else if Precio(db, kp).None? then Err("No se encontró precio en regreso para la clase/vuelo.")
        else Ok(AddPlan(Precio(db, k).value, Some(Leg(pareja.value, Precio(db, kp).value))))
  }

  /** The two MERGEs of a successful `addOrIncrementItem`: the outbound line,
      then the return line when one is booked. `id` is the next identity value. */
  function AddLines(items: seq<Item>, cart: int, c: int, v: int, n: int, plan: AddPlan, id: int): (r: seq<Item>)
    ensures |items| <= |r| <= |items| + 2
    ensures LineIndex(r, cart, Key(v, c)).Some?
    ensures plan.regreso.Some? ==> LineIndex(r, cart, Key(plan.regreso.value.vuelo, c)).Some?
    ensures forall j :: 0 <= j < |items| && items[j].carrito != cart ==> r[j] == items[j]
  {
    var t := Merge(items, cart, Key(v, c), n, plan.precio, id);
    match plan.regreso
    case None => t
    case Some(leg) => Merge(t, cart, Key(leg.vuelo, c), n, leg.precio, NextAfterMerge(items, cart, Key(v, c), id))
  }

  /** The identity value after `AddLines`. */
  function NextAfterAdd(items: seq<Item>, cart: int, c: int, v: int, n: int, plan: AddPlan, id: int): int {
    var id1 := NextAfterMerge(items, cart, Key(v, c), id);
    match plan.regreso
    case None => id1
    case Some(leg) => NextAfterMerge(Merge(items, cart, Key(v, c), n, plan.precio, id), cart, Key(leg.vuelo, c), id1)
  }

  /** A successful add puts `n` seats on the outbound class and `n` on the
      return class, and no class ends up overbooked: the checks saw at least
      `n` free seats on each. The return flight must differ from the outbound
      one (`vincularPareja` never pairs a flight with itself). */
  lemma AddKeepsNoOverbooking(db: Db, cart: int, v: int, c: int, n: int, incluirPareja: bool, id: int)
    requires NoOverbooking(db) && AddCheck(db, v, c, n, incluirPareja).Ok? && n >= 1
    requires Pareja(db.vuelos, v) != Some(v)
    ensures var plan := AddCheck(db, v, c, n, incluirPareja).value;
      NoOverbooking(db.(items := AddLines(db.items, cart, c, v, n, plan, id)))
  {
    var plan := AddCheck(db, v, c, n, incluirPareja).value;
    var items' := AddLines(db.items, cart, c, v, n, plan, id);
    var db' := db.(items := items');
    var t := Merge(db.items, cart, Key(v, c), n, plan.precio, id);
    forall k | k in db'.salidas ensures Disponible(db', k) >= 0 {
      MergeCount(db.items, cart, Key(v, c), n, plan.precio, id, k);
      match plan.regreso
      case None =>
      case Some(leg) =>
        MergeCount(t, cart, Key(leg.vuelo, c), n, leg.precio, NextAfterMerge(db.items, cart, Key(v, c), id), k);
    }
  }

  /** No flight is its own return flight. */
  predicate NoSelfPair(vuelos: map<int, Vuelo>) {
    forall id :: id in vuelos ==> vuelos[id].pareja != Some(id)
  }

  // ------------------------------------------------------- updateQuantity

  /** The lines `updateQuantity` rewrites: the chosen line and, when the cart
      also holds the return leg in the same class, that line. */
  datatype UpdatePlan = UpdatePlan(linea: nat, parejaLinea: Option<nat>)

  /** The cart's line for the return leg of `it`, looked up only when the
      pair is to be kept in step. */
  function PairLine(db: Db, cart: int, it: Item, sync: bool): (pl: Option<nat>)
    ensures pl.Some? ==> sync && pl.value < |db.items| && db.items[pl.value].carrito == cart
    ensures pl.Some? ==> Pareja(db.vuelos, it.key.vuelo) == Some(db.items[pl.value].key.vuelo)
    ensures pl.Some? ==> db.items[pl.value].key.clase == it.key.clase
  {
    if !sync then None
    else match Pareja(db.vuelos, it.key.vuelo)
      case None => None
      case Some(p) => LineIndex(db.items, cart, Key(p, it.key.clase))
  }

  /** The checks before a line grows from `it.cantidad` to `n`: the flight is
      on sale, the class exists, and the extra seats are free. */
  function RaiseCheck(db: Db, it: Item, n: int): (r: Outcome)
    ensures r.Pass? <==> CheckVuelo(db.vuelos, it.key.vuelo).Pass? && it.key in db.salidas
                         && Disponible(db, it.key) >= n - it.cantidad
    ensures CheckVuelo(db.vuelos, it.key.vuelo).Fail? ==> r == CheckVuelo(db.vuelos, it.key.vuelo)
  {
    if CheckVuelo(db.vuelos, it.key.vuelo).Fail? then CheckVuelo(db.vuelos, it.key.vuelo)
    else if it.key !in db.salidas then Fail("Clase no disponible para esta salida")
    else if Disponible(db, it.key) < n - it.cantidad then
      Fail("Cupo insuficiente: puedes subir hasta " + IntToString(it.cantidad + Disponible(db, it.key)))
    else Pass
  }

  /** The same checks on the return line `pit`; its seats are checked only
      when it grows. */
  function PairRaiseCheck(db: Db, pit: Item, n: int): (r: Outcome)
    ensures r.Pass? <==> CheckVuelo(db.vuelos, pit.key.vuelo).Pass? && pit.key in db.salidas
                         && (n > pit.cantidad ==> Disponible(db, pit.key) >= n - pit.cantidad)
    ensures CheckVuelo(db.vuelos, pit.key.vuelo).Fail? ==> r == CheckVuelo(db.vuelos, pit.key.vuelo)
  {
    if CheckVuelo(db.vuelos, pit.key.vuelo).Fail? then CheckVuelo(db.vuelos, pit.key.vuelo)
    else if pit.key !in db.salidas then Fail("Clase no disponible en el regreso")
    else if n - pit.cantidad > 0 && Disponible(db, pit.key) < n - pit.cantidad then
      Fail("Cupo insuficiente en regreso: puedes subir hasta " + IntToString(pit.cantidad + Disponible(db, pit.key)))
    else Pass
  }

  /** `updateQuantity` as written: when the line does not grow, neither the
      line nor its return line is checked, even if the return line grows. */
  function UpdateCheckAsWritten(db: Db, cart: int, idItem: int, n: int, sync: bool): (r: Result<UpdatePlan>)
    ensures n <= 0 ==> r == Err("Cantidad debe ser > 0")
    ensures n > 0 && ItemIndex(db.items, cart, idItem).None? ==> r == Err("Item no encontrado.")
    ensures r.Ok? ==> ItemIndex(db.items, cart, idItem) == Some(r.value.linea)
    ensures r.Ok? ==> r.value.parejaLinea == PairLine(db, cart, db.items[r.value.linea], sync)
    ensures n > 0 && ItemIndex(db.items, cart, idItem).Some? ==>
      var i := ItemIndex(db.items, cart, idItem).value;
      var it := db.items[i];
      var pl := PairLine(db, cart, it, sync);
      && (n <= it.cantidad ==> r == Ok(UpdatePlan(i, pl)))
      && (n > it.cantidad ==> (r.Ok? <==> (RaiseCheck(db, it, n).Pass? &&
                                          (pl.Some? ==> PairRaiseCheck(db, db.items[pl.value], n).Pass?))))
      && (n > it.cantidad && RaiseCheck(db, it, n).Fail? ==> r == Err(RaiseCheck(db, it, n).error))
  {
    if n <= 0 then Err("Cantidad debe ser > 0")
    else match ItemIndex(db.items, cart, idItem)
      case None => Err("Item no encontrado.")
      case Some(i) =>
        var it := db.items[i];
        var pl := PairLine(db, cart, it, sync);
        if n <= it.cantidad then Ok(UpdatePlan(i, pl))
        else if RaiseCheck(db, it, n).Fail? then Err(RaiseCheck(db, it, n).error)
        else if pl.Some? && PairRaiseCheck(db, db.items[pl.value], n).Fail? then
          Err(PairRaiseCheck(db, db.items[pl.value], n).error)
        else Ok(UpdatePlan(i, pl))
  }

  /** `updateQuantity` with the return line checked whenever it grows, also
      when the chosen line shrinks. */
  function UpdateCheck(db: Db, cart: int, idItem: int, n: int, sync: bool): (r: Result<UpdatePlan>)
    ensures n <= 0 ==> r == Err("Cantidad debe ser > 0")
    ensures n > 0 && ItemIndex(db.items, cart, idItem).None? ==> r == Err("Item no encontrado.")
    ensures r.Ok? ==> ItemIndex(db.items, cart, idItem) == Some(r.value.linea)
    ensures r.Ok? ==> r.value.parejaLinea == PairLine(db, cart, db.items[r.value.linea], sync)
    ensures r.Ok? && n > db.items[r.value.linea].cantidad ==>
      RaiseCheck(db, db.items[r.value.linea], n).Pass?
    ensures r.Ok? && r.value.parejaLinea.Some? && n > db.items[r.value.parejaLinea.value].cantidad ==>
      PairRaiseCheck(db, db.items[r.value.parejaLinea.value], n).Pass?
    ensures n > 0 && ItemIndex(db.items, cart, idItem).Some? ==>
      var i := ItemIndex(db.items, cart, idItem).value;
      var it := db.items[i];
      var pl := PairLine(db, cart, it, sync);
      && (r.Ok? <==> ((n > it.cantidad ==> RaiseCheck(db, it, n).Pass?) &&
                      (pl.Some? && (n > it.cantidad || n > db.items[pl.value].cantidad) ==>
                         PairRaiseCheck(db, db.items[pl.value], n).Pass?)))
      && (n > it.cantidad && RaiseCheck(db, it, n).Fail? ==> r == Err(RaiseCheck(db, it, n).error))
  {
    if n <= 0 then Err("Cantidad debe ser > 0")
    else match ItemIndex(db.items, cart, idItem)
      case None => Err("Item no encontrado.")
      case Some(i) =>
        var it := db.items[i];
        var pl := PairLine(db, cart, it, sync);
        if n > it.cantidad && RaiseCheck(db, it, n).Fail? then Err(RaiseCheck(db, it, n).error)
        else if pl.Some? && (n > it.cantidad || n > db.items[pl.value].cantidad)
                && PairRaiseCheck(db, db.items[pl.value], n).Fail? then
          Err(PairRaiseCheck(db, db.items[pl.value], n).error)
        else Ok(UpdatePlan(i, pl))
  }

  /** The UPDATEs of `updateQuantity`: both planned lines get `n` seats. */
  function UpdatedLines(items: seq<Item>, plan: UpdatePlan, n: int): (r: seq<Item>)
    requires plan.linea < |items|
    requires plan.parejaLinea.Some? ==> plan.parejaLinea.value < |items|
    ensures |r| == |items| && r[plan.linea].cantidad == n
    ensures plan.parejaLinea.Some? ==> r[plan.parejaLinea.value].cantidad == n
    ensures forall j :: 0 <= j < |items| ==> r[j] == items[j].(cantidad := r[j].cantidad)
    ensures forall j :: 0 <= j < |items| && j != plan.linea && plan.parejaLinea != Some(j) ==> r[j] == items[j]
  {
    var t := items[plan.linea := items[plan.linea].(cantidad := n)];
    match plan.parejaLinea
    case None => t
    case Some(j) => t[j := t[j].(cantidad := n)]
  }

  /** Setting a line to `n` seats never takes a class past its seats when
      the class had room for the growth. */
  lemma SetLineKeepsRoom(db: Db, j: nat, n: int)
    requires NoOverbooking(db) && j < |db.items|
    requires n > db.items[j].cantidad ==> db.items[j].key in db.salidas && Disponible(db, db.items[j].key) >= n - db.items[j].cantidad
    ensures NoOverbooking(db.(items := db.items[j := db.items[j].(cantidad := n)]))
  {
    var db' := db.(items := db.items[j := db.items[j].(cantidad := n)]);
    forall k | k in db'.salidas ensures Disponible(db', k) >= 0 {
      EnCarritosUpdate(db.items, j, db.items[j].(cantidad := n), k);
    }
  }

  /** With the corrected checks, a quantity change never overbooks a class. */
  lemma UpdateKeepsNoOverbooking(db: Db, cart: int, idItem: int, n: int, sync: bool)
    requires NoOverbooking(db) && NoSelfPair(db.vuelos) && UpdateCheck(db, cart, idItem, n, sync).Ok?
    ensures var plan := UpdateCheck(db, cart, idItem, n, sync).value;
      NoOverbooking(db.(items := UpdatedLines(db.items, plan, n)))
  {
    var plan := UpdateCheck(db, cart, idItem, n, sync).value;
    var i := plan.linea;
    var db1 := db.(items := db.items[i := db.items[i].(cantidad := n)]);
    SetLineKeepsRoom(db, i, n);
    match plan.parejaLinea
    case None =>
    case Some(j) =>
      assert db.items[j].key != db.items[i].key;
      assert db1.items[j] == db.items[j];
      EnCarritosUpdate(db.items, i, db.items[i].(cantidad := n), db.items[j].key);
      SetLineKeepsRoom(db1, j, n);
      assert db1.(items := db1.items[j := db1.items[j].(cantidad := n)]) ==
             db.(items := UpdatedLines(db.items, plan, n));
  }

  /** The flights of the counterexample: 1 returns on 2. */
  function SamplePairedDb(): Db {
    Db(map[1 := Vuelo(None, "PROGRAMADO", Some(2)), 2 := Vuelo(None, "PROGRAMADO", None)],
       map[Key(1, 1) := Salida(5, Some(100)), Key(2, 1) := Salida(1, Some(100))],
       map[],
       [Item(10, 7, Key(1, 1), 5, 100), Item(11, 7, Key(2, 1), 1, 100)],
       map[], [])
  }

  lemma SampleCounts()
    ensures EnCarritos(SamplePairedDb().items, Key(1, 1)) == 5
    ensures EnCarritos(SamplePairedDb().items, Key(2, 1)) == 1
    ensures Reservados(map[], [], Key(1, 1)) == 0 && Reservados(map[], [], Key(2, 1)) == 0
  {
    var items := SamplePairedDb().items;
    assert items[..1] == [Item(10, 7, Key(1, 1), 5, 100)];
    assert items[..1][..0] == [];
  }

  lemma SampleLines()
    ensures ItemIndex(SamplePairedDb().items, 7, 10) == Some(0)
    ensures LineIndex(SamplePairedDb().items, 7, Key(2, 1)) == Some(1)
  {
    var items := SamplePairedDb().items;
    assert items[1..] == [Item(11, 7, Key(2, 1), 1, 100)];
  }

  lemma SampleAfterUpdate()
    ensures EnCarritos(UpdatedLines(SamplePairedDb().items, UpdatePlan(0, Some(1)), 3), Key(2, 1)) == 3
  {
    var t := UpdatedLines(SamplePairedDb().items, UpdatePlan(0, Some(1)), 3);
    assert t == [Item(10, 7, Key(1, 1), 3, 100), Item(11, 7, Key(2, 1), 3, 100)];
    assert t[..1] == [Item(10, 7, Key(1, 1), 3, 100)];
    assert t[..1][..0] == [];
  }

  /** As written, lowering the outbound line from 5 to 3 seats with the pair in
      step raises the return line from 1 to 3 seats on a class of 1 seat; the
      corrected checks refuse it. */
  lemma UpdateAsWrittenOverbooks()
    ensures NoOverbooking(SamplePairedDb())
    ensures UpdateCheckAsWritten(SamplePairedDb(), 7, 10, 3, true) == Ok(UpdatePlan(0, Some(1)))
    ensures !NoOverbooking(SamplePairedDb().(items := UpdatedLines(SamplePairedDb().items, UpdatePlan(0, Some(1)), 3)))
    ensures UpdateCheck(SamplePairedDb(), 7, 10, 3, true).Err?
  {
    var db := SamplePairedDb();
    SampleCounts();
    SampleLines();
    SampleAfterUpdate();
    assert Disponible(db, Key(1, 1)) == 0 && Disponible(db, Key(2, 1)) == 0;
    var db' := db.(items := UpdatedLines(db.items, UpdatePlan(0, Some(1)), 3));
    assert Disponible(db', Key(2, 1)) == -2;
  }

  // ------------------------------------------------------------ removeItem

  /** The lines other than line `id` of cart `cart`. */
  function OtherLine(cart: int, id: int): Item -> bool {
    (it: Item) => !(it.carrito == cart && it.id == id)
  }

  /** `DELETE … WHERE ID_ITEM = ? AND ID_CARRITO = ?`: every other line stays,
      in order. */
  function DropLines(items: seq<Item>, cart: int, id: int): (t: seq<Item>)
    ensures t == Filter(items, OtherLine(cart, id))
    ensures forall j :: 0 <= j < |t| ==> !(t[j].carrito == cart && t[j].id == id)
    ensures forall j :: 0 <= j < |t| ==> t[j] in items
  {
    if items == [] then []
    else
      var last := items[|items| - 1];
      FilterAppend(items[..|items| - 1], [last], OtherLine(cart, id));
      assert items[..|items| - 1] + [last] == items;
      DropLines(items[..|items| - 1], cart, id) + (if last.carrito == cart && last.id == id then [] else [last])
  }

  /** Deleting lines only lowers the seats in carts and keeps lines positive. */
  lemma {:induction false} DropLinesCount(items: seq<Item>, cart: int, id: int, k: Key)
    requires PositiveLines(items)
    ensures EnCarritos(DropLines(items, cart, id), k) <= EnCarritos(items, k)
    ensures PositiveLines(DropLines(items, cart, id))
  {
    if items != [] {
      var n := |items| - 1;
      var last := items[n];
      DropLinesCount(items[..n], cart, id, k);
      assert last.cantidad >= 1;
      if !(last.carrito == cart && last.id == id) {
        var t := DropLines(items[..n], cart, id);
        assert DropLines(items, cart, id) == t + [last];
        EnCarritosAppend(t, last, k);
      } else {
        assert DropLines(items, cart, id) == DropLines(items[..n], cart, id);
      }
    }
  }

  /** The lines `removeItem` deletes: the chosen one and, when the pair is
      kept in step, the cart's return line in the same class. */
  function RemoveCheck(db: Db, cart: int, idItem: int, sync: bool): (r: Result<UpdatePlan>)
    ensures ItemIndex(db.items, cart, idItem).None? <==> r == Err("Item no encontrado.")
    ensures r.Ok? ==> ItemIndex(db.items, cart, idItem) == Some(r.value.linea)
    ensures r.Ok? ==> r.value.parejaLinea == PairLine(db, cart, db.items[r.value.linea], sync)
  {
    match ItemIndex(db.items, cart, idItem)
    case None => Err("Item no encontrado.")
    case Some(i) => Ok(UpdatePlan(i, PairLine(db, cart, db.items[i], sync)))
  }

  /** The two DELETEs of `removeItem`. */
  function RemovedLines(items: seq<Item>, cart: int, plan: UpdatePlan): (r: seq<Item>)
    requires plan.linea < |items|
    requires plan.parejaLinea.Some? ==> plan.parejaLinea.value < |items|
    ensures forall j :: 0 <= j < |r| ==> r[j] in items
    ensures forall j :: 0 <= j < |r| ==> !(r[j].carrito == cart && r[j].id == items[plan.linea].id)
    ensures plan.parejaLinea.Some? ==>
      forall j :: 0 <= j < |r| ==> !(r[j].carrito == cart && r[j].id == items[plan.parejaLinea.value].id)
  {
    var t := DropLines(items, cart, items[plan.linea].id);
    match plan.parejaLinea
    case None => t
    case Some(j) => DropLines(t, cart, items[j].id)
  }

  /** Removing lines never overbooks a class. */
  lemma RemoveKeepsNoOverbooking(db: Db, cart: int, idItem: int, sync: bool)
    requires NoOverbooking(db) && PositiveLines(db.items) && RemoveCheck(db, cart, idItem, sync).Ok?
    ensures var plan := RemoveCheck(db, cart, idItem, sync).value;
      && NoOverbooking(db.(items := RemovedLines(db.items, cart, plan)))
      && PositiveLines(RemovedLines(db.items, cart, plan))
  {
    var plan := RemoveCheck(db, cart, idItem, sync).value;
    var t := DropLines(db.items, cart, db.items[plan.linea].id);
    var db' := db.(items := RemovedLines(db.items, cart, plan));
    forall k | k in db'.salidas ensures Disponible(db', k) >= 0 {
      DropLinesCount(db.items, cart, db.items[plan.linea].id, k);
      if plan.parejaLinea.Some? {
        DropLinesCount(t, cart, db.items[plan.parejaLinea.value].id, k);
      }
    }
    DropLinesCount(db.items, cart, db.items[plan.linea].id, Key(0, 0));
    if plan.parejaLinea.Some? {
      DropLinesCount(t, cart, db.items[plan.parejaLinea.value].id, Key(0, 0));
    }
  }

  // ------------------------------------------------------- cancelarReserva

  /** The seats of reservation `id` on `k`: the COUNT(*) of its GROUP BY row. */
  function Seats(ris: seq<ReservaItem>, id: int, k: Key): (n: nat)
    ensures n <= |ris|
  {
    if ris == [] then 0
    else Seats(ris[..|ris| - 1], id, k) + (if ris[|ris| - 1].reserva == id && ris[|ris| - 1].key == k then 1 else 0)
  }

  /** CUPO_TOTAL after the batch: every class gets back the seats the
      reservation had on it; classes without a SALIDA_CLASE row stay absent. */
  function Restored(salidas: map<Key, Salida>, ris: seq<ReservaItem>, id: int): (t: map<Key, Salida>)
    ensures t.Keys == salidas.Keys
    ensures forall k :: k in t ==> t[k] == salidas[k].(cupoTotal := salidas[k].cupoTotal + Seats(ris, id, k))
  {
    map k | k in salidas :: salidas[k].(cupoTotal := salidas[k].cupoTotal + Seats(ris, id, k))
  }

  /** RESERVA_ITEM after `SET ID_ESTADO_RESERVA = 2`. */
  function CancelledItems(ris: seq<ReservaItem>, id: int): (t: seq<ReservaItem>)
    ensures |t| == |ris|
    ensures forall j :: 0 <= j < |ris| ==> t[j] == (if ris[j].reserva == id then ris[j].(estado := 2) else ris[j])
  {
    seq(|ris|, j requires 0 <= j < |ris| => if ris[j].reserva == id then ris[j].(estado := 2) else ris[j])
  }

  /** Which seats a reservation holds depends only on the reservations' estado,
      not on the seats' own estado. */
  lemma {:induction false} ReservadosIgnoresItemEstado(reservas: map<int, Reserva>, ris: seq<ReservaItem>, id: int, k: Key)
    ensures Reservados(reservas, CancelledItems(ris, id), k) == Reservados(reservas, ris, k)
  {
    if ris != [] {
      var n := |ris| - 1;
      ReservadosIgnoresItemEstado(reservas, ris[..n], id, k);
      assert CancelledItems(ris, id)[..n] == CancelledItems(ris[..n], id);
    }
  }

  /** Cancelling a confirmed reservation stops its seats from being held. */
  lemma {:induction false} ReservadosAfterCancel(reservas: map<int, Reserva>, ris: seq<ReservaItem>, id: int, k: Key)
    requires id in reservas && reservas[id].estado == 1
    ensures Reservados(reservas[id := reservas[id].(estado := 2)], ris, k) == Reservados(reservas, ris, k) - Seats(ris, id, k)
  {
    if ris != [] {
      ReservadosAfterCancel(reservas, ris[..|ris| - 1], id, k);
    }
  }

  lemma SeatsStep(ris: seq<ReservaItem>, i: nat, id: int, k: Key)
    requires i < |ris|
    ensures Seats(ris[..i + 1], id, k) == Seats(ris[..i], id, k) + (if ris[i].reserva == id && ris[i].key == k then 1 else 0)
  {
    assert ris[..i + 1][..i] == ris[..i];
  }

  /** One more reservation seat raises its class by one, when the class exists. */
  lemma RestoredStep(salidas: map<Key, Salida>, ris: seq<ReservaItem>, i: nat, id: int)
    requires i < |ris|
    ensures var r := Restored(salidas, ris[..i], id);
      Restored(salidas, ris[..i + 1], id) ==
        if ris[i].reserva == id && ris[i].key in salidas
        then r[ris[i].key := r[ris[i].key].(cupoTotal := r[ris[i].key].cupoTotal + 1)]
        else r
  {
    var r := Restored(salidas, ris[..i], id);
    var r' := Restored(salidas, ris[..i + 1], id);
    var b := if ris[i].reserva == id && ris[i].key in salidas
             then r[ris[i].key := r[ris[i].key].(cupoTotal := r[ris[i].key].cupoTotal + 1)]
             else r;
    assert r'.Keys == b.Keys;
    forall k | k in r' ensures r'[k] == b[k] {
      SeatsStep(ris, i, id, k);
    }
  }

  /** The batch UPDATE of `cancelarReserva`, one reservation seat at a time:
      each seat of reservation `id` adds one to its class's CUPO_TOTAL. */
  method RestoreSeats(salidas: map<Key, Salida>, ris: seq<ReservaItem>, id: int) returns (t: map<Key, Salida>)
    ensures t == Restored(salidas, ris, id)
  {
    t := salidas;
    var i := 0;
    while i < |ris|
      invariant 0 <= i <= |ris|
      invariant t == Restored(salidas, ris[..i], id)
    {
      RestoredStep(salidas, ris, i, id);
      var ri := ris[i];
      if ri.reserva == id && ri.key in t {
        t := t[ri.key := t[ri.key].(cupoTotal := t[ri.key].cupoTotal + 1)];
      }
      i := i + 1;
    }
    assert ris[..i] == ris;
  }

  /** The state `cancelarReserva` leaves behind on success. */
  function AfterCancel(db: Db, id: int): (r: Db)
    requires id in db.reservas
    ensures r.vuelos == db.vuelos && r.tarifas == db.tarifas && r.items == db.items
    ensures r.salidas.Keys == db.salidas.Keys && r.reservas.Keys == db.reservas.Keys
    ensures r.reservas[id] == Reserva(db.reservas[id].owner, 2)
    ensures forall j :: j in db.reservas && j != id ==> r.reservas[j] == db.reservas[j]
    ensures |r.reservaItems| == |db.reservaItems|
    ensures forall j :: 0 <= j < |db.reservaItems| && db.reservaItems[j].reserva != id ==>
      r.reservaItems[j] == db.reservaItems[j]
  {
    db.(salidas := Restored(db.salidas, db.reservaItems, id),
        reservas := db.reservas[id := db.reservas[id].(estado := 2)],
        reservaItems := CancelledItems(db.reservaItems, id))
  }

  /** A cancellation frees each of the reservation's seats twice over: its
      class gets the seat back in CUPO_TOTAL, and the seat stops counting as
      held. So it never overbooks anything. */
  lemma CancelFreesSeats(db: Db, id: int)
    requires id in db.reservas && db.reservas[id].estado == 1
    ensures forall k :: k in db.salidas ==>
      Disponible(AfterCancel(db, id), k) == Disponible(db, k) + 2 * Seats(db.reservaItems, id, k)
    ensures NoOverbooking(db) ==> NoOverbooking(AfterCancel(db, id))
  {
    var db' := AfterCancel(db, id);
    forall k | k in db.salidas
      ensures Disponible(db', k) == Disponible(db, k) + 2 * Seats(db.reservaItems, id, k)
    {
      ReservadosIgnoresItemEstado(db'.reservas, db.reservaItems, id, k);
      ReservadosAfterCancel(db.reservas, db.reservaItems, id, k);
    }
  }

  // --------------------------------------------------------------- the DAO

  /** `ensureCartForUser`: the user's cart, or the key a new one gets. */
  function CartOf(carritos: map<int, int>, nextCarrito: int, userId: int): int {
    if userId in carritos then carritos[userId] else nextCarrito
  }

  /** The number of lines in a cart: the COUNT(*) of the checkout guard. */
  function LineCount(items: seq<Item>, cart: int): (n: nat)
    ensures n == 0 <==> forall j :: 0 <= j < |items| ==> items[j].carrito != cart
  {
    if items == [] then 0
    else LineCount(items[..|items| - 1], cart) + (if items[|items| - 1].carrito == cart then 1 else 0)
  }

  /** The cart and reservation tables behind `ComprasDAO`, with CARRITO's
      user-to-cart map and the identity values of CARRITO and CARRITO_ITEM. */
  class ComprasDAO {
    var db: Db
    var carritos: map<int, int>
    var nextCarrito: int
    var nextItem: int

    /** No class is overbooked, every cart line holds a seat, and no flight is
        its own return flight. */
    ghost predicate Valid()
      reads this
    {
      NoOverbooking(db) && PositiveLines(db.items) && NoSelfPair(db.vuelos)
    }

    constructor (tables: Db, firstItem: int)
      requires NoOverbooking(tables) && PositiveLines(tables.items) && NoSelfPair(tables.vuelos)
      ensures Valid() && db == tables && carritos == map[] && nextItem == firstItem
      ensures nextCarrito == 1
    {
      db := tables;
      carritos := map[];
      nextCarrito := 1;
      nextItem := firstItem;
    }

    /** `ensureCartForUser`: the user's cart, created on first use. */
    method EnsureCart(userId: int) returns (cart: int)
      modifies this
      ensures cart == CartOf(old(carritos), old(nextCarrito), userId)
      ensures carritos == old(carritos)[userId := cart] && userId in carritos
      ensures nextCarrito == old(nextCarrito) + (if userId in old(carritos) then 0 else 1)
      ensures db == old(db) && nextItem == old(nextItem)
    {
      if userId in carritos {
        cart := carritos[userId];
      } else {
        cart := nextCarrito;
        carritos := carritos[userId := cart];
        nextCarrito := nextCarrito + 1;
      }
    }

    /** `addOrIncrementItem`: after the checks, the outbound line and (when
        asked for and paired) the return line grow by the quantity, read as
        one seat when it is zero or less. A failed check leaves the lines as
        they were; the cart itself is created beforehand in any case. */
    method AddOrIncrementItem(userId: int, idVuelo: int, idClase: int, cantidad: int, incluirPareja: bool)
      returns (r: Outcome)
      requires Valid()
      modifies this
      ensures Valid()
      ensures carritos == old(carritos)[userId := CartOf(old(carritos), old(nextCarrito), userId)]
      ensures nextCarrito == old(nextCarrito) + (if userId in old(carritos) then 0 else 1)
      ensures var cart := CartOf(old(carritos), old(nextCarrito), userId);
        var plan := AddCheck(old(db), idVuelo, idClase, Cantidad(cantidad), incluirPareja);
        && (plan.Err? ==> r == Fail(plan.msg) && db == old(db) && nextItem == old(nextItem))
        && (plan.Ok? ==> r == Pass)
        && (plan.Ok? ==> db == old(db).(items := AddLines(old(db.items), cart, idClase, idVuelo, Cantidad(cantidad), plan.value, old(nextItem))))
        && (plan.Ok? ==> nextItem == NextAfterAdd(old(db.items), cart, idClase, idVuelo, Cantidad(cantidad), plan.value, old(nextItem)))
    {
      var n := Cantidad(cantidad);
      var cart := EnsureCart(userId);
      var plan := AddCheck(db, idVuelo, idClase, n, incluirPareja);
      if plan.Err? {
        return Fail(plan.msg);
      }
      AddKeepsNoOverbooking(db, cart, idVuelo, idClase, n, incluirPareja, nextItem);
      var t := Merge(db.items, cart, Key(idVuelo, idClase), n, plan.value.precio, nextItem);
      MergePositive(db.items, cart, Key(idVuelo, idClase), n, plan.value.precio, nextItem);
      if plan.value.regreso.Some? {
        var leg := plan.value.regreso.value;
        MergePositive(t, cart, Key(leg.vuelo, idClase), n, leg.precio,
                      NextAfterMerge(db.items, cart, Key(idVuelo, idClase), nextItem));
      }
      var next := NextAfterAdd(db.items, cart, idClase, idVuelo, n, plan.value, nextItem);
      db := db.(items := AddLines(db.items, cart, idClase, idVuelo, n, plan.value, nextItem));
      nextItem := next;
      r := Pass;
    }

    /** `updateQuantity`: a quantity of zero or less is refused before
        anything else; a line not in the user's cart is an error; otherwise the
        line and, kept in step, its return line get the new quantity once the
        checks for the seats they gain pass. */
    method UpdateQuantity(userId: int, idItem: int, cantidad: int, sync: bool) returns (r: Outcome)
      requires Valid()
      modifies this
      ensures Valid()
      ensures cantidad <= 0 ==>
        r == Fail("Cantidad debe ser > 0") && carritos == old(carritos) && nextCarrito == old(nextCarrito)
      ensures cantidad > 0 ==> carritos == old(carritos)[userId := CartOf(old(carritos), old(nextCarrito), userId)]
      ensures cantidad > 0 ==> nextCarrito == old(nextCarrito) + (if userId in old(carritos) then 0 else 1)
      ensures nextItem == old(nextItem)
      ensures var plan := UpdateCheck(old(db), CartOf(old(carritos), old(nextCarrito), userId), idItem, cantidad, sync);
        && (plan.Err? ==> r == Fail(plan.msg) && db == old(db))
        && (plan.Ok? ==> r == Pass && db == old(db).(items := UpdatedLines(old(db.items), plan.value, cantidad)))
    {
      if cantidad <= 0 {
        return Fail("Cantidad debe ser > 0");
      }
      var cart := EnsureCart(userId);
      var plan := UpdateCheck(db, cart, idItem, cantidad, sync);
      if plan.Err? {
        return Fail(plan.msg);
      }
      UpdateKeepsNoOverbooking(db, cart, idItem, cantidad, sync);
      db := db.(items := UpdatedLines(db.items, plan.value, cantidad));
      r := Pass;
    }

    /** `removeItem`: a line not in the user's cart is an error; otherwise the
        line and, kept in step, its return line are deleted. */
    method RemoveItem(userId: int, idItem: int, sync: bool) returns (r: Outcome)
      requires Valid()
      modifies this
      ensures Valid()
      ensures carritos == old(carritos)[userId := CartOf(old(carritos), old(nextCarrito), userId)]
      ensures nextCarrito == old(nextCarrito) + (if userId in old(carritos) then 0 else 1)
      ensures nextItem == old(nextItem)
      ensures var cart := CartOf(old(carritos), old(nextCarrito), userId);
        var plan := RemoveCheck(old(db), cart, idItem, sync);
        && (plan.Err? ==> r == Fail(plan.msg) && db == old(db))
        && (plan.Ok? ==> r == Pass && db == old(db).(items := RemovedLines(old(db.items), cart, plan.value)))
    {
      var cart := EnsureCart(userId);
      var plan := RemoveCheck(db, cart, idItem, sync);
      if plan.Err? {
        return Fail(plan.msg);
      }
      RemoveKeepsNoOverbooking(db, cart, idItem, sync);
      db := db.(items := RemovedLines(db.items, cart, plan.value));
      r := Pass;
    }

    /** The guard of `checkout`: an empty cart is refused. The stored
        procedure that turns the cart into a reservation is not modelled. */
    method Checkout(userId: int) returns (r: Outcome)
      modifies this
      ensures carritos == old(carritos)[userId := CartOf(old(carritos), old(nextCarrito), userId)]
      ensures nextCarrito == old(nextCarrito) + (if userId in old(carritos) then 0 else 1)
      ensures db == old(db) && nextItem == old(nextItem)
      ensures var cart := CartOf(old(carritos), old(nextCarrito), userId);
        r.Fail? <==> forall j :: 0 <= j < |db.items| ==> db.items[j].carrito != cart
      ensures r.Fail? ==> r == Fail("El carrito está vacío o ya fue procesado.")
    {
      var cart := EnsureCart(userId);
      if LineCount(db.items, cart) == 0 {
        return Fail("El carrito está vacío o ya fue procesado.");
      }
      r := Pass;
    }

    /** `cancelarReserva`: an unknown reservation and a caller who is neither
        its owner nor an admin are errors; a reservation not in estado 1 is
        answered with false and left alone; otherwise each of its seats goes
        back to its class's CUPO_TOTAL, and the reservation and its seats move
        to estado 2. */
    method CancelarReserva(solicitante: int, idReserva: int, isAdmin: bool) returns (r: Result<bool>)
      requires Valid()
      modifies this
      ensures Valid()
      ensures carritos == old(carritos) && nextCarrito == old(nextCarrito) && nextItem == old(nextItem)
      ensures idReserva !in old(db.reservas) ==> r == Err("Reserva no encontrada.") && db == old(db)
      ensures idReserva in old(db.reservas) ==>
        var res := old(db.reservas[idReserva]);
        && (!isAdmin && res.owner != solicitante ==> r == Err("No autorizado para cancelar esta reserva.") && db == old(db))
        && ((isAdmin || res.owner == solicitante) && res.estado != 1 ==> r == Ok(false) && db == old(db))
        && ((isAdmin || res.owner == solicitante) && res.estado == 1 ==> r == Ok(true) && db == AfterCancel(old(db), idReserva))
    {
      if idReserva !in db.reservas {
        return Err("Reserva no encontrada.");
      }
      var res := db.reservas[idReserva];
      if !isAdmin && res.owner != solicitante {
        return Err("No autorizado para cancelar esta reserva.");
      }
      if res.estado != 1 {
        return Ok(false);
      }
      var d := db;
      var salidas := RestoreSeats(d.salidas, d.reservaItems, idReserva);
      CancelFreesSeats(d, idReserva);
      db := d.(salidas := salidas,
               reservas := d.reservas[idReserva := res.(estado := 2)],
               reservaItems := CancelledItems(d.reservaItems, idReserva));
      r := Ok(true);
    }
  }
}

=== FILE: noticias.dfy ===
/** `NoticiaDAO`: the news items, kept in ORDEN order like the tips. On top of
    the renumbering, a blank image URL is stored as NULL, a missing publication
    date defaults to the database clock, and deleting a row whose ORDEN is
    NULL leaves the other rows where they are. */
module Noticias {
  import opened Wrappers
  import opened Text
  import opened OrdenTable

  /** The stored columns besides ID_NOTICIA and ORDEN. `fecha` is a timestamp. */
  datatype NoticiaData = NoticiaData(titulo: string, contenido: string, fecha: int, urlImagen: Option<string>)

  /** `NoticiaDTO.Upsert`: the requested columns; `fecha`, `orden` and `urlImagen` may be null. */
  datatype Upsert = Upsert(titulo: string, contenido: string, fecha: Option<int>,
                           orden: Option<int>, urlImagen: Option<string>)

  /** The value bound to URL_IMAGEN: NULL for a missing or blank URL. */
  function UrlColumn(u: Option<string>): (c: Option<string>)
    ensures c.None? <==> u.None? || JavaIsBlank(u.value)
    ensures c.Some? ==> c == u && !JavaIsBlank(c.value)
  {
    if u.None? || JavaIsBlank(u.value) then None else u
  }

  /** The row `crear` inserts; `now` is SYSDATE. */
  function NewData(dto: Upsert, now: int): (d: NoticiaData)
    ensures d.fecha == (if dto.fecha.Some? then dto.fecha.value else now)
    ensures d.urlImagen == UrlColumn(dto.urlImagen)
  {
    NoticiaData(dto.titulo, dto.contenido, dto.fecha.GetOr(now), UrlColumn(dto.urlImagen))
  }

  /** The columns `actualizar` writes over `prev`: the date is kept when none is given. */
  function UpdatedData(prev: NoticiaData, dto: Upsert): (d: NoticiaData)
    ensures d.fecha == (if dto.fecha.Some? then dto.fecha.value else prev.fecha)
    ensures d.urlImagen == UrlColumn(dto.urlImagen)
    ensures d.titulo == dto.titulo && d.contenido == dto.contenido
  {
    NoticiaData(dto.titulo, dto.contenido, dto.fecha.GetOr(prev.fecha), UrlColumn(dto.urlImagen))
  }

  /** What `eliminar` reads as the deleted row's ORDEN: nothing when there is
      no such row, and otherwise the column as stored, NULL included. */
  function DeletedOrden(s: seq<Row<NoticiaData>>, id: int): (o: Option<int>)
    ensures !HasId(s, id) ==> o.None?
    ensures HasId(s, id) ==> o == s[IndexOf(s, id)].orden
  {
    var k := IndexOf(s, id);
    if k == -1 then None else s[k].orden
  }

  /** The NOTICIAS table and its identity column. */
  class NoticiaDAO {
    var rows: array<Row<NoticiaData>>
    var nextId: int

    ghost predicate Valid()
      reads this, rows
    {
      Keys(rows[..], nextId)
    }

    constructor ()
      ensures Valid() && rows[..] == [] && fresh(rows)
    {
      rows := new Row<NoticiaData>[0];
      nextId := 1;
    }

    /** `crear`: the position is clamped to 1..max+1, the rows from there on
        move down one place, and the new row is inserted with its date
        defaulting to `now` and a blank URL stored as NULL. */
    method Crear(dto: Upsert, now: int) returns (id: int)
      requires Valid()
      modifies this, rows
      ensures Valid() && fresh(rows)
      ensures !HasId(old(rows[..]), id)
      ensures id == old(nextId) && nextId == old(nextId) + 1
      ensures rows[..] == AfterCreate(old(rows[..]), dto.orden, id, NewData(dto, now))
    {
      var maxOrden := NvlMax(rows[..]);
      var nuevo := InsertPosition(dto.orden, maxOrden);
      if nuevo <= maxOrden {
        ShiftOrden(rows, AtLeast(nuevo), 1);
      }
      id := nextId;
      rows := Appended(rows, Row(id, Some(nuevo), NewData(dto, now)));
      nextId := nextId + 1;
      CreateKeepsKeys(old(rows[..]), dto.orden, id, NewData(dto, now));
    }

    /** `actualizar`: a missing row fails with "Noticia no encontrada" and
        changes nothing; otherwise the row moves to the requested position
        clamped to 1..max (kept when none is requested), the rows in between
        shift, and its columns are rewritten. */
    method Actualizar(idNoticia: int, dto: Upsert) returns (r: Outcome)
      requires Valid()
      modifies rows
      ensures Valid()
      ensures !HasId(old(rows[..]), idNoticia) ==> r == Fail("Noticia no encontrada") && rows[..] == old(rows[..])
      ensures HasId(old(rows[..]), idNoticia) ==>
        var i := IndexOf(old(rows[..]), idNoticia);
        && r == Pass
        && rows[..] == AfterMove(old(rows[..]), i, dto.orden, UpdatedData(old(rows[i].data), dto))
    {
      var i := FindRow(rows, idNoticia);
      if i < 0 {
        return Fail("Noticia no encontrada");
      }
      var actual := rows[i].orden.GetOr(0);
      var data := UpdatedData(rows[i].data, dto);
      var maxOrden := NvlMax(rows[..]);
      var nuevo := TargetPosition(dto.orden, actual, maxOrden);
      if nuevo < actual {
        ShiftOrden(rows, FromUntil(nuevo, actual, idNoticia), 1);
      } else if nuevo > actual {
        ShiftOrden(rows, AfterUpTo(actual, nuevo, idNoticia), -1);
      }
      rows[i] := Row(idNoticia, Some(nuevo), data);
      r := Pass;
      MoveKeepsKeys(old(rows[..]), i, dto.orden, data, nextId);
    }

    /** `eliminar`: the row is deleted (a missing one is not an error) and,
        only when its ORDEN was not NULL, the rows after it move up one place. */
    method Eliminar(idNoticia: int)
      requires Valid()
      modifies this
      ensures Valid() && fresh(rows)
      ensures nextId == old(nextId)
      ensures rows[..] == AfterDelete(old(rows[..]), idNoticia, DeletedOrden(old(rows[..]), idNoticia))
    {
      var i := FindRow(rows, idNoticia);
      var orden: Option<int> := if i >= 0 then rows[i].orden else None;
      rows := Deleted(rows, idNoticia);
      if orden.Some? {
        ShiftOrden(rows, Above(orden.value), -1);
      }
      DeleteKeepsKeys(old(rows[..]), idNoticia, orden, nextId);
    }
  }

  /** Creating, editing and deleting news items keeps the positions exactly 1..n. */
  lemma NoticiaOperationsKeepDense(s: seq<Row<NoticiaData>>, dto: Upsert, id: int, now: int)
    requires Dense(s) && UniqueIds(s)
    ensures Dense(AfterCreate(s, dto.orden, id, NewData(dto, now)))
    ensures HasId(s, id) ==>
      Dense(AfterMove(s, IndexOf(s, id), dto.orden, UpdatedData(s[IndexOf(s, id)].data, dto)))
    ensures Dense(AfterDelete(s, id, DeletedOrden(s, id)))
  {
    CreateKeepsDense(s, dto.orden, id, NewData(dto, now));
    if HasId(s, id) {
      var i := IndexOf(s, id);
      MoveKeepsDense(s, i, dto.orden, UpdatedData(s[i].data, dto));
      assert InRange(s[i], |s|);
      DeleteKeepsDense(s, i);
    } else {
      assert AfterDelete(s, id, DeletedOrden(s, id)) == s;
    }
  }

  /** Deleting a row whose ORDEN is NULL removes it and renumbers nothing. */
  lemma DeleteNullOrdenShiftsNothing(s: seq<Row<NoticiaData>>, id: int)
    requires UniqueIds(s) && HasId(s, id) && s[IndexOf(s, id)].orden.None?
    ensures AfterDelete(s, id, DeletedOrden(s, id)) == Without(s, id)
    ensures |AfterDelete(s, id, DeletedOrden(s, id))| == |s| - 1
  {
    var i := IndexOf(s, id);
    WithoutUnique(s, i);
  }
}

=== FILE: notificaciones.dfy ===
/** The pieces of the flight-change and cancellation e-mails: the greeting
    name, the route cities and the dates, each with a fallback for missing
    data. */
module Notificaciones {
  import opened Wrappers
  import opened Text

  /** The dash shown for a missing route or date. */
  const NONE: string := "—"

  /** `safe`: a missing text reads as empty. */
  function Safe(s: Option<string>): (r: string)
    ensures s.None? ==> r == ""
    ensures s.Some? ==> r == s.value
  {
    s.GetOr("")
  }

  /** `ruta`: "city, country", or the one part that is not blank, or the
      dash when both are blank. */
  function Ruta(ciudad: Option<string>, pais: Option<string>): (r: string)
    ensures JavaIsBlank(Safe(ciudad)) && JavaIsBlank(Safe(pais)) ==> r == NONE
    ensures JavaIsBlank(Safe(ciudad)) && !JavaIsBlank(Safe(pais)) ==> r == Safe(pais)
    ensures !JavaIsBlank(Safe(ciudad)) && JavaIsBlank(Safe(pais)) ==> r == Safe(ciudad)
    ensures !JavaIsBlank(Safe(ciudad)) && !JavaIsBlank(Safe(pais)) ==> r == Safe(ciudad) + ", " + Safe(pais)
  {
    var c := Safe(ciudad);
    var p := Safe(pais);
    if JavaIsBlank(c) && JavaIsBlank(p) then NONE
    else if JavaIsBlank(c) then p
    else if JavaIsBlank(p) then c
    else c + ", " + p
  }

  /** A route line is never blank, and it ends with the country when there is one. */
  lemma RutaNotBlank(ciudad: Option<string>, pais: Option<string>)
    ensures !JavaIsBlank(Ruta(ciudad, pais))
    ensures !JavaIsBlank(Safe(pais)) ==> EndsWith(Ruta(ciudad, pais), Safe(pais))
  {
    var c := Safe(ciudad);
    var p := Safe(pais);
    if !JavaIsBlank(c) && !JavaIsBlank(p) {
      var r := Ruta(ciudad, pais);
      var k :| 0 <= k < |p| && !JavaWhitespace(p[k]);
      assert r[|c| + 2 + k] == p[k];
      assert r[|r| - |p|..] == p;
    } else if JavaIsBlank(c) && JavaIsBlank(p) {
      assert !JavaWhitespace(NONE[0]);
    }
  }

  /** `dt`: the dash for a missing date, the formatted date otherwise. The
      formatter, "d 'de' MMM yyyy, h:mm a" in Mexican Spanish, is a parameter. */
  function Dt<T>(fecha: Option<T>, format: T -> string): (r: string)
    ensures fecha.None? ==> r == NONE
  {
    if fecha.None? then NONE else format(fecha.value)
  }

  /** `buildNombre`: the trimmed "nombres apellidos", or "cliente" when that is blank. */
  function BuildNombre(nombres: Option<string>, apellidos: Option<string>): (r: string)
    ensures !JavaIsBlank(r)
    ensures var full := JavaTrim(Safe(nombres) + " " + Safe(apellidos));
      if JavaIsBlank(full) then r == "cliente" else r == full
  {
    var full := JavaTrim(Safe(nombres) + " " + Safe(apellidos));
    if JavaIsBlank(full) then
      assert !JavaWhitespace("cliente"[0]);
      "cliente"
    else full
  }

  /** Names without surrounding blanks are greeted as "nombres apellidos";
      with neither name the greeting falls back to "cliente". */
  lemma BuildNombreJoins(nombres: string, apellidos: string)
    requires nombres != [] && !JavaTrimmable(nombres[0]) && !JavaWhitespace(nombres[0])
    requires apellidos != [] && !JavaTrimmable(apellidos[|apellidos| - 1])
    ensures BuildNombre(Some(nombres), Some(apellidos)) == nombres + " " + apellidos
    ensures BuildNombre(None, None) == "cliente"
  {
    var full := nombres + " " + apellidos;
    assert full[0] == nombres[0] && full[|full| - 1] == apellidos[|apellidos| - 1];
    TrimNoOp(full, JavaTrimSpace);
    assert !JavaIsBlank(full) by { assert !JavaWhitespace(full[0]); }
    var empty := JavaTrim("" + " " + "");
    assert JavaIsBlank(empty);
  }
}

=== FILE: orden_table.dfy ===
/** The ORDEN column shared by the TIPS and NOTICIAS tables: the display
    position of each row, renumbered by bulk UPDATEs whenever a row is
    inserted, moved or deleted. A table is a sequence of rows; the DAO classes
    keep it in an array and shift it in place. */
module OrdenTable {
  import opened Wrappers
  import opened Seqs

  /** One row: its key, its ORDEN (None is SQL NULL) and the other columns. */
  datatype Row<D> = Row(id: int, orden: Option<int>, data: D)

  /** The WHERE clauses of the renumbering UPDATEs. A NULL ORDEN satisfies none. */
  datatype Where =
    | AtLeast(n: int)                        // ORDEN >= n
    | Above(n: int)                          // ORDEN > n
    | FromUntil(lo: int, hi: int, skip: int) // ORDEN >= lo AND ORDEN < hi AND ID <> skip
    | AfterUpTo(lo: int, hi: int, skip: int) // ORDEN > lo AND ORDEN <= hi AND ID <> skip

  predicate Selects<D>(w: Where, r: Row<D>) {
    r.orden.Some? &&
    match w
    case AtLeast(n) => r.orden.value >= n
    case Above(n) => r.orden.value > n
    case FromUntil(lo, hi, skip) => lo <= r.orden.value < hi && r.id != skip
    case AfterUpTo(lo, hi, skip) => lo < r.orden.value <= hi && r.id != skip
  }

  /** `SET ORDEN = ORDEN + delta` on one row. */
  function ShiftRow<D>(r: Row<D>, w: Where, delta: int): (r': Row<D>)
    ensures r'.id == r.id && r'.data == r.data && r'.orden.Some? == r.orden.Some?
    ensures Selects(w, r) ==> r'.orden.value == r.orden.value + delta
    ensures !Selects(w, r) ==> r' == r
  {
    if Selects(w, r) then r.(orden := Some(r.orden.value + delta)) else r
  }

  /** `UPDATE … SET ORDEN = ORDEN + delta WHERE w` on the whole table. */
  function Shifted<D>(s: seq<Row<D>>, w: Where, delta: int): (t: seq<Row<D>>)
    ensures |t| == |s|
    ensures forall k :: 0 <= k < |s| ==> t[k] == ShiftRow(s[k], w, delta)
  {
    seq(|s|, k requires 0 <= k < |s| => ShiftRow(s[k], w, delta))
  }

  /** The UPDATE as the DAOs run it: each row is matched against its own old
      value, so shifting row by row in place equals the set-at-a-time UPDATE. */
  method ShiftOrden<D>(a: array<Row<D>>, w: Where, delta: int)
    modifies a
    ensures a[..] == Shifted(old(a[..]), w, delta)
  {
    var i := 0;
    while i < a.Length
      invariant 0 <= i <= a.Length
      invariant forall k :: 0 <= k < i ==> a[k] == ShiftRow(old(a[k]), w, delta)
      invariant forall k :: i <= k < a.Length ==> a[k] == old(a[k])
    {
      a[i] := ShiftRow(a[i], w, delta);
      i := i + 1;
    }
  }

  // ------------------------------------------------------------ MAX(ORDEN)

  /** `MAX(ORDEN)`: None when every ORDEN is NULL (or there are no rows). */
  function MaxOrden<D>(s: seq<Row<D>>): (m: Option<int>)
    ensures m.None? <==> forall k :: 0 <= k < |s| ==> s[k].orden.None?
    ensures m.Some? ==> forall k :: 0 <= k < |s| && s[k].orden.Some? ==> s[k].orden.value <= m.value
    ensures m.Some? ==> exists k :: 0 <= k < |s| && s[k].orden == m
  {
    if s == [] then None
    else
      var m := MaxOrden(s[..|s| - 1]);
      var last := s[|s| - 1].orden;
      assert forall k :: 0 <= k < |s| - 1 ==> s[..|s| - 1][k] == s[k];
      if last.None? then m
      else if m.None? || last.value > m.value then last
      else m
  }

  /** `NVL(MAX(ORDEN), 0)`. */
  function NvlMax<D>(s: seq<Row<D>>): int {
    MaxOrden(s).GetOr(0)
  }

  /** The position `crear` gives a new row: the requested one when it lies in
      1..max+1; max+1 when none is requested, it is not positive or too large. */
  function InsertPosition(requested: Option<int>, maxOrden: int): (p: int)
    ensures requested.Some? && 1 <= requested.value <= maxOrden + 1 ==> p == requested.value
    ensures !(requested.Some? && 1 <= requested.value <= maxOrden + 1) ==> p == maxOrden + 1
    ensures maxOrden >= 0 ==> 1 <= p <= maxOrden + 1
  {
    if requested.None? || requested.value <= 0 then maxOrden + 1
    else if requested.value > maxOrden + 1 then maxOrden + 1
    else requested.value
  }

  /** The position `actualizar` moves a row to: the current one when none or a
      non-positive one is requested, at most max. */
  function TargetPosition(requested: Option<int>, current: int, maxOrden: int): (p: int)
    ensures requested.None? || requested.value <= 0 ==> p == current
    ensures requested.Some? && 1 <= requested.value <= maxOrden ==> p == requested.value
    ensures requested.Some? && requested.value > maxOrden && requested.value > 0 ==> p == maxOrden
  {
    if requested.None? || requested.value <= 0 then current
    else if requested.value > maxOrden then maxOrden
    else requested.value
  }

  // ---------------------------------------------------------------- rows

  predicate HasId<D>(s: seq<Row<D>>, id: int) {
    exists k :: 0 <= k < |s| && s[k].id == id
  }

  /** ID is the primary key. */
  predicate UniqueIds<D>(s: seq<Row<D>>) {
    forall i, j :: 0 <= i < j < |s| ==> s[i].id != s[j].id
  }

  /** The rows whose key is not `id`. */
  function OtherKey<D>(id: int): Row<D> -> bool {
    (r: Row<D>) => r.id != id
  }

  /** `DELETE … WHERE ID = id`: every row with another key stays, in order. */
  function Without<D>(s: seq<Row<D>>, id: int): (t: seq<Row<D>>)
    ensures t == Filter(s, OtherKey<D>(id))
    ensures forall k :: 0 <= k < |t| ==> t[k].id != id && t[k] in s
    ensures !HasId(s, id) ==> t == s
  {
    if s == [] then []
    else
      var rest := Without(s[1..], id);
      if s[0].id == id then rest else [s[0]] + rest
  }

  /** With unique keys, deleting a present key removes exactly its row. */
  lemma {:induction false} WithoutUnique<D>(s: seq<Row<D>>, i: nat)
    requires UniqueIds(s) && i < |s|
    ensures Without(s, s[i].id) == s[..i] + s[i + 1..]
  {
    if i == 0 {
      assert !HasId(s[1..], s[0].id) by {
        forall k | 0 <= k < |s[1..]| ensures s[1..][k].id != s[0].id {
          assert s[1..][k] == s[k + 1];
        }
      }
    } else {
      assert UniqueIds(s[1..]) by {
        forall a, b | 0 <= a < b < |s[1..]| ensures s[1..][a].id != s[1..][b].id {
          assert s[1..][a] == s[a + 1] && s[1..][b] == s[b + 1];
        }
      }
      assert s[1..][i - 1] == s[i];
      WithoutUnique(s[1..], i - 1);
      assert s[0].id != s[i].id;
      assert [s[0]] + (s[1..][..i - 1] + s[1..][i..]) == s[..i] + s[i + 1..];
    }
  }

  /** The index of the row with key `id`, or -1 when there is none. */
  function IndexOf<D>(s: seq<Row<D>>, id: int): (k: int)
    ensures k == -1 <==> !HasId(s, id)
    ensures k != -1 ==> 0 <= k < |s| && s[k].id == id
  {
    if s == [] then -1
    else if s[|s| - 1].id == id then |s| - 1
    else IndexOf(s[..|s| - 1], id)
  }

  /** `SELECT … WHERE ID = id`: a scan for the row. */
  method FindRow<D>(a: array<Row<D>>, id: int) returns (k: int)
    ensures k == IndexOf(a[..], id)
  {
    k := a.Length - 1;
    assert a[..k + 1] == a[..];
    while k >= 0 && a[k].id != id
      invariant -1 <= k < a.Length
      invariant IndexOf(a[..], id) == IndexOf(a[..k + 1], id)
    {
      assert a[..k + 1][..k] == a[..k];
      k := k - 1;
    }
    if k >= 0 {
      assert a[..k + 1][k] == a[k];
    }
  }

  /** `INSERT`: a table one row longer. */
  method Appended<D>(a: array<Row<D>>, r: Row<D>) returns (b: array<Row<D>>)
    ensures fresh(b) && b[..] == a[..] + [r]
  {
    b := new Row<D>[a.Length + 1](_ => r);
    var i := 0;
    while i < a.Length
      invariant 0 <= i <= a.Length
      invariant forall k :: 0 <= k < i ==> b[k] == a[k]
      invariant b[a.Length] == r
    {
      b[i] := a[i];
      i := i + 1;
    }
  }

  /** `DELETE … WHERE ID = id`: a table without that row. */
  method Deleted<D>(a: array<Row<D>>, id: int) returns (b: array<Row<D>>)
    ensures fresh(b) && b[..] == Without(a[..], id)
  {
    var t := Without(a[..], id);
    b := new Row<D>[|t|](k requires 0 <= k < |t| => t[k]);
  }

  // ------------------------------------------------------- the operations

  /** `crear`: the rows from the new position on move down one place (only
      when the new row goes inside the range), then the row is inserted. */
  function AfterCreate<D>(s: seq<Row<D>>, requested: Option<int>, id: int, data: D): seq<Row<D>> {
    var p := InsertPosition(requested, NvlMax(s));
    (if p <= NvlMax(s) then Shifted(s, AtLeast(p), 1) else s) + [Row(id, Some(p), data)]
  }

  /** `actualizar` on the row at index `i`: the rows between the old and the new
      position make room, the row itself excluded, then the row gets its new
      position and columns. `current` is the ORDEN as the DAO read it. */
  function AfterMove<D>(s: seq<Row<D>>, i: nat, requested: Option<int>, data: D): seq<Row<D>>
    requires i < |s|
  {
    var current := s[i].orden.GetOr(0);
    var p := TargetPosition(requested, current, NvlMax(s));
    var t := if p < current then Shifted(s, FromUntil(p, current, s[i].id), 1)
             else if p > current then Shifted(s, AfterUpTo(current, p, s[i].id), -1)
             else s;
    t[i := Row(s[i].id, Some(p), data)]
  }

  /** `eliminar`: the row is deleted and, when its ORDEN was read as a number,
      every row after it moves up one place. */
  function AfterDelete<D>(s: seq<Row<D>>, id: int, orden: Option<int>): seq<Row<D>> {
    var t := Without(s, id);
    if orden.Some? then Shifted(t, Above(orden.value), -1) else t
  }

  // ---------------------------------------------------------------- keys

  /** The keys are unique and all below the next value of the identity column. */
  predicate Keys<D>(s: seq<Row<D>>, bound: int) {
    UniqueIds(s) && forall k :: 0 <= k < |s| ==> s[k].id < bound
  }

  lemma ShiftedKeepsKeys<D>(s: seq<Row<D>>, w: Where, delta: int, bound: int)
    requires Keys(s, bound)
    ensures Keys(Shifted(s, w, delta), bound)
  {
    var t := Shifted(s, w, delta);
    assert forall k :: 0 <= k < |s| ==> t[k].id == s[k].id;
  }

  /** A new row keyed with the next identity value keeps the keys unique. */
  lemma CreateKeepsKeys<D>(s: seq<Row<D>>, requested: Option<int>, id: int, data: D)
    requires Keys(s, id)
    ensures Keys(AfterCreate(s, requested, id, data), id + 1)
  {
    var p := InsertPosition(requested, NvlMax(s));
    ShiftedKeepsKeys(s, AtLeast(p), 1, id);
  }

  lemma MoveKeepsKeys<D>(s: seq<Row<D>>, i: nat, requested: Option<int>, data: D, bound: int)
    requires Keys(s, bound) && i < |s|
    ensures Keys(AfterMove(s, i, requested, data), bound)
  {
    var current := s[i].orden.GetOr(0);
    var p := TargetPosition(requested, current, NvlMax(s));
    ShiftedKeepsKeys(s, FromUntil(p, current, s[i].id), 1, bound);
    ShiftedKeepsKeys(s, AfterUpTo(current, p, s[i].id), -1, bound);
    var u := AfterMove(s, i, requested, data);
    assert forall k :: 0 <= k < |s| ==> u[k].id == s[k].id;
  }

  lemma DeleteKeepsKeys<D>(s: seq<Row<D>>, id: int, orden: Option<int>, bound: int)
    requires Keys(s, bound)
    ensures Keys(AfterDelete(s, id, orden), bound)
  {
    WithoutKeepsKeys(s, id, bound);
    if orden.Some? {
      ShiftedKeepsKeys(Without(s, id), Above(orden.value), -1, bound);
    }
  }

  lemma {:induction false} WithoutKeepsKeys<D>(s: seq<Row<D>>, id: int, bound: int)
    requires Keys(s, bound)
    ensures Keys(Without(s, id), bound)
  {
    if s != [] {
      var tail := s[1..];
      assert Keys(tail, bound) by {
        forall a, b | 0 <= a < b < |tail| ensures tail[a].id != tail[b].id {
          assert tail[a] == s[a + 1] && tail[b] == s[b + 1];
        }
      }
      WithoutKeepsKeys(tail, id, bound);
      var rest := Without(tail, id);
      if s[0].id != id {
        forall k | 0 <= k < |rest| ensures rest[k].id != s[0].id {
          var j :| 0 <= j < |tail| && tail[j] == rest[k];
          assert tail[j] == s[j + 1];
        }
        ConsKeys(s[0], rest, bound);
      }
    }
  }

  lemma ConsKeys<D>(r: Row<D>, t: seq<Row<D>>, bound: int)
    requires Keys(t, bound) && r.id < bound
    requires forall k :: 0 <= k < |t| ==> t[k].id != r.id
    ensures Keys([r] + t, bound)
  {
    var u := [r] + t;
    forall a, b | 0 <= a < b < |u| ensures u[a].id != u[b].id {
      if a > 0 {
        assert u[a] == t[a - 1] && u[b] == t[b - 1];
      }
    }
  }

  // -------------------------------------------------------- dense orders

  /** The positions are exactly 1..n: every ORDEN is a number in 1..n and no two
      rows share one (n distinct values in 1..n are all of them). */
  predicate Dense<D>(s: seq<Row<D>>) {
    (forall k :: 0 <= k < |s| ==> InRange(s[k], |s|))
    && (forall i, j :: 0 <= i < j < |s| ==> s[i].orden != s[j].orden)
  }

  predicate InRange<D>(r: Row<D>, n: int) {
    r.orden.Some? && 1 <= r.orden.value <= n
  }

  lemma DenseMax<D>(s: seq<Row<D>>)
    requires Dense(s)
    ensures 0 <= NvlMax(s) <= |s|
    ensures forall k :: 0 <= k < |s| ==> s[k].orden.value <= NvlMax(s)
  {
    if s != [] {
      assert InRange(s[0], |s|);
    }
  }

  /** `crear` keeps the positions dense, and the new row lands in 1..n+1. */
  lemma CreateKeepsDense<D>(s: seq<Row<D>>, requested: Option<int>, id: int, data: D)
    requires Dense(s)
    ensures Dense(AfterCreate(s, requested, id, data))
    ensures var p := InsertPosition(requested, NvlMax(s)); 1 <= p <= |s| + 1
  {
    DenseMax(s);
    var m := NvlMax(s);
    var p := InsertPosition(requested, m);
    if p <= m {
      InsertInsideKeepsDense(s, p, Row(id, Some(p), data));
    } else {
      AppendAfterMaxKeepsDense(s, Row(id, Some(p), data));
    }
  }

  lemma InsertInsideKeepsDense<D>(s: seq<Row<D>>, p: int, r: Row<D>)
    requires Dense(s) && 1 <= p <= |s| && r.orden == Some(p)
    ensures Dense(Shifted(s, AtLeast(p), 1) + [r])
  {
    var u := Shifted(s, AtLeast(p), 1) + [r];
    forall k | 0 <= k < |s| ensures InRange(u[k], |u|) && u[k].orden != r.orden {
      assert InRange(s[k], |s|);
    }
    forall a, b | 0 <= a < b < |s| ensures u[a].orden != u[b].orden {
      assert s[a].orden != s[b].orden;
    }
  }

  lemma AppendAfterMaxKeepsDense<D>(s: seq<Row<D>>, r: Row<D>)
    requires Dense(s) && r.orden == Some(NvlMax(s) + 1)
    ensures Dense(s + [r])
  {
    DenseMax(s);
    var u := s + [r];
    forall k | 0 <= k < |s| ensures InRange(u[k], |u|) && u[k].orden != r.orden {
      assert InRange(s[k], |s|);
    }
    forall a, b | 0 <= a < b < |s| ensures u[a].orden != u[b].orden {
      assert s[a].orden != s[b].orden;
    }
  }

  /** `actualizar` keeps the positions dense. */
  lemma MoveKeepsDense<D>(s: seq<Row<D>>, i: nat, requested: Option<int>, data: D)
    requires Dense(s) && UniqueIds(s) && i < |s|
    ensures Dense(AfterMove(s, i, requested, data))
  {
    DenseMax(s);
    var current := s[i].orden.GetOr(0);
    assert InRange(s[i], |s|);
    var p := TargetPosition(requested, current, NvlMax(s));
    assert 1 <= p <= |s|;
    var u := AfterMove(s, i, requested, data);
    if p < current {
      MoveUpKeepsDense(s, i, p, data);
    } else if p > current {
      MoveDownKeepsDense(s, i, p, data);
    } else {
      forall a, b | 0 <= a < b < |u| ensures u[a].orden != u[b].orden {
        assert s[a].orden != s[b].orden;
      }
    }
  }

  lemma MoveUpKeepsDense<D>(s: seq<Row<D>>, i: nat, p: int, data: D)
    requires Dense(s) && UniqueIds(s) && i < |s|
    requires 1 <= p < s[i].orden.value
    ensures Dense(Shifted(s, FromUntil(p, s[i].orden.value, s[i].id), 1)[i := Row(s[i].id, Some(p), data)])
  {
    var c := s[i].orden.value;
    var u := Shifted(s, FromUntil(p, c, s[i].id), 1)[i := Row(s[i].id, Some(p), data)];
    forall k | 0 <= k < |u| ensures InRange(u[k], |u|) {
      assert InRange(s[k], |s|);
    }
    forall a, b | 0 <= a < b < |u| ensures u[a].orden != u[b].orden {
      assert s[a].orden != s[b].orden;
      assert a != i ==> s[a].id != s[i].id && s[a].orden.value != c;
      assert b != i ==> s[b].id != s[i].id && s[b].orden.value != c;
    }
  }

  lemma MoveDownKeepsDense<D>(s: seq<Row<D>>, i: nat, p: int, data: D)
    requires Dense(s) && UniqueIds(s) && i < |s|
    requires s[i].orden.value < p <= |s|
    ensures Dense(Shifted(s, AfterUpTo(s[i].orden.value, p, s[i].id), -1)[i := Row(s[i].id, Some(p), data)])
  {
    var c := s[i].orden.value;
    var u := Shifted(s, AfterUpTo(c, p, s[i].id), -1)[i := Row(s[i].id, Some(p), data)];
    forall k | 0 <= k < |u| ensures InRange(u[k], |u|) {
      assert InRange(s[k], |s|);
    }
    forall a, b | 0 <= a < b < |u| ensures u[a].orden != u[b].orden {
      assert s[a].orden != s[b].orden;
      assert a != i ==> s[a].id != s[i].id && s[a].orden.value != c;
      assert b != i ==> s[b].id != s[i].id && s[b].orden.value != c;
    }
  }

  /** `eliminar` of a present row keeps the positions dense. */
  lemma DeleteKeepsDense<D>(s: seq<Row<D>>, i: nat)
    requires Dense(s) && UniqueIds(s) && i < |s|
    ensures Dense(AfterDelete(s, s[i].id, s[i].orden))
  {
    WithoutUnique(s, i);
    assert InRange(s[i], |s|);
    var t := s[..i] + s[i + 1..];
    forall k | 0 <= k < |t| ensures t[k] == s[if k < i then k else k + 1] {
    }
    CloseGapKeepsDense(s, i, t);
  }

  lemma CloseGapKeepsDense<D>(s: seq<Row<D>>, i: nat, t: seq<Row<D>>)
    requires Dense(s) && i < |s| && |t| == |s| - 1
    requires forall k :: 0 <= k < |t| ==> t[k] == s[if k < i then k else k + 1]
    ensures Dense(Shifted(t, Above(s[i].orden.value), -1))
  {
    var u := Shifted(t, Above(s[i].orden.value), -1);
    assert InRange(s[i], |s|);
    forall k | 0 <= k < |u| ensures InRange(u[k], |u|) {
      var j := if k < i then k else k + 1;
      assert InRange(s[j], |s|);
      assert j < i ==> s[j].orden != s[i].orden;
      assert j > i ==> s[i].orden != s[j].orden;
    }
    forall a, b | 0 <= a < b < |u| ensures u[a].orden != u[b].orden {
      var ja := if a < i then a else a + 1;
      var jb := if b < i then b else b + 1;
      assert s[ja].orden != s[jb].orden;
    }
  }
}

=== FILE: paginas_admin.dfy ===
/** The admin editor of the information pages: a page's sections ("puntos")
    and each section's media are edited in memory, reordered with up/down
    buttons, and saved with their positions as `orden`. */
module PaginasAdmin {
  import opened Wrappers
  import opened Text

  datatype Media = Media(idMedia: Option<int>, tipoMedia: string, url: string, orden: int)

  /** A section being edited; `idSeccion` is none for a section not saved yet. */
  datatype Punto = Punto(idSeccion: Option<int>, nombreSeccion: string, descripcion: string,
                         orden: int, media: seq<Media>)

  /** A JavaScript id is truthy: present and not 0. */
  predicate Truthy(id: Option<int>) { id.Some? && id.value != 0 }

  // ------------------------------------------------------------ moving

  function Remove<T>(s: seq<T>, i: int): (r: seq<T>)
    requires 0 <= i < |s|
    ensures |r| == |s| - 1
    ensures forall k :: 0 <= k < |r| ==> r[k] == if k < i then s[k] else s[k + 1]
  {
    s[..i] + s[i + 1..]
  }

  function Insert<T>(s: seq<T>, i: int, x: T): (r: seq<T>)
    requires 0 <= i <= |s|
    ensures |r| == |s| + 1 && r[i] == x
    ensures forall k :: 0 <= k < |r| && k != i ==> r[k] == if k < i then s[k] else s[k - 1]
  {
    s[..i] + [x] + s[i..]
  }

  /** `copy.splice(from, 1)` then `copy.splice(to, 0, item)` on a copy,
      unless `to` is outside the list. */
  function Move<T>(s: seq<T>, from: int, to: int): (r: seq<T>)
    requires 0 <= to < |s| ==> 0 <= from < |s|
    ensures |r| == |s|
    ensures 0 <= to < |s| ==> r[to] == s[from]
  {
    if to < 0 || to >= |s| then s else Insert(Remove(s, from), to, s[from])
  }

  /** A target outside the list leaves it as it was. */
  lemma MoveOutOfRange<T>(s: seq<T>, from: int, to: int)
    requires to < 0 || to >= |s|
    ensures Move(s, from, to) == s
  {
  }

  /** Otherwise the moved item lands at `to`, the others keep their order,
      and the result is a permutation of the list. */
  lemma MovePermutes<T>(s: seq<T>, from: int, to: int)
    requires 0 <= from < |s| && 0 <= to < |s|
    ensures var r := Move(s, from, to);
      |r| == |s| && r[to] == s[from] && Remove(r, to) == Remove(s, from) && multiset(r) == multiset(s)
  {
    var rest := Remove(s, from);
    RemoveInserted(rest, to, s[from]);
    InsertMultiset(rest, to, s[from]);
    RemoveMultiset(s, from);
  }

  /** Removing what was just inserted gives the list back. */
  lemma RemoveInserted<T>(s: seq<T>, i: int, x: T)
    requires 0 <= i <= |s|
    ensures Remove(Insert(s, i, x), i) == s
  {
    var r := Remove(Insert(s, i, x), i);
    assert forall k :: 0 <= k < |s| ==> r[k] == s[k];
  }

  /** Inserting adds the item to the multiset. */
  lemma InsertMultiset<T>(s: seq<T>, i: int, x: T)
    requires 0 <= i <= |s|
    ensures multiset(Insert(s, i, x)) == multiset(s) + multiset{x}
  {
    assert s == s[..i] + s[i..];
  }

  /** Removing takes the item out of the multiset. */
  lemma RemoveMultiset<T>(s: seq<T>, i: int)
    requires 0 <= i < |s|
    ensures multiset(Remove(s, i)) + multiset{s[i]} == multiset(s)
  {
    assert s == s[..i] + [s[i]] + s[i + 1..];
  }

  /** Moving back undoes a move. */
  lemma MoveBack<T>(s: seq<T>, from: int, to: int)
    requires 0 <= from < |s| && 0 <= to < |s|
    ensures Move(Move(s, from, to), to, from) == s
  {
    var r := Move(s, from, to);
    MovePermutes(s, from, to);
    assert Move(r, to, from) == Insert(Remove(r, to), from, r[to]);
    InsertRemoved(s, from);
  }

  /** Putting a removed item back where it was gives the list back. */
  lemma InsertRemoved<T>(s: seq<T>, i: int)
    requires 0 <= i < |s|
    ensures Insert(Remove(s, i), i, s[i]) == s
  {
    var r := Insert(Remove(s, i), i, s[i]);
    assert forall k :: 0 <= k < |s| ==> r[k] == s[k];
  }

  /** The up and down buttons move an item by one place: a swap of neighbours. */
  lemma MoveNeighbour<T>(s: seq<T>, i: int)
    requires 0 <= i && i + 1 < |s|
    ensures Move(s, i, i + 1) == s[..i] + [s[i + 1], s[i]] + s[i + 2..]
    ensures Move(s, i + 1, i) == s[..i] + [s[i + 1], s[i]] + s[i + 2..]
  {
    assert Remove(s, i) == s[..i] + s[i + 1..];
    assert Remove(s, i + 1) == s[..i + 1] + s[i + 2..];
  }

  /** `moveMedia`: only the chosen section's media are moved. */
  function MoveMedia(ps: seq<Punto>, idx: int, from: int, to: int): (r: seq<Punto>)
    requires 0 <= idx < |ps| && 0 <= to < |ps[idx].media| ==> 0 <= from < |ps[idx].media|
    ensures |r| == |ps|
    ensures forall i :: 0 <= i < |ps| && i != idx ==> r[i] == ps[i]
    ensures 0 <= idx < |ps| ==> r[idx] == ps[idx].(media := r[idx].media)
    ensures 0 <= idx < |ps| && 0 <= to < |ps[idx].media| ==>
      r[idx].media == Move(ps[idx].media, from, to)
    ensures 0 <= idx < |ps| && !(0 <= to < |ps[idx].media|) ==> r[idx] == ps[idx]
  {
    seq(|ps|, i requires 0 <= i < |ps| =>
      if i != idx || to < 0 || to >= |ps[i].media| then ps[i]
      else ps[i].(media := Move(ps[i].media, from, to)))
  }

  // ------------------------------------------------------------ saving

  /** The two guards of `onSubmit`. */
  function SubmitCheck(idPagina: string, titulo: string): (r: Outcome)
    ensures r.Pass? <==> idPagina != [] && JsTrim(titulo) != []
  {
    if idPagina == [] then Fail("Selecciona una página primero.")
    else if JsTrim(titulo) == [] then Fail("El título es obligatorio.")
    else Pass
  }

  /** A section is saved only with a name that is not all white space. */
  predicate Named(p: Punto) {
    exists i :: 0 <= i < |p.nombreSeccion| && !JsWhitespace(p.nombreSeccion[i])
  }

  /** That is, a name whose trimmed form is not empty. */
  lemma NamedIff(p: Punto)
    ensures Named(p) <==> JsTrim(p.nombreSeccion) != []
  {
    TrimEmptyIff(p.nombreSeccion, JsSpace);
  }

  /** The section each entry is saved as: skipped without a name; otherwise
      its own id, or the id the server gives the new section (`creado`);
      skipped when that is missing. */
  function Saved(p: Punto, creado: Option<int>): Option<Punto> {
    if !Named(p) then None
    else if Truthy(p.idSeccion) then Some(p)
    else if Truthy(creado) then Some(p.(idSeccion := creado))
    else None
  }

  /** `seccionesConId`, entry by entry. */
  function ConId(ps: seq<Punto>, creados: seq<Option<int>>): seq<Punto>
    requires |creados| == |ps|
  {
    if ps == [] then []
    else
      var n := |ps| - 1;
      var rest := ConId(ps[..n], creados[..n]);
      match Saved(ps[n], creados[n])
      case None => rest
      case Some(q) => rest + [q]
  }

  /** Saved sections are named and have an id, and are no more than the entries. */
  lemma {:induction false} ConIdSaved(ps: seq<Punto>, creados: seq<Option<int>>)
    requires |creados| == |ps|
    ensures |ConId(ps, creados)| <= |ps|
    ensures forall k :: 0 <= k < |ConId(ps, creados)| ==>
      Named(ConId(ps, creados)[k]) && Truthy(ConId(ps, creados)[k].idSeccion)
  {
    if ps != [] {
      var n := |ps| - 1;
      ConIdSaved(ps[..n], creados[..n]);
    }
  }

  /** A named section that already had an id is always saved, whatever the
      server answers for the new ones. */
  lemma {:induction false} ConIdKeepsSaved(ps: seq<Punto>, creados: seq<Option<int>>, i: int)
    requires |creados| == |ps| && 0 <= i < |ps|
    requires Named(ps[i]) && Truthy(ps[i].idSeccion)
    ensures ps[i] in ConId(ps, creados)
  {
    var n := |ps| - 1;
    var rest := ConId(ps[..n], creados[..n]);
    if i < n {
      assert ps[..n][i] == ps[i];
      ConIdKeepsSaved(ps[..n], creados[..n], i);
      match Saved(ps[n], creados[n])
      case None =>
      case Some(q) =>
        assert ConId(ps, creados) == rest + [q];
        assert ps[i] in rest + [q];
    } else {
      assert ConId(ps, creados) == rest + [ps[n]];
    }
  }

  /** One more entry adds its saved section, if any. */
  lemma ConIdStep(ps: seq<Punto>, creados: seq<Option<int>>, i: int)
    requires |creados| == |ps| && 0 <= i < |ps|
    ensures ConId(ps[..i + 1], creados[..i + 1]) ==
      match Saved(ps[i], creados[i])
      case None => ConId(ps[..i], creados[..i])
      case Some(q) => ConId(ps[..i], creados[..i]) + [q]
  {
    assert ps[..i + 1][..i] == ps[..i] && creados[..i + 1][..i] == creados[..i];
  }

  /** The loop of `onSubmit` that saves the sections and collects them. */
  method SeccionesConId(ps: seq<Punto>, creados: seq<Option<int>>) returns (out: seq<Punto>)
    requires |creados| == |ps|
    ensures out == ConId(ps, creados)
  {
    out := [];
    var i := 0;
    while i < |ps|
      invariant 0 <= i <= |ps|
      invariant out == ConId(ps[..i], creados[..i])
    {
      ConIdStep(ps, creados, i);
      var p := ps[i];
      NamedIff(p);
      if JsTrim(p.nombreSeccion) != [] {
        var idReal := if Truthy(p.idSeccion) then p.idSeccion else creados[i];
        if Truthy(idReal) {
          assert Saved(p, creados[i]) == Some(p.(idSeccion := idReal));
          out := out + [p.(idSeccion := idReal)];
        }
      }
      i := i + 1;
    }
    assert ps[..i] == ps && creados[..i] == creados;
  }

  /** The reorder request: each saved section with its position, from 1. */
  function ReorderPayload(ps: seq<Punto>): (r: seq<(int, int)>)
    requires forall k :: 0 <= k < |ps| ==> Truthy(ps[k].idSeccion)
  {
    seq(|ps|, i requires 0 <= i < |ps| && Truthy(ps[i].idSeccion) => (ps[i].idSeccion.value, i + 1))
  }

  /** The positions sent are 1, 2, ..., n in the sections' order, and the
      ids are the sections' ids. */
  lemma ReorderNumbers(ps: seq<Punto>)
    requires forall k :: 0 <= k < |ps| ==> Truthy(ps[k].idSeccion)
    ensures |ReorderPayload(ps)| == |ps|
    ensures forall i :: 0 <= i < |ps| ==> ReorderPayload(ps)[i].1 == i + 1
    ensures forall i :: 0 <= i < |ps| ==> Some(ReorderPayload(ps)[i].0) == ps[i].idSeccion
    ensures forall i, j :: 0 <= i < j < |ps| ==> ReorderPayload(ps)[i].1 < ReorderPayload(ps)[j].1
  {
  }

  /** A section's media are saved with their positions, from 1. */
  function NumberMedia(ms: seq<Media>): (r: seq<Media>)
    ensures |r| == |ms|
    ensures forall i :: 0 <= i < |ms| ==> r[i] == ms[i].(orden := i + 1)
  {
    seq(|ms|, i requires 0 <= i < |ms| => ms[i].(orden := i + 1))
  }

  // ------------------------------------------------------------ the editor

  /** The page's editing state: its sections and the ids of the saved
      sections removed since it was loaded. */
  class Editor {
    var puntos: seq<Punto>
    var eliminadas: seq<int>

    /** `hidratarDesdeDTO` for the sections. */
    constructor (ps: seq<Punto>)
      ensures puntos == ps && eliminadas == []
    {
      puntos := ps;
      eliminadas := [];
    }

    /** `movePunto`. */
    method MovePunto(from: int, to: int)
      requires 0 <= to < |puntos| ==> 0 <= from < |puntos|
      modifies this
      ensures puntos == Move(old(puntos), from, to)
      ensures multiset(puntos) == multiset(old(puntos))
      ensures 0 <= to < |puntos| ==> puntos[to] == old(puntos)[from]
      ensures eliminadas == old(eliminadas)
    {
      if 0 <= to < |puntos| {
        MovePermutes(puntos, from, to);
      }
      puntos := Move(puntos, from, to);
    }

    /** `moveMedia`. */
    method MoveMediaOf(idx: int, from: int, to: int)
      requires 0 <= idx < |puntos| && 0 <= to < |puntos[idx].media| ==> 0 <= from < |puntos[idx].media|
      modifies this
      ensures puntos == MoveMedia(old(puntos), idx, from, to)
      ensures eliminadas == old(eliminadas)
    {
      puntos := MoveMedia(puntos, idx, from, to);
    }

    /** `addPunto`: a new, unsaved, empty section numbered after the others. */
    method AddPunto()
      modifies this
      ensures puntos == old(puntos) + [Punto(None, "", "", |old(puntos)| + 1, [])]
      ensures puntos[|puntos| - 1].orden == |puntos|
      ensures eliminadas == old(eliminadas)
    {
      puntos := puntos + [Punto(None, "", "", |puntos| + 1, [])];
    }

    /** `removePunto`: the entry at `idx` goes; a saved section's id is
        kept for deletion on save. */
    method RemovePunto(idx: int)
      modifies this
      ensures 0 <= idx < |old(puntos)| ==> puntos == Remove(old(puntos), idx)
      ensures !(0 <= idx < |old(puntos)|) ==> puntos == old(puntos)
      ensures 0 <= idx < |old(puntos)| && Truthy(old(puntos)[idx].idSeccion) ==>
        eliminadas == old(eliminadas) + [old(puntos)[idx].idSeccion.value]
      ensures !(0 <= idx < |old(puntos)| && Truthy(old(puntos)[idx].idSeccion)) ==>
        eliminadas == old(eliminadas)
    {
      if 0 <= idx < |puntos| {
        if Truthy(puntos[idx].idSeccion) {
          eliminadas := eliminadas + [puntos[idx].idSeccion.value];
        }
        puntos := Remove(puntos, idx);
      }
    }
  }
}

=== FILE: pdf_boleto.dfy ===
/** The text clean-up of the ticket PDF: every UTF-16 code unit of a field
    is replaced by one the PDF's Latin-1 font can draw. */
module PdfBoleto {
  import opened Wrappers

  /** A UTF-16 code unit, as a Java `char`. */
  type Unit = x: int | 0 <= x < 0x1_0000

  const SPACE: Unit := 32
  const DASH: Unit := 45
  const APOSTROPHE: Unit := 39
  const QUOTE: Unit := 34
  const STAR: Unit := 42
  const QUESTION: Unit := 63

  /** Drawable as is: a code unit from 32 to 255. */
  predicate Drawable(ch: int) { 32 <= ch <= 255 }

  /** The replacement of one code unit: always drawable, and a drawable unit
      is kept. */
  function Clean(ch: Unit): (r: Unit)
    ensures Drawable(r)
    ensures Drawable(ch) ==> r == ch
  {
    if ch == 10 || ch == 13 || ch == 9 then SPACE
    else if ch == 0x2013 || ch == 0x2014 then DASH
    else if ch == 0x2018 || ch == 0x2019 then APOSTROPHE
    else if ch == 0x201C || ch == 0x201D then QUOTE
    else if ch == 0x2022 then STAR
    else if 0x2500 <= ch <= 0x25FF then DASH
    else if Drawable(ch) then ch
    else QUESTION
  }

  /** Line breaks and tabs become spaces; typographic dashes, quotes and the
      bullet become their ASCII look-alikes; box drawing becomes a dash;
      anything else undrawable becomes '?'. */
  lemma CleanCases(ch: Unit)
    ensures (ch == 10 || ch == 13 || ch == 9) <==> Clean(ch) == SPACE && !Drawable(ch)
    ensures ch == 0x2013 || ch == 0x2014 || 0x2500 <= ch <= 0x25FF ==> Clean(ch) == DASH
    ensures ch == 0x2018 || ch == 0x2019 ==> Clean(ch) == APOSTROPHE
    ensures ch == 0x201C || ch == 0x201D ==> Clean(ch) == QUOTE
    ensures ch == 0x2022 ==> Clean(ch) == STAR
    ensures Clean(ch) == QUESTION <==> ch == QUESTION || (!Drawable(ch) && ch !in {10, 13, 9, 0x2013, 0x2014,
      0x2018, 0x2019, 0x201C, 0x201D, 0x2022} && !(0x2500 <= ch <= 0x25FF))
  {
  }

  /** The cleaned text, unit by unit. */
  function Sanitized(s: seq<Unit>): (r: seq<Unit>)
    ensures |r| == |s|
    ensures forall i :: 0 <= i < |s| ==> r[i] == Clean(s[i])
  {
    seq(|s|, i requires 0 <= i < |s| => Clean(s[i]))
  }

  /** The result can be drawn, and cleaning it again changes nothing. */
  lemma SanitizedDrawableIdempotent(s: seq<Unit>)
    ensures forall i :: 0 <= i < |s| ==> Drawable(Sanitized(s)[i])
    ensures Sanitized(Sanitized(s)) == Sanitized(s)
  {
    forall i | 0 <= i < |s| ensures Drawable(Sanitized(s)[i]) && Clean(Sanitized(s)[i]) == Sanitized(s)[i] {
      assert Sanitized(s)[i] == Clean(s[i]);
    }
  }

  /** `sanitize`: "-" for a missing field, otherwise the cleaned text,
      built unit by unit. */
  method Sanitize(s: Option<seq<Unit>>) returns (r: seq<Unit>)
    ensures s.None? ==> r == [DASH]
    ensures s.Some? ==> r == Sanitized(s.value)
  {
    if s.None? {
      return [DASH];
    }
    var t := s.value;
    r := [];
    var i := 0;
    while i < |t|
      invariant 0 <= i <= |t|
      invariant |r| == i
      invariant forall k :: 0 <= k < i ==> r[k] == Clean(t[k])
    {
      var ch := t[i];
      if ch == 10 || ch == 13 || ch == 9 {
        r := r + [SPACE];
      } else if ch == 0x2013 || ch == 0x2014 {
        r := r + [DASH];
      } else if ch == 0x2018 || ch == 0x2019 {
        r := r + [APOSTROPHE];
      } else if ch == 0x201C || ch == 0x201D {
        r := r + [QUOTE];
      } else if ch == 0x2022 {
        r := r + [STAR];
      } else if 0x2500 <= ch <= 0x25FF {
        r := r + [DASH];
      } else if 32 <= ch <= 255 {
        r := r + [ch];
      } else {
        r := r + [QUESTION];
      }
      i := i + 1;
    }
  }
}

=== FILE: provision.dfy ===
/** Naming and passwords for the Oracle schema provisioned for a new
    tenant: any identifier is turned into a valid Oracle user name, and a
    random password is drawn from a fixed alphabet. */
module Provision {
  import opened Text

  const ORACLE_NAME_MAXLEN := 30

  /** `string.ascii_letters + string.digits + "!@#$%^&*()_+-="`. */
  const ALPHABET: string := "abcdefghijklmnopqrstuvwxyzABCDEFGHIJKLMNOPQRSTUVWXYZ0123456789!@#$%^&*()_+-="

  /** `strong_password(n)`: `picks` are the positions `secrets.choice`
      draws, one per character. */
  function StrongPassword(n: nat, picks: seq<nat>): (r: string)
    requires |picks| == n
    requires forall i :: 0 <= i < n ==> picks[i] < |ALPHABET|
    ensures |r| == n
    ensures forall i :: 0 <= i < n ==> r[i] in ALPHABET
  {
    seq(n, i requires 0 <= i < n => ALPHABET[picks[i]])
  }

  /** The outcome of `_sanitize_username`. */
  datatype Username = Name(value: string) | HttpError(status: int, detail: string)

  /** Matched by the class `[A-Za-z0-9_]`. */
  predicate WordChar(c: char) { IsLetter(c) || IsDigit(c) || c == '_' }

  /** Allowed in an Oracle user name here: upper-case letters, digits, `_`. */
  predicate OracleChar(c: char) { IsUpper(c) || IsDigit(c) || c == '_' }

  /** `re.sub(r"[^A-Za-z0-9_]", "_", raw)`. */
  function Underscored(raw: string): (r: string)
    ensures |r| == |raw|
    ensures forall i :: 0 <= i < |raw| ==> r[i] == if WordChar(raw[i]) then raw[i] else '_'
  {
    seq(|raw|, i requires 0 <= i < |raw| => if WordChar(raw[i]) then raw[i] else '_')
  }

  /** `_sanitize_username`. */
  function SanitizeUsername(raw: string): (r: Username)
    ensures r.HttpError? <==> raw == []
    ensures r.HttpError? ==> r.status == 400
  {
    if raw == [] then HttpError(400, "Identificador vacío")
    else
      var s := Underscored(raw);
      var s := if IsDigit(s[0]) then "U_" + s else s;
      var s := UpperStr(s);
      var s := if |s| > ORACLE_NAME_MAXLEN then s[..ORACLE_NAME_MAXLEN] else s;
      Name(s)
  }

  /** A name is a non-empty run of at most 30 allowed characters that does
      not start with a digit. */
  predicate ValidName(s: string) {
    && 0 < |s| <= ORACLE_NAME_MAXLEN
    && (forall i :: 0 <= i < |s| ==> OracleChar(s[i]))
    && !IsDigit(s[0])
  }

  /** Every identifier that is not empty gives a valid name, with the
      `U_` prefix exactly when the identifier starts with a digit. */
  lemma SanitizeValid(raw: string)
    requires raw != []
    ensures SanitizeUsername(raw).Name?
    ensures ValidName(SanitizeUsername(raw).value)
    ensures IsDigit(raw[0]) ==> SanitizeUsername(raw).value[..2] == "U_"
    ensures !IsDigit(raw[0]) ==> SanitizeUsername(raw).value[0] == Upper(Underscored(raw)[0])
  {
    var s := Underscored(raw);
    var t := if IsDigit(s[0]) then "U_" + s else s;
    var u := UpperStr(t);
    forall i | 0 <= i < |u| ensures OracleChar(u[i]) {
      assert WordChar(t[i]);
    }
  }

  /** A valid name comes back unchanged, so sanitising twice is sanitising once. */
  lemma SanitizeKeepsValid(s: string)
    requires ValidName(s)
    ensures SanitizeUsername(s) == Name(s)
  {
    assert Underscored(s) == s;
    assert UpperStr(s) == s;
  }

  lemma SanitizeIdempotent(raw: string)
    requires raw != []
    ensures SanitizeUsername(SanitizeUsername(raw).value) == SanitizeUsername(raw)
  {
    SanitizeValid(raw);
    SanitizeKeepsValid(SanitizeUsername(raw).value);
  }
}

=== FILE: ratings.dfy ===
/** `RatingDAO`: one star rating (1..5) per user and flight, and a flight's
    summary: the average, the number of ratings and the asking user's own. */
module Ratings {
  import opened Wrappers
  import opened Seqs

  /** A RESENA_VUELO row; `creada` is CREADA_EN as a timestamp. */
  datatype Rating = Rating(vuelo: int, usuario: int, calificacion: int, creada: int)

  /** At most one rating per (flight, user), each within 1..5. */
  predicate WellFormed(rows: seq<Rating>) {
    && (forall i :: 0 <= i < |rows| ==> 1 <= rows[i].calificacion <= 5)
    && (forall i, j :: 0 <= i < j < |rows| ==>
          rows[i].vuelo != rows[j].vuelo || rows[i].usuario != rows[j].usuario)
  }

  predicate Matches(r: Rating, vuelo: int, usuario: int) {
    r.vuelo == vuelo && r.usuario == usuario
  }

  /** The number of rows the UPDATE touches. */
  function CountMatches(rows: seq<Rating>, vuelo: int, usuario: int): (n: nat)
    ensures n == 0 <==> forall i :: 0 <= i < |rows| ==> !Matches(rows[i], vuelo, usuario)
    ensures n <= |rows|
  {
    if rows == [] then 0
    else CountMatches(rows[1..], vuelo, usuario) + (if Matches(rows[0], vuelo, usuario) then 1 else 0)
  }

  /** The table after the UPDATE: the user's rating of the flight gets the new
      value and time; every other row is unchanged. */
  function Updated(rows: seq<Rating>, vuelo: int, usuario: int, calificacion: int, now: int): (t: seq<Rating>)
    ensures |t| == |rows|
    ensures forall i :: 0 <= i < |rows| ==>
      t[i] == if Matches(rows[i], vuelo, usuario) then rows[i].(calificacion := calificacion, creada := now) else rows[i]
  {
    seq(|rows|, i requires 0 <= i < |rows| =>
      if Matches(rows[i], vuelo, usuario) then rows[i].(calificacion := calificacion, creada := now) else rows[i])
  }

  /** `upsertRating` on the table: an out-of-range rating fails; otherwise
      the existing row is updated, and a row is inserted only when the
      update touched none. */
  function Upsert(rows: seq<Rating>, vuelo: int, usuario: int, calificacion: int, now: int): (r: Result<seq<Rating>>)
    ensures calificacion < 1 || calificacion > 5 <==> r == Err("calificacion debe ser 1..5")
    ensures r.Ok? && CountMatches(rows, vuelo, usuario) == 0 ==>
      r.value == rows + [Rating(vuelo, usuario, calificacion, now)]
    ensures r.Ok? && CountMatches(rows, vuelo, usuario) > 0 ==>
      r.value == Updated(rows, vuelo, usuario, calificacion, now)
  {
    if calificacion < 1 || calificacion > 5 then Err("calificacion debe ser 1..5")
    else if CountMatches(rows, vuelo, usuario) == 0 then Ok(rows + [Rating(vuelo, usuario, calificacion, now)])
    else Ok(Updated(rows, vuelo, usuario, calificacion, now))
  }

  /** Upserting keeps at most one rating per (flight, user), each within 1..5. */
  lemma UpsertKeepsWellFormed(rows: seq<Rating>, vuelo: int, usuario: int, calificacion: int, now: int)
    requires WellFormed(rows)
    ensures var r := Upsert(rows, vuelo, usuario, calificacion, now);
      r.Ok? ==> WellFormed(r.value)
  {
    var r := Upsert(rows, vuelo, usuario, calificacion, now);
    if r.Ok? && CountMatches(rows, vuelo, usuario) > 0 {
      var t := r.value;
      forall i, j | 0 <= i < j < |t| ensures t[i].vuelo != t[j].vuelo || t[i].usuario != t[j].usuario {
        assert t[i].vuelo == rows[i].vuelo && t[i].usuario == rows[i].usuario;
        assert t[j].vuelo == rows[j].vuelo && t[j].usuario == rows[j].usuario;
      }
    }
  }

  // --------------------------------------------------------------- summary

  /** The rows `WHERE ID_VUELO = vuelo`. */
  function OnFlight(vuelo: int): Rating -> bool {
    (r: Rating) => r.vuelo == vuelo
  }

  /** The CALIFICACION column of some rows, in order. */
  function Calificaciones(rows: seq<Rating>): (cs: seq<int>)
    ensures |cs| == |rows| && forall i :: 0 <= i < |rows| ==> cs[i] == rows[i].calificacion
  {
    seq(|rows|, i requires 0 <= i < |rows| => rows[i].calificacion)
  }

  /** The flight's ratings, as the aggregate query sees them: the CALIFICACION
      of every row of the flight and of no other row, in table order. */
  function OfVuelo(rows: seq<Rating>, vuelo: int): (r: seq<int>)
    ensures r == Calificaciones(Filter(rows, OnFlight(vuelo)))
    ensures |r| <= |rows|
  {
    if rows == [] then []
    else
      OnFlightStep(rows, vuelo);
      (if rows[0].vuelo == vuelo then [rows[0].calificacion] else []) + OfVuelo(rows[1..], vuelo)
  }

  /** One step of the flight's ratings: the first row's, if it is the
      flight's, then those of the rest. */
  lemma OnFlightStep(rows: seq<Rating>, vuelo: int)
    requires rows != []
    ensures Calificaciones(Filter(rows, OnFlight(vuelo))) ==
      (if rows[0].vuelo == vuelo then [rows[0].calificacion] else []) + Calificaciones(Filter(rows[1..], OnFlight(vuelo)))
  {
    var head := if rows[0].vuelo == vuelo then [rows[0]] else [];
    var rest := Filter(rows[1..], OnFlight(vuelo));
    assert OnFlight(vuelo)(rows[0]) == (rows[0].vuelo == vuelo);
    assert Filter(rows, OnFlight(vuelo)) == head + rest;
    CalificacionesAppend(head, rest);
    assert Calificaciones(head) == if rows[0].vuelo == vuelo then [rows[0].calificacion] else [];
  }

  /** The ratings of two runs of rows, one after the other. */
  lemma CalificacionesAppend(a: seq<Rating>, b: seq<Rating>)
    ensures Calificaciones(a + b) == Calificaciones(a) + Calificaciones(b)
  {
    var l := Calificaciones(a + b);
    var r := Calificaciones(a) + Calificaciones(b);
    forall i | 0 <= i < |l| ensures l[i] == r[i] {
      if i < |a| {
        assert (a + b)[i] == a[i];
      } else {
        assert (a + b)[i] == b[i - |a|];
      }
    }
  }

  function Sum(xs: seq<int>): int {
    if xs == [] then 0 else xs[0] + Sum(xs[1..])
  }

  /** The first row's rating for the flight and user, if any. */
  function Mine(rows: seq<Rating>, vuelo: int, usuario: int): (m: Option<int>)
    ensures m.None? <==> CountMatches(rows, vuelo, usuario) == 0
    ensures m.Some? ==> exists i :: 0 <= i < |rows| && Matches(rows[i], vuelo, usuario) && rows[i].calificacion == m.value
  {
    if rows == [] then None
    else if Matches(rows[0], vuelo, usuario) then Some(rows[0].calificacion)
    else
      assert forall i :: 0 <= i < |rows| - 1 ==> rows[1..][i] == rows[i + 1];
      Mine(rows[1..], vuelo, usuario)
  }

  /** With one rating per flight and user, the user's own rating is that row's. */
  lemma MineIsTheRating(rows: seq<Rating>, vuelo: int, usuario: int, i: nat)
    requires WellFormed(rows) && i < |rows| && Matches(rows[i], vuelo, usuario)
    ensures Mine(rows, vuelo, usuario) == Some(rows[i].calificacion)
  {
    MineOfOnlyMatch(rows, vuelo, usuario, i);
  }

  lemma {:induction false} MineOfOnlyMatch(rows: seq<Rating>, vuelo: int, usuario: int, i: nat)
    requires i < |rows| && Matches(rows[i], vuelo, usuario)
    requires forall j :: 0 <= j < |rows| && Matches(rows[j], vuelo, usuario) ==> j == i
    ensures Mine(rows, vuelo, usuario) == Some(rows[i].calificacion)
  {
    if i > 0 {
      assert !Matches(rows[0], vuelo, usuario);
      forall j | 0 <= j < |rows[1..]| && Matches(rows[1..][j], vuelo, usuario) ensures j == i - 1 {
        assert rows[1..][j] == rows[j + 1];
      }
      MineOfOnlyMatch(rows[1..], vuelo, usuario, i - 1);
    }
  }

  /** `RatingDAO.Resumen` with the average kept exact: `suma` over `total`. */
  datatype Resumen = Resumen(suma: int, total: nat, miRating: Option<int>)

  /** PROM, with a NULL average (no ratings) read as 0. */
  function Promedio(r: Resumen): (p: real)
    ensures r.total == 0 ==> p == 0.0
    ensures r.total > 0 ==> p * r.total as real == r.suma as real
  {
    if r.total == 0 then 0.0
    else
      QuotientTimes(r.suma as real, r.total as real);
      r.suma as real / r.total as real
  }

  /** `resumen`: the flight's sum and count of ratings, and the asking user's
      own rating; there is none for an anonymous user. */
  function Summary(rows: seq<Rating>, vuelo: int, usuario: Option<int>): (r: Resumen)
    ensures r.total == |OfVuelo(rows, vuelo)| && r.suma == Sum(OfVuelo(rows, vuelo))
    ensures usuario.None? ==> r.miRating.None?
    ensures usuario.Some? ==> (r.miRating.None? <==> CountMatches(rows, vuelo, usuario.value) == 0)
    ensures usuario.Some? && r.miRating.Some? ==>
      exists i :: 0 <= i < |rows| && Matches(rows[i], vuelo, usuario.value) && rows[i].calificacion == r.miRating.value
  {
    var cs := OfVuelo(rows, vuelo);
    Resumen(Sum(cs), |cs|, if usuario.None? then None else Mine(rows, vuelo, usuario.value))
  }

  /** A flight nobody rated has average 0 and total 0. */
  lemma NoRatingsSummary(rows: seq<Rating>, vuelo: int, usuario: Option<int>)
    requires forall i :: 0 <= i < |rows| ==> rows[i].vuelo != vuelo
    ensures Summary(rows, vuelo, usuario).total == 0 && Promedio(Summary(rows, vuelo, usuario)) == 0.0
    ensures Summary(rows, vuelo, usuario).miRating.None?
  {
    NoRowsNoRatings(rows, vuelo);
    if usuario.Some? {
      assert forall i :: 0 <= i < |rows| ==> !Matches(rows[i], vuelo, usuario.value);
    }
  }

  lemma {:induction false} NoRowsNoRatings(rows: seq<Rating>, vuelo: int)
    requires forall i :: 0 <= i < |rows| ==> rows[i].vuelo != vuelo
    ensures OfVuelo(rows, vuelo) == []
  {
    if rows != [] {
      NoRowsNoRatings(rows[1..], vuelo);
    }
  }

  /** Ratings within 1..5 add up to between one and five times their number,
      so a rated flight's average lies in 1..5. */
  lemma {:induction false} SumBounds(rows: seq<Rating>, vuelo: int)
    requires forall i :: 0 <= i < |rows| ==> 1 <= rows[i].calificacion <= 5
    ensures |OfVuelo(rows, vuelo)| <= Sum(OfVuelo(rows, vuelo)) <= 5 * |OfVuelo(rows, vuelo)|
  {
    if rows != [] {
      assert forall i :: 0 <= i < |rows| - 1 ==> rows[1..][i] == rows[i + 1];
      SumBounds(rows[1..], vuelo);
      var rest := OfVuelo(rows[1..], vuelo);
      if rows[0].vuelo == vuelo {
        var cs := [rows[0].calificacion] + rest;
        assert OfVuelo(rows, vuelo) == cs;
        assert cs[1..] == rest;
        assert Sum(cs) == rows[0].calificacion + Sum(rest);
      } else {
        assert OfVuelo(rows, vuelo) == rest;
      }
    }
  }

  /** A sum between one and five times a positive count averages within 1..5. */
  lemma AverageBounds(suma: int, total: int)
    requires 0 < total <= suma <= 5 * total
    ensures 1.0 <= suma as real / total as real <= 5.0
  {
    var t := total as real;
    var x := suma as real;
    var q := x / t;
    QuotientTimes(x, t);
    assert t <= x <= 5.0 * t;
    TimesMonotone(q, 1.0, t);
    assert 1.0 <= q;
    TimesMonotone(5.0, q, t);
    assert q <= 5.0;
  }

  /** The quotient times the divisor gives back the dividend. */
  lemma QuotientTimes(x: real, t: real)
    requires t != 0.0
    ensures (x / t) * t == x
  {
  }

  /** Multiplying by a positive number keeps a strict order. */
  lemma TimesMonotone(a: real, b: real, t: real)
    requires t > 0.0
    ensures a < b ==> a * t < b * t
  {
    if a < b {
      assert b * t - a * t == (b - a) * t;
    }
  }

  /** After a successful upsert the user's own rating reads back as the one
      given, and the flight's count grows by one exactly when the user had
      not rated it before. */
  lemma UpsertReadsBack(rows: seq<Rating>, vuelo: int, usuario: int, calificacion: int, now: int)
    requires WellFormed(rows) && 1 <= calificacion <= 5
    ensures var t := Upsert(rows, vuelo, usuario, calificacion, now).value;
      && Summary(t, vuelo, Some(usuario)).miRating == Some(calificacion)
      && Summary(t, vuelo, Some(usuario)).total ==
           Summary(rows, vuelo, Some(usuario)).total + (if CountMatches(rows, vuelo, usuario) == 0 then 1 else 0)
  {
    var t := Upsert(rows, vuelo, usuario, calificacion, now).value;
    if CountMatches(rows, vuelo, usuario) == 0 {
      OfVueloAppend(rows, Rating(vuelo, usuario, calificacion, now), vuelo);
      MineAppend(rows, Rating(vuelo, usuario, calificacion, now));
    } else {
      OfVueloUpdated(rows, vuelo, usuario, calificacion, now);
      MineUpdated(rows, vuelo, usuario, calificacion, now);
    }
  }

  lemma {:induction false} OfVueloAppend(rows: seq<Rating>, r: Rating, vuelo: int)
    ensures |OfVuelo(rows + [r], vuelo)| == |OfVuelo(rows, vuelo)| + (if r.vuelo == vuelo then 1 else 0)
  {
    if rows != [] {
      assert (rows + [r])[1..] == rows[1..] + [r];
      OfVueloAppend(rows[1..], r, vuelo);
    }
  }

  lemma {:induction false} MineAppend(rows: seq<Rating>, r: Rating)
    requires CountMatches(rows, r.vuelo, r.usuario) == 0
    ensures Mine(rows + [r], r.vuelo, r.usuario) == Some(r.calificacion)
  {
    if rows != [] {
      assert (rows + [r])[1..] == rows[1..] + [r];
      assert !Matches(rows[0], r.vuelo, r.usuario);
      MineAppend(rows[1..], r);
    }
  }

  lemma {:induction false} OfVueloUpdated(rows: seq<Rating>, vuelo: int, usuario: int, calificacion: int, now: int)
    ensures |OfVuelo(Updated(rows, vuelo, usuario, calificacion, now), vuelo)| == |OfVuelo(rows, vuelo)|
  {
    if rows != [] {
      var t := Updated(rows, vuelo, usuario, calificacion, now);
      assert t[1..] == Updated(rows[1..], vuelo, usuario, calificacion, now);
      OfVueloUpdated(rows[1..], vuelo, usuario, calificacion, now);
    }
  }

  lemma {:induction false} MineUpdated(rows: seq<Rating>, vuelo: int, usuario: int, calificacion: int, now: int)
    requires CountMatches(rows, vuelo, usuario) > 0
    ensures Mine(Updated(rows, vuelo, usuario, calificacion, now), vuelo, usuario) == Some(calificacion)
  {
    var t := Updated(rows, vuelo, usuario, calificacion, now);
    if !Matches(rows[0], vuelo, usuario) {
      assert t[1..] == Updated(rows[1..], vuelo, usuario, calificacion, now);
      MineUpdated(rows[1..], vuelo, usuario, calificacion, now);
    }
  }

  // --------------------------------------------------------------- the DAO

  /** The RESENA_VUELO table. */
  class RatingDAO {
    var rows: seq<Rating>

    ghost predicate Valid()
      reads this
    {
      WellFormed(rows)
    }

    constructor ()
      ensures Valid() && rows == []
    {
      rows := [];
    }

    /** `upsertRating`: the checked rating replaces the user's rating of the
        flight, or is inserted when there was none; the table keeps at most
        one rating per user and flight. */
    method UpsertRating(vuelo: int, usuario: int, calificacion: int, now: int) returns (r: Outcome)
      requires Valid()
      modifies this
      ensures Valid()
      ensures var u := Upsert(old(rows), vuelo, usuario, calificacion, now);
        && (u.Err? ==> r == Fail(u.msg) && rows == old(rows))
        && (u.Ok? ==> r == Pass && rows == u.value)
    {
      if calificacion < 1 || calificacion > 5 {
        return Fail("calificacion debe ser 1..5");
      }
      UpsertKeepsWellFormed(rows, vuelo, usuario, calificacion, now);
      var n := CountMatches(rows, vuelo, usuario);
      rows := Updated(rows, vuelo, usuario, calificacion, now);
      if n == 0 {
        assert rows == old(rows) by {
          assert forall i :: 0 <= i < |rows| ==> !Matches(old(rows)[i], vuelo, usuario);
        }
        rows := rows + [Rating(vuelo, usuario, calificacion, now)];
      }
      r := Pass;
    }

    /** `resumen`. */
    method Resumen(vuelo: int, usuario: Option<int>) returns (r: Resumen)
      requires Valid()
      ensures r == Summary(rows, vuelo, usuario)
      ensures r.total > 0 ==> 1.0 <= Promedio(r) <= 5.0
    {
      r := Summary(rows, vuelo, usuario);
      SumBounds(rows, vuelo);
      if r.total > 0 {
        AverageBounds(r.suma, r.total);
      }
    }
  }
}

=== FILE: router.dfy ===
/** The History-API router of the agencies' front end: path normalisation,
    path/query splitting, `:param` route matching, the navigation store and
    the click filter of the `link` action. */
module Router {
  import opened Wrappers
  import opened Text
  import opened Seqs

  // --------------------------------------------------------------- paths

  /** `replace(/\/{2,}/g, "/")`: every run of two or more slashes becomes one. */
  function CollapseSlashes(s: string): (r: string)
    ensures |r| <= |s|
    ensures s != [] ==> r != [] && r[0] == s[0] && r[|r| - 1] == s[|s| - 1]
    ensures NoDoubleSlash(r)
  {
    if |s| >= 2 && s[0] == '/' && s[1] == '/' then CollapseSlashes(s[1..])
    else if s == [] then []
    else
      var t := CollapseSlashes(s[1..]);
      ConsNoDoubleSlash(s[0], t);
      [s[0]] + t
  }

  /** The collapse removes slashes only: every other character is kept, in order. */
  lemma {:induction false} CollapseKeepsNonSlash(s: string)
    ensures Filter(CollapseSlashes(s), NotSlash) == Filter(s, NotSlash)
  {
    if |s| >= 2 && s[0] == '/' && s[1] == '/' {
      CollapseKeepsNonSlash(s[1..]);
    } else if s != [] {
      var t := CollapseSlashes(s[1..]);
      CollapseKeepsNonSlash(s[1..]);
      assert ([s[0]] + t)[1..] == t;
    }
  }

  predicate NotSlash(c: char) { c != '/' }

  /** Runs of one, two and three slashes all become one. */
  lemma CollapseExample()
    ensures CollapseSlashes("//a///b") == "/a/b"
  {
    assert CollapseSlashes("///b") == CollapseSlashes("//b") == CollapseSlashes("/b");
    assert NoDoubleSlash("/b");
    CollapseNoOp("/b");
    assert CollapseSlashes("a///b") == "a" + CollapseSlashes("///b");
    assert CollapseSlashes("//a///b") == CollapseSlashes("/a///b") == "/" + CollapseSlashes("a///b");
  }

  lemma ConsNoDoubleSlash(c: char, t: string)
    requires NoDoubleSlash(t)
    requires c == '/' ==> t == [] || t[0] != '/'
    ensures NoDoubleSlash([c] + t)
  {
    var r := [c] + t;
    forall i | 0 <= i < |r| ensures !SlashesAt(r, i) {
      if i > 0 {
        assert !SlashesAt(t, i - 1);
      }
    }
  }

  predicate NoDoubleSlash(s: string) {
    forall i :: 0 <= i < |s| ==> !SlashesAt(s, i)
  }

  /** Two slashes in a row start at `i`. */
  predicate SlashesAt(s: string, i: int) {
    0 <= i < |s| - 1 && s[i] == '/' && s[i + 1] == '/'
  }

  lemma {:induction false} CollapseNoOp(s: string)
    requires NoDoubleSlash(s)
    ensures CollapseSlashes(s) == s
  {
    if s != [] {
      assert NoDoubleSlash(s[1..]) by {
        forall i | 0 <= i < |s[1..]| ensures !SlashesAt(s[1..], i) {
          assert !SlashesAt(s, i + 1);
        }
      }
      assert !SlashesAt(s, 0);
      CollapseNoOp(s[1..]);
      assert s == [s[0]] + s[1..];
    }
  }

  /** The string before the alias table is applied: trimmed, without one
      leading `#`, with a leading `/`. A falsy input (null or "") becomes "/". */
  function Rooted(p: Option<string>): (r: string)
    ensures r != [] && r[0] == '/'
  {
    WithRoot(DropHash(JsTrim(Falsy(p))))
  }

  /** The input with a falsy value (null or "") replaced by "/". */
  function Falsy(p: Option<string>): string {
    if p.None? || p.value == "" then "/" else p.value
  }

  /** A rooted path never ends in white space. */
  lemma RootedLast(p: Option<string>)
    ensures !JsWhitespace(Rooted(p)[|Rooted(p)| - 1])
  {
    var t := JsTrim(Falsy(p));
    assert t == [] || !IsSpace(JsSpace, t[|t| - 1]);
    var u := DropHash(t);
    assert u == [] || !JsWhitespace(u[|u| - 1]);
  }

  /** Drops one leading `#`; the last character is kept. */
  function DropHash(t: string): (r: string)
    ensures t == [] || !JsWhitespace(t[|t| - 1]) ==> r == [] || !JsWhitespace(r[|r| - 1])
  {
    if StartsWith(t, "#") then t[1..] else t
  }

  /** Prefixes a `/` unless there is one already. */
  function WithRoot(u: string): (r: string)
    ensures r != [] && r[0] == '/'
    ensures u == [] || !JsWhitespace(u[|u| - 1]) ==> !JsWhitespace(r[|r| - 1])
    ensures StartsWith(u, "/") ==> r == u
  {
    if StartsWith(u, "/") then u else "/" + u
  }

  lemma RootedId(s: string)
    requires s != [] && s[0] == '/' && !JsWhitespace(s[|s| - 1])
    ensures Rooted(Some(s)) == s
  {
    TrimNoOp(s, JsSpace);
    assert !StartsWith(s, "#") by { assert s[..1][0] == '/'; }
    assert StartsWith(s, "/") by { assert s[..1] == [s[0]]; }
  }

  /** `/registro` → `/register`; `/ingresar` and `/iniciar-sesion` → `/login`. */
  function Alias(p: string): (r: string)
    ensures NoDoubleSlash(p) ==> NoDoubleSlash(r)
    ensures p != [] && p[0] == '/' ==> r != [] && r[0] == '/'
    ensures p != [] && !JsWhitespace(p[|p| - 1]) ==> r != [] && !JsWhitespace(r[|r| - 1])
  {
    assert NoDoubleSlash("/register");
    assert NoDoubleSlash("/login");
    if p == "/registro" then "/register"
    else if p == "/ingresar" || p == "/iniciar-sesion" then "/login"
    else p
  }

  /** The targets of the alias table are not aliases themselves. */
  lemma AliasIdempotent(p: string)
    ensures Alias(Alias(p)) == Alias(p)
  {
  }

  /** `normalize` exactly as written: the alias table is consulted BEFORE the
      slashes are collapsed. */
  function NormalizeAsWritten(p: Option<string>): (r: string)
    ensures r != [] && r[0] == '/'
    ensures NoDoubleSlash(r)
  {
    CollapseSlashes(Alias(Rooted(p)))
  }

  /** On a path that is already clean, both versions only apply the alias table. */
  lemma NormalizeClean(s: string)
    requires s != [] && s[0] == '/' && !JsWhitespace(s[|s| - 1]) && NoDoubleSlash(s)
    ensures NormalizeAsWritten(Some(s)) == Alias(s)
    ensures Normalize(Some(s)) == Alias(s)
  {
    RootedId(s);
    CollapseNoOp(s);
    CollapseNoOp(Alias(s));
  }

  /** `normalize("//a///b")` is "/a/b" in either order of the last two steps. */
  lemma NormalizeExample()
    ensures NormalizeAsWritten(Some("//a///b")) == "/a/b"
    ensures Normalize(Some("//a///b")) == "/a/b"
  {
    RootedExample();
    CollapseExample();
    AliasLength("//a///b");
    AliasLength("/a/b");
  }

  lemma RootedExample()
    ensures Rooted(Some("//a///b")) == "//a///b"
  {
    RootedId("//a///b");
  }

  lemma CollapseDoubleRegistro(s: string)
    requires s == "//registro"
    ensures CollapseSlashes(s) == s[1..] && s[1..] == "/registro"
  {
    assert NoDoubleSlash(s[1..]);
    CollapseNoOp(s[1..]);
  }

  /** Written as it stands, `normalize` is not idempotent: "//registro" is not
      an alias when the table is consulted, and only becomes "/registro" after
      the collapse, so normalising the result once more gives "/register". */
  lemma NormalizeAsWrittenNotIdempotent(s: string)
    requires s == "//registro"
    ensures NormalizeAsWritten(Some(s)) == "/registro"
    ensures NormalizeAsWritten(Some(NormalizeAsWritten(Some(s)))) == "/register"
  {
    AsWrittenDoubleRegistro(s);
    var t := NormalizeAsWritten(Some(s));
    CleanRegistro(t);
    NormalizeClean(t);
  }

  /** "/registro" is a clean path that the alias table maps to "/register". */
  lemma CleanRegistro(t: string)
    requires t == "/registro"
    ensures t != [] && t[0] == '/' && !JsWhitespace(t[|t| - 1]) && NoDoubleSlash(t)
    ensures Alias(t) == "/register"
  {
    assert NoDoubleSlash(t);
  }

  lemma AsWrittenDoubleRegistro(s: string)
    requires s == "//registro"
    ensures NormalizeAsWritten(Some(s)) == s[1..] && s[1..] == "/registro"
    ensures NoDoubleSlash(s[1..])
  {
    RootedId(s);
    AliasLength(s);
    CollapseDoubleRegistro(s);
  }

  /** Only paths of 9 or 15 characters can be aliases. */
  lemma AliasLength(p: string)
    requires |p| != 9 && |p| != 15
    ensures Alias(p) == p
  {
  }

  /** `normalize` with the slashes collapsed before the alias table is
      consulted, so that an aliased path is recognised however many slashes it
      was written with. The rest of this model uses this definition. */
  function Normalize(p: Option<string>): (r: string)
    ensures r != [] && r[0] == '/'
    ensures NoDoubleSlash(r)
  {
    Alias(CollapseSlashes(Rooted(p)))
  }

  /** A normalised path never ends in white space. */
  lemma NormalizeLast(p: Option<string>)
    ensures !JsWhitespace(Normalize(p)[|Normalize(p)| - 1])
  {
    RootedLast(p);
    var c := CollapseSlashes(Rooted(p));
    assert !JsWhitespace(c[|c| - 1]);
  }

  /** The corrected version gives "//registro" the alias too. */
  lemma NormalizeDoubleSlashAlias(s: string)
    requires s == "//registro"
    ensures Normalize(Some(s)) == "/register"
  {
    RootedId(s);
    CollapseDoubleRegistro(s);
  }

  /** A missing, empty or all-white-space path normalises to the root. */
  lemma BlankNormalizesToRoot(p: Option<string>)
    requires p.None? || forall i :: 0 <= i < |p.value| ==> JsWhitespace(p.value[i])
    ensures Normalize(p) == "/"
  {
    RootedToRoot(p);
    RootNormalizes(p);
  }

  lemma RootNormalizes(p: Option<string>)
    requires Rooted(p) == "/"
    ensures Normalize(p) == "/"
  {
    RootFixed();
  }

  lemma RootFixed()
    ensures Alias(CollapseSlashes("/")) == "/"
  {
    assert CollapseSlashes("/") == "/";
  }

  lemma RootedToRoot(p: Option<string>)
    requires p.None? || forall i :: 0 <= i < |p.value| ==> JsWhitespace(p.value[i])
    ensures Rooted(p) == "/"
  {
    if p.Some? && p.value != "" {
      TrimEmptyIff(p.value, JsSpace);
      WithRootEmpty(JsTrim(p.value));
    } else {
      RootedOfSlash(p);
    }
  }

  lemma WithRootEmpty(t: string)
    requires t == []
    ensures WithRoot(DropHash(t)) == "/"
  {
  }

  lemma RootedOfSlash(p: Option<string>)
    requires p.None? || p.value == ""
    ensures Rooted(p) == "/"
  {
    RootedId("/");
  }

  /** The Spanish paths of the alias table reach their English routes. */
  lemma RegistroNormalizes()
    ensures Normalize(Some("/registro")) == "/register"
  {
    assert NoDoubleSlash("/registro");
    NormalizeClean("/registro");
  }

  lemma IngresarNormalizes()
    ensures Normalize(Some("/ingresar")) == "/login"
  {
    assert NoDoubleSlash("/ingresar");
    NormalizeClean("/ingresar");
  }

  lemma IniciarSesionNormalizes()
    ensures Normalize(Some("/iniciar-sesion")) == "/login"
  {
    assert NoDoubleSlash("/iniciar-sesion");
    NormalizeClean("/iniciar-sesion");
  }

  /** Normalising a normalised path changes nothing. */
  lemma NormalizeIdempotent(p: Option<string>)
    ensures Normalize(Some(Normalize(p))) == Normalize(p)
  {
    NormalizeLast(p);
    NormalizeClean(Normalize(p));
    AliasIdempotent(CollapseSlashes(Rooted(p)));
  }

  // ----------------------------------------------------------- the query

  /** `splitPathAndQuery`: split at the first `?`, which belongs to neither part. */
  function SplitPathAndQuery(p: string): (r: (string, string))
    ensures '?' in p ==> '?' !in r.0 && p == r.0 + "?" + r.1
    ensures '?' !in p ==> r == (p, "")
  {
    if p == [] then (p, "")
    else if p[0] == '?' then ([], p[1..])
    else
      var (a, b) := SplitPathAndQuery(p[1..]);
      if '?' in p[1..] then ([p[0]] + a, b) else (p, "")
  }

  /** `getQuery(current)`: the query of a non-empty `current`, or else the
      browser's search string without its leading `?`. */
  function GetQuery(current: Option<string>, search: string): (r: string)
    ensures current.Some? && current.value != "" ==>
      r == SplitPathAndQuery(Normalize(current)).1
    ensures (current.None? || current.value == "") && !StartsWith(search, "?") ==> r == search
    ensures (current.None? || current.value == "") && StartsWith(search, "?") ==> search == "?" + r
  {
    if current.Some? && current.value != "" then SplitPathAndQuery(Normalize(current)).1
    else if StartsWith(search, "?") then search[1..]
    else search
  }

  // ------------------------------------------------------------ segments

  /** JavaScript's `split("/")`: the pieces between slashes, empty ones included. */
  function SplitSlash(s: string): (r: seq<string>)
    ensures |r| >= 1
    ensures forall k :: 0 <= k < |r| ==> '/' !in r[k]
    ensures Join(r, "/") == s
  {
    if s == [] then [""]
    else if s[0] == '/' then
      var t := SplitSlash(s[1..]);
      assert ([""] + t)[1..] == t && s == "/" + s[1..];
      [""] + t
    else
      var t := SplitSlash(s[1..]);
      JoinOntoFirst([s[0]], t, "/");
      assert s == [s[0]] + s[1..];
      [[s[0]] + t[0]] + t[1..]
  }

  /** Gluing `x` onto the first piece glues it onto the joined text. */
  lemma JoinOntoFirst(x: string, t: seq<string>, sep: string)
    requires |t| >= 1
    ensures Join([x + t[0]] + t[1..], sep) == x + Join(t, sep)
  {
    var r := [x + t[0]] + t[1..];
    if |t| > 1 {
      assert r[1..] == t[1..];
    }
  }

  /** `filter(Boolean)` on strings: drops the empty ones. */
  function NonEmpty(xs: seq<string>): (r: seq<string>)
    ensures forall k :: 0 <= k < |r| ==> r[k] != [] && r[k] in xs
    ensures r == Filter(xs, Filled)
  {
    if xs == [] then []
    else (if xs[0] == [] then [] else [xs[0]]) + NonEmpty(xs[1..])
  }

  /** The non-empty pieces between the slashes of `path`, in order. */
  function Segments(path: string): (r: seq<string>)
    ensures forall k :: 0 <= k < |r| ==> r[k] != [] && '/' !in r[k]
    ensures r == Filter(SplitSlash(path), Filled)
  {
    NonEmpty(SplitSlash(path))
  }

  // ------------------------------------------------------------- match

  datatype MatchResult = MatchResult(ok: bool, params: map<string, string>)

  predicate IsParam(seg: string) { StartsWith(seg, ":") }

  function ParamName(seg: string): string
    requires IsParam(seg)
  {
    seg[1..]
  }

  /** The segments agree: same count, and every literal pattern segment is equal
      to the path segment at the same position. */
  predicate SegmentsAgree(a: seq<string>, b: seq<string>) {
    |a| == |b| && forall i :: 0 <= i < |a| && !IsParam(a[i]) ==> a[i] == b[i]
  }

  /** The parameters bound left to right; a later `:name` overwrites an earlier one. */
  function Bindings(a: seq<string>, b: seq<string>): map<string, string>
    requires |a| <= |b|
  {
    if a == [] then map[]
    else
      var m := Bindings(a[..|a| - 1], b[..|a| - 1]);
      if IsParam(a[|a| - 1]) then m[ParamName(a[|a| - 1]) := b[|a| - 1]] else m
  }

  /** A name is bound exactly when some parameter segment carries it, and it is
      bound to the path segment under its LAST occurrence. */
  lemma {:induction false} BindingsLast(a: seq<string>, b: seq<string>, i: nat)
    requires |a| <= |b| && i < |a| && IsParam(a[i])
    requires forall j :: i < j < |a| && IsParam(a[j]) ==> ParamName(a[j]) != ParamName(a[i])
    ensures ParamName(a[i]) in Bindings(a, b)
    ensures Bindings(a, b)[ParamName(a[i])] == b[i]
  {
    var n := |a| - 1;
    if i < n {
      BindingsLast(a[..n], b[..n], i);
    }
  }

  lemma {:induction false} BindingsKeys(a: seq<string>, b: seq<string>)
    requires |a| <= |b|
    ensures forall name :: name in Bindings(a, b) <==>
      exists i :: 0 <= i < |a| && IsParam(a[i]) && ParamName(a[i]) == name
  {
    if a != [] {
      var n := |a| - 1;
      BindingsKeys(a[..n], b[..n]);
      forall name ensures name in Bindings(a, b) <==>
        exists i :: 0 <= i < |a| && IsParam(a[i]) && ParamName(a[i]) == name
      {
        if name in Bindings(a[..n], b[..n]) {
          var i :| 0 <= i < n && IsParam(a[..n][i]) && ParamName(a[..n][i]) == name;
          assert a[i] == a[..n][i];
        }
        if exists i :: 0 <= i < |a| && IsParam(a[i]) && ParamName(a[i]) == name {
          var i :| 0 <= i < |a| && IsParam(a[i]) && ParamName(a[i]) == name;
          if i < n { assert a[..n][i] == a[i]; }
        }
      }
    }
  }

  /** The segments of a path once normalised and stripped of its query. */
  function PathSegments(p: Option<string>): (r: seq<string>)
    ensures forall k :: 0 <= k < |r| ==> r[k] != [] && '/' !in r[k]
    ensures r == Filter(SplitSlash(SplitPathAndQuery(Normalize(p)).0), Filled)
  {
    Segments(SplitPathAndQuery(Normalize(p)).0)
  }

  /** `current || currentPathOnly()`: a falsy `current` falls back to the
      browser's normalised path. */
  function CurrentOr(current: Option<string>, locationPath: string): (r: string)
    ensures r != []
    ensures current.Some? && current.value != "" ==> r == current.value
  {
    if current.None? || current.value == "" then Normalize(Some(locationPath)) else current.value
  }

  /** `match(pattern, current)`: the pattern and the current path agree segment
      by segment, literal segments exactly and `:name` segments binding the
      path segment under them; on a mismatch no parameters are returned. */
  method Match(pattern: string, current: Option<string>, locationPath: string)
    returns (r: MatchResult)
    ensures var a := PathSegments(Some(pattern));
            var b := PathSegments(Some(CurrentOr(current, locationPath)));
            && r.ok == SegmentsAgree(a, b)
            && r.params == if r.ok then Bindings(a, b) else map[]
  {
    var a := PathSegments(Some(pattern));
    var b := PathSegments(Some(CurrentOr(current, locationPath)));
    r := MatchSegments(a, b);
  }

  /** The loop of `match`, over the two segment lists. */
  method MatchSegments(a: seq<string>, b: seq<string>) returns (r: MatchResult)
    ensures r.ok == SegmentsAgree(a, b)
    ensures r.params == if r.ok then Bindings(a, b) else map[]
  {
    if |a| != |b| {
      return MatchResult(false, map[]);
    }
    var params: map<string, string> := map[];
    var i := 0;
    while i < |a|
      invariant 0 <= i <= |a|
      invariant forall k :: 0 <= k < i && !IsParam(a[k]) ==> a[k] == b[k]
      invariant params == Bindings(a[..i], b[..i])
    {
      assert a[..i + 1][..i] == a[..i] && b[..i + 1][..i] == b[..i];
      if IsParam(a[i]) {
        params := params[ParamName(a[i]) := b[i]];
      } else if a[i] != b[i] {
        return MatchResult(false, map[]);
      }
      i := i + 1;
    }
    assert a[..i] == a && b[..i] == b;
    return MatchResult(true, params);
  }

  /** `match("/vuelos/:id", "/vuelos/42?x=1")` binds `id` to "42", the query
      being ignored; against "/vuelos/42/extra" the extra segment makes it fail. */
  lemma MatchExample(pattern: string, current: string, longer: string)
    requires pattern == "/vuelos/:id"
    requires current == "/vuelos/42?x=1" && longer == "/vuelos/42/extra"
    ensures SegmentsAgree(PathSegments(Some(pattern)), PathSegments(Some(current)))
    ensures Bindings(PathSegments(Some(pattern)), PathSegments(Some(current))) == map["id" := "42"]
    ensures !SegmentsAgree(PathSegments(Some(pattern)), PathSegments(Some(longer)))
  {
    VuelosIdSegments(pattern);
    VuelosQuerySegments(current);
    VuelosExtraSegments(longer);
    MatchVuelosId(PathSegments(Some(pattern)), PathSegments(Some(current)), PathSegments(Some(longer)));
  }

  lemma MatchVuelosId(a: seq<string>, b: seq<string>, c: seq<string>)
    requires a == ["vuelos", ":id"] && b == ["vuelos", "42"] && c == ["vuelos", "42", "extra"]
    ensures SegmentsAgree(a, b) && Bindings(a, b) == map["id" := "42"]
    ensures !SegmentsAgree(a, c)
  {
    assert a[..1] == ["vuelos"] && b[..1] == ["vuelos"];
    assert !IsParam("vuelos") by { assert "vuelos"[..1][0] == 'v'; }
    assert IsParam(":id") by { assert ":id"[..1] == ":"; }
    assert ParamName(":id") == "id";
    assert a[..1][..0] == [] && b[..1][..0] == [];
    assert Bindings(a[..1], b[..1]) == map[];
    assert a[1] == ":id" && b[1] == "42";
  }

  lemma VuelosIdSegments(s: string)
    requires s == "/vuelos/:id"
    ensures PathSegments(Some(s)) == ["vuelos", ":id"]
  {
    VuelosIdClean(s);
    VuelosIdWords(s);
  }

  lemma VuelosIdClean(s: string)
    requires s == "/vuelos/:id"
    ensures PathSegments(Some(s)) == Segments(s)
  {
    assert NoDoubleSlash(s);
    CleanSegments(s);
  }

  lemma VuelosIdWords(s: string)
    requires s == "/vuelos/:id"
    ensures Segments(s) == ["vuelos", ":id"]
  {
    assert s == "/" + "vuelos" + "/" + ":id";
    TwoSegments("vuelos", ":id");
  }

  lemma VuelosQuerySegments(s: string)
    requires s == "/vuelos/42?x=1"
    ensures PathSegments(Some(s)) == ["vuelos", "42"]
  {
    VuelosQueryClean(s);
    VuelosQueryWords("/vuelos/42");
  }

  lemma VuelosQueryClean(s: string)
    requires s == "/vuelos/42?x=1"
    ensures PathSegments(Some(s)) == Segments("/vuelos/42")
  {
    assert NoDoubleSlash(s);
    AliasLength(s);
    var p, q := s[..10], s[11..];
    assert s == p + "?" + q && p == "/vuelos/42";
    CleanQuerySegments(s, p, q);
  }

  /** A clean path outside the alias table keeps the segments written before its `?`. */
  lemma CleanQuerySegments(s: string, p: string, q: string)
    requires s != [] && s[0] == '/' && !JsWhitespace(s[|s| - 1]) && NoDoubleSlash(s)
    requires Alias(s) == s && s == p + "?" + q && '?' !in p
    ensures PathSegments(Some(s)) == Segments(p)
  {
    NormalizeClean(s);
    SplitUnique(p, q);
  }

  lemma VuelosQueryWords(s: string)
    requires s == "/vuelos/42"
    ensures Segments(s) == ["vuelos", "42"]
  {
    assert s == "/" + "vuelos" + "/" + "42";
    TwoSegments("vuelos", "42");
  }

  lemma VuelosExtraSegments(s: string)
    requires s == "/vuelos/42/extra"
    ensures PathSegments(Some(s)) == ["vuelos", "42", "extra"]
  {
    VuelosExtraClean(s);
    VuelosExtraWords(s);
  }

  lemma VuelosExtraClean(s: string)
    requires s == "/vuelos/42/extra"
    ensures PathSegments(Some(s)) == Segments(s)
  {
    assert NoDoubleSlash(s);
    CleanSegments(s);
  }

  lemma VuelosExtraWords(s: string)
    requires s == "/vuelos/42/extra"
    ensures Segments(s) == ["vuelos", "42", "extra"]
  {
    assert s == "/" + "vuelos" + "/" + ("42" + "/" + "extra");
    ThreeSegments("vuelos", "42", "extra");
  }

  /** The segments of `/w1/w2` for two slash-free, non-empty words. */
  lemma TwoSegments(w1: string, w2: string)
    requires w1 != [] && w2 != [] && '/' !in w1 && '/' !in w2
    ensures Segments("/" + w1 + "/" + w2) == [w1, w2]
  {
    SplitWord(w1, w2);
    SplitLast(w2);
    assert "/" + w1 + "/" + w2 == "/" + (w1 + "/" + w2);
    assert SplitSlash("/" + w1 + "/" + w2) == ["", w1, w2];
    assert NonEmpty([w2]) == [w2];
    assert NonEmpty([w1, w2]) == [w1] + NonEmpty([w2]);
    assert NonEmpty(["", w1, w2]) == NonEmpty([w1, w2]);
  }

  /** The segments of `/w1/w2/w3` for three slash-free, non-empty words. */
  lemma ThreeSegments(w1: string, w2: string, w3: string)
    requires w1 != [] && w2 != [] && w3 != [] && '/' !in w1 && '/' !in w2 && '/' !in w3
    ensures Segments("/" + w1 + "/" + (w2 + "/" + w3)) == [w1, w2, w3]
  {
    SplitWord(w1, w2 + "/" + w3);
    SplitWord(w2, w3);
    SplitLast(w3);
    assert SplitSlash(w1 + "/" + (w2 + "/" + w3)) == [w1, w2, w3];
    assert "/" + w1 + "/" + (w2 + "/" + w3) == "/" + (w1 + "/" + (w2 + "/" + w3));
    assert SplitSlash("/" + w1 + "/" + (w2 + "/" + w3)) == ["", w1, w2, w3];
    assert NonEmpty([w3]) == [w3];
    assert NonEmpty([w2, w3]) == [w2] + NonEmpty([w3]);
    assert NonEmpty([w1, w2, w3]) == [w1] + NonEmpty([w2, w3]);
    assert NonEmpty(["", w1, w2, w3]) == NonEmpty([w1, w2, w3]);
  }

  lemma {:induction false} SplitWord(w: string, rest: string)
    requires '/' !in w
    ensures SplitSlash(w + "/" + rest) == [w] + SplitSlash(rest)
  {
    if w != [] {
      assert (w + "/" + rest)[1..] == w[1..] + "/" + rest;
      SplitWord(w[1..], rest);
      assert [w[0]] + w[1..] == w;
    }
  }

  lemma {:induction false} SplitLast(w: string)
    requires '/' !in w
    ensures SplitSlash(w) == [w]
  {
    if w != [] {
      SplitLast(w[1..]);
      assert [w[0]] + w[1..] == w;
    }
  }

  /** A clean path without a query and outside the alias table is its own
      normal form, so its segments are those of the text itself. */
  lemma CleanSegments(s: string)
    requires s != [] && s[0] == '/' && !JsWhitespace(s[|s| - 1]) && NoDoubleSlash(s)
    requires '?' !in s && Alias(s) == s
    ensures PathSegments(Some(s)) == Segments(s)
  {
    NormalizeClean(s);
  }

  /** The first `?` splits the text, so a path without one is recovered. */
  lemma {:induction false} SplitUnique(a: string, b: string)
    requires '?' !in a
    ensures SplitPathAndQuery(a + "?" + b) == (a, b)
  {
    if a != [] {
      assert (a + "?" + b)[1..] == a[1..] + "?" + b;
      SplitUnique(a[1..], b);
      assert [a[0]] + a[1..] == a;
    }
  }

  // ------------------------------------------------------- the store

  /** The parts of the browser's location that the router reads. */
  datatype Url = Url(pathname: string, search: string, hash: string)

  /** The position of the first `c` in `s`, or `|s|`. */
  function FirstOf(s: string, c: char): (r: nat)
    ensures r <= |s|
    ensures forall k :: 0 <= k < r ==> s[k] != c
    ensures r < |s| ==> s[r] == c
  {
    if s == [] || s[0] == c then 0 else 1 + FirstOf(s[1..], c)
  }

  /** The location reached through `pushState` or `replaceState` with a
      path-absolute URL: the pathname runs to the first `?` or `#`, the search
      from that `?` to the first `#`, and the hash is the rest. */
  function ParseUrl(s: string): (u: Url)
    ensures u.pathname + u.search + u.hash == s
    ensures '?' !in u.pathname && '#' !in u.pathname
    ensures u.search == [] || (u.search[0] == '?' && '#' !in u.search)
    ensures u.hash == [] || u.hash[0] == '#'
    ensures s != [] && s[0] == '/' ==> StartsWith(u.pathname, "/")
  {
    var h := FirstOf(s, '#');
    var before := s[..h];
    var q := FirstOf(before, '?');
    assert before[..q] + before[q..] + s[h..] == s;
    Url(before[..q], before[q..], s[h..])
  }

  /** A target without `?` or `#` is all pathname. */
  lemma ParsePlainPath(s: string)
    requires '?' !in s && '#' !in s
    ensures ParseUrl(s) == Url(s, "", "")
  {
  }

  /** The start-up migration and the `hashchange` listener: a `#/route` hash
      is replaced by the location of the normalised route; any other location
      stays as it is. */
  function Migrated(loc: Url): (r: Url)
    ensures !StartsWith(loc.hash, "#/") ==> r == loc
    ensures StartsWith(loc.hash, "#/") ==>
      r.pathname + r.search + r.hash == Normalize(Some(loc.hash[1..])) && StartsWith(r.pathname, "/")
  {
    if StartsWith(loc.hash, "#/") then ParseUrl(Normalize(Some(loc.hash[1..]))) else loc
  }

  /** The `path` store and the browser location it mirrors. */
  class Navigation {
    var path: string
    var location: Url

    /** `apply` has run: the store holds the normalised pathname. */
    predicate Valid()
      reads this
    {
      path == Normalize(Some(location.pathname))
    }

    /** Loading the module: a `#/route` hash is migrated first, then the store
        takes the normalised pathname. */
    constructor (initial: Url)
      ensures location == Migrated(initial)
      ensures Valid()
    {
      location := Migrated(initial);
      path := Normalize(Some(Migrated(initial).pathname));
    }

    /** `navigate(to)` followed by the queued `apply`: the location is rewritten
        only when the normalised target differs from the normalised pathname,
        and the store then holds the normalised pathname, which is the target
        itself whenever the target has no query and no fragment. */
    method Navigate(to: string)
      modifies this
      ensures var next := Normalize(Some(to));
              location == if next != Normalize(Some(old(location).pathname))
                          then ParseUrl(next) else old(location)
      ensures Valid()
      ensures '?' !in Normalize(Some(to)) && '#' !in Normalize(Some(to)) ==> path == Normalize(Some(to))
    {
      var next := Normalize(Some(to));
      var curr := Normalize(Some(location.pathname));
      if next != curr {
        location := ParseUrl(next);  // `pushState` or, with `replace`, `replaceState`
        if '?' !in next && '#' !in next {
          ParsePlainPath(next);
          NormalizeIdempotent(Some(to));
        }
      } else {
        path := next;
      }
      Apply();  // queued as a microtask
    }

    /** `apply`, run on `popstate`, on `load` and after every navigation: the
        store takes the browser's normalised pathname. */
    method Apply()
      modifies this
      ensures location == old(location) && Valid()
    {
      path := Normalize(Some(location.pathname));
    }

    /** The `popstate` listener: the browser moved to another history entry. */
    method PopState(entry: Url)
      modifies this
      ensures location == entry && Valid()
    {
      location := entry;
      Apply();
    }

    /** The `hashchange` listener, after the browser's hash became `hash`: a
        `#/route` hash is migrated and the store follows; with any other hash
        the store is left alone. */
    method HashChange(hash: string)
      modifies this
      ensures location == Migrated(old(location).(hash := hash))
      ensures StartsWith(hash, "#/") ==> Valid()
      ensures !StartsWith(hash, "#/") ==> path == old(path)
    {
      location := Migrated(location.(hash := hash));
      if StartsWith(hash, "#/") {
        Apply();
      }
    }
  }

  /** The store holds only the pathname: after `navigate("/vuelos?origen=GUA")`
      the location's pathname is "/vuelos", so the normalised target never equals
      the current path and every repeat of the same navigation rewrites the
      location again. */
  lemma QueryTargetRewritesAgain(to: string)
    requires to == "/vuelos?origen=GUA"
    ensures Normalize(Some(to)) == to
    ensures ParseUrl(to) == Url("/vuelos", "?origen=GUA", "")
    ensures Normalize(Some(ParseUrl(to).pathname)) == "/vuelos" != to
  {
    VuelosGuaFixed(to);
    VuelosGuaParts(to, to[..7], to[7..]);
    VuelosFixed(to[..7]);
  }

  lemma VuelosGuaFixed(s: string)
    requires s == "/vuelos?origen=GUA"
    ensures Normalize(Some(s)) == s
  {
    assert NoDoubleSlash(s);
    AliasLength(s);
    NormalizeClean(s);
  }

  lemma VuelosGuaParts(s: string, p: string, q: string)
    requires s == "/vuelos?origen=GUA" && p == s[..7] && q == s[7..]
    ensures p == "/vuelos" && q == "?origen=GUA"
    ensures ParseUrl(s) == Url(p, q, "")
  {
    assert s == p + q;
    ParseQuery(p, q);
  }

  lemma VuelosFixed(s: string)
    requires s == "/vuelos"
    ensures Normalize(Some(s)) == s
  {
    assert NoDoubleSlash(s);
    AliasLength(s);
    NormalizeClean(s);
  }

  /** A path followed by a query without a fragment parses into those two parts. */
  lemma ParseQuery(p: string, q: string)
    requires '?' !in p && '#' !in p && q != [] && q[0] == '?' && '#' !in q
    ensures ParseUrl(p + q) == Url(p, q, "")
  {
    var u := ParseUrl(p + q);
    assert '#' !in p + q;
    assert (p + q)[|p|] == '?';
    assert u.pathname == (p + q)[..|u.pathname|];
  }

  /** A `#/route?query` hash keeps its query in the location and only the route
      in the store. */
  lemma HashWithQueryMigrates(loc: Url)
    requires loc.hash == "#/a?b=1"
    ensures Migrated(loc) == Url("/a", "?b=1", "")
    ensures Normalize(Some(Migrated(loc).pathname)) == "/a"
  {
    assert StartsWith(loc.hash, "#/") by { assert loc.hash[..2] == "#/"; }
    HashRouteParts(loc.hash[1..], loc.hash[1..][..2], loc.hash[1..][2..]);
    RouteAFixed(loc.hash[1..][..2]);
  }

  lemma HashRouteParts(t: string, p: string, q: string)
    requires t == "/a?b=1" && p == t[..2] && q == t[2..]
    ensures p == "/a" && q == "?b=1"
    ensures ParseUrl(Normalize(Some(t))) == Url(p, q, "")
  {
    assert p == "/a" && q == "?b=1";
    assert NoDoubleSlash(t);
    AliasLength(t);
    CleanPathQuery(t, p, q);
  }

  lemma RouteAFixed(s: string)
    requires s == "/a"
    ensures Normalize(Some(s)) == s
  {
    assert NoDoubleSlash(s);
    AliasLength(s);
    NormalizeClean(s);
  }

  /** A clean path with a query and no fragment migrates to those two parts. */
  lemma CleanPathQuery(t: string, p: string, q: string)
    requires t != [] && t[0] == '/' && !JsWhitespace(t[|t| - 1]) && NoDoubleSlash(t) && Alias(t) == t
    requires t == p + q && '?' !in p && '#' !in p && q != [] && q[0] == '?' && '#' !in q
    ensures ParseUrl(Normalize(Some(t))) == Url(p, q, "")
  {
    NormalizeClean(t);
    ParseQuery(p, q);
  }

  // ------------------------------------------------------- link clicks

  datatype Click = Click(
    defaultPrevented: bool, button: int,
    metaKey: bool, ctrlKey: bool, shiftKey: bool, altKey: bool,
    onThisAnchor: bool,        // `e.target.closest("a") === node`
    href: Option<string>,      // the anchor's `href` attribute
    targetBlank: bool)         // `a.target === "_blank"`

  predicate IsExternal(href: string) {
    var h := LowerStr(href);
    StartsWith(h, "http://") || StartsWith(h, "https://")
  }

  /** The `link` action's click handler: the `href` it passes to `navigate`, or
      None when the click is left to the browser. */
  function OnLinkClick(e: Click): (r: Option<string>)
    ensures r.Some? ==> r == e.href && r.value != ""
    ensures r.Some? ==> !e.defaultPrevented && e.button == 0 && !e.targetBlank
    ensures r.Some? ==> !IsExternal(r.value) && !StartsWith(r.value, "#")
  {
    if e.defaultPrevented || e.button != 0 then None
    else if e.metaKey || e.ctrlKey || e.shiftKey || e.altKey then None
    else if !e.onThisAnchor then None
    else if e.href.None? || e.href.value == "" then None
    else if e.targetBlank then None
    else if StartsWith(e.href.value, "mailto:") || StartsWith(e.href.value, "tel:") then None
    else if IsExternal(e.href.value) then None
    else if StartsWith(e.href.value, "#") then None
    else e.href
  }

  /** A click is taken over exactly when it is a plain primary click on this
      anchor with an in-app `href`, and it then navigates to that `href`, which
      normalises to a path starting with `/`. */
  lemma LinkIntercepts(e: Click)
    ensures OnLinkClick(e).Some? <==>
      && !e.defaultPrevented && e.button == 0
      && !(e.metaKey || e.ctrlKey || e.shiftKey || e.altKey)
      && e.onThisAnchor && e.href.Some? && e.href.value != "" && !e.targetBlank
      && !StartsWith(e.href.value, "mailto:") && !StartsWith(e.href.value, "tel:")
      && !IsExternal(e.href.value) && !StartsWith(e.href.value, "#")
    ensures OnLinkClick(e).Some? ==> OnLinkClick(e) == e.href
    ensures OnLinkClick(e).Some? ==> StartsWith(Normalize(OnLinkClick(e)), "/")
  {
    if OnLinkClick(e).Some? {
      var n := Normalize(OnLinkClick(e));
      assert n[..1] == "/";
    }
  }

  /** Upper- or mixed-case schemes count as external too. */
  lemma MixedCaseSchemeIsExternal()
    ensures IsExternal("HtTp://")
  {
    var h := LowerStr("HtTp://");
    assert h[0] == 'h' && h[1] == 't' && h[2] == 't' && h[3] == 'p';
    assert h[..7] == "http://";
  }
}

=== FILE: seqs.dfy ===
/** Sequence helpers shared by the models. */
module Seqs {

  /** The elements that `keep` accepts, in their original order: what a
      `filter` call, a `WHERE` clause over an ordered table or a list
      comprehension with a condition returns. */
  function Filter<T>(s: seq<T>, keep: T -> bool): (r: seq<T>)
    ensures |r| <= |s|
    ensures forall i :: 0 <= i < |r| ==> keep(r[i])
    ensures (forall i :: 0 <= i < |s| ==> keep(s[i])) ==> r == s
  {
    if s == [] then []
    else (if keep(s[0]) then [s[0]] else []) + Filter(s[1..], keep)
  }

  /** A string JavaScript reads as true, as `filter(Boolean)` keeps it: not empty. */
  predicate Filled(s: string) { s != [] }

  /** Filtering distributes over concatenation, so the kept elements of a
      prefix come before those of the rest. */
  lemma {:induction false} FilterAppend<T>(a: seq<T>, b: seq<T>, keep: T -> bool)
    ensures Filter(a + b, keep) == Filter(a, keep) + Filter(b, keep)
  {
    if a == [] {
      assert a + b == b;
    } else {
      assert (a + b)[0] == a[0];
      assert (a + b)[1..] == a[1..] + b;
      FilterAppend(a[1..], b, keep);
    }
  }

  /** An element survives the filter exactly when it is present and accepted. */
  lemma {:induction false} FilterMembers<T>(s: seq<T>, keep: T -> bool, x: T)
    ensures x in Filter(s, keep) <==> x in s && keep(x)
  {
    if s != [] {
      FilterMembers(s[1..], keep, x);
      assert x in s <==> x == s[0] || x in s[1..];
    }
  }
}

=== FILE: text.dfy ===
/** Character classes and string helpers shared by the models. Each runtime's
    notion of "whitespace" is written out separately, because Java's `trim`,
    Java's `isBlank`, JavaScript's `trim` and Python's `strip` disagree. */
module Text {

  // ---------------------------------------------------------------- ASCII

  predicate IsDigit(c: char) { '0' <= c <= '9' }
  predicate IsUpper(c: char) { 'A' <= c <= 'Z' }
  predicate IsLower(c: char) { 'a' <= c <= 'z' }
  predicate IsLetter(c: char) { IsUpper(c) || IsLower(c) }

  /** ASCII lower-casing; every other character is left alone. */
  function Lower(c: char): (r: char)
    ensures !IsUpper(r)
    ensures IsUpper(c) || r == c
  {
    if IsUpper(c) then (c as int + 32) as char else c
  }

  function Upper(c: char): (r: char)
    ensures !IsLower(r)
    ensures IsLower(c) || r == c
  {
    if IsLower(c) then (c as int - 32) as char else c
  }

  function LowerStr(s: string): (r: string)
    ensures |r| == |s|
    ensures forall i :: 0 <= i < |s| ==> r[i] == Lower(s[i])
  {
    if s == [] then [] else [Lower(s[0])] + LowerStr(s[1..])
  }

  function UpperStr(s: string): (r: string)
    ensures |r| == |s|
    ensures forall i :: 0 <= i < |s| ==> r[i] == Upper(s[i])
  {
    if s == [] then [] else [Upper(s[0])] + UpperStr(s[1..])
  }

  function DigitValue(c: char): (d: nat)
    requires IsDigit(c)
    ensures d < 10
  {
    c as int - '0' as int
  }

  // ----------------------------------------------------------- whitespace

  /** Java's `String.trim()` strips every char whose code is at most U+0020. */
  predicate JavaTrimmable(c: char) { c as int <= 0x20 }

  /** Java's `Character.isWhitespace`, used by `String.isBlank()`. */
  predicate JavaWhitespace(c: char) {
    var n := c as int;
    (9 <= n <= 13) || (0x1C <= n <= 0x20) || n == 0x1680 || (0x2000 <= n <= 0x2006)
    || (0x2008 <= n <= 0x200A) || n == 0x2028 || n == 0x2029 || n == 0x205F || n == 0x3000
  }

  /** The white space and line terminators that JavaScript's `trim` and `\s` match. */
  predicate JsWhitespace(c: char) {
    var n := c as int;
    (9 <= n <= 13) || n == 0x20 || n == 0xA0 || n == 0x1680 || (0x2000 <= n <= 0x200A)
    || n == 0x2028 || n == 0x2029 || n == 0x202F || n == 0x205F || n == 0x3000 || n == 0xFEFF
  }

  /** Python's `str.isspace`, used by `str.strip()` with no argument. */
  predicate PyWhitespace(c: char) {
    var n := c as int;
    (9 <= n <= 13) || (0x1C <= n <= 0x20) || n == 0x85 || n == 0xA0 || n == 0x1680
    || (0x2000 <= n <= 0x200A) || n == 0x2028 || n == 0x2029 || n == 0x202F || n == 0x205F
    || n == 0x3000
  }

  /** Which runtime's white space a trim strips. */
  datatype Space = JavaTrimSpace | JsSpace | PySpace

  predicate IsSpace(k: Space, c: char) {
    match k
    case JavaTrimSpace => JavaTrimmable(c)
    case JsSpace => JsWhitespace(c)
    case PySpace => PyWhitespace(c)
  }

  /** Drops the leading white space. */
  function TrimStart(s: string, k: Space): (r: string)
    ensures |r| <= |s| && r == s[|s| - |r|..]
    ensures r == [] || !IsSpace(k, r[0])
  {
    if s != [] && IsSpace(k, s[0]) then TrimStart(s[1..], k) else s
  }

  /** Drops the trailing white space. */
  function TrimEnd(s: string, k: Space): (r: string)
    ensures |r| <= |s| && r == s[..|r|]
    ensures r == [] || !IsSpace(k, r[|r| - 1])
  {
    if s != [] && IsSpace(k, s[|s| - 1]) then TrimEnd(s[..|s| - 1], k) else s
  }

  /** `trim`/`strip`: the string without its leading and trailing white space. */
  function Trim(s: string, k: Space): (r: string)
    ensures |r| <= |s|
    ensures r == [] || (!IsSpace(k, r[0]) && !IsSpace(k, r[|r| - 1]))
  {
    TrimEnd(TrimStart(s, k), k)
  }

  /** Only white space is dropped from the front. */
  lemma {:induction false} TrimStartDropsSpace(s: string, k: Space)
    ensures forall i :: 0 <= i < |s| - |TrimStart(s, k)| ==> IsSpace(k, s[i])
  {
    if s != [] && IsSpace(k, s[0]) {
      TrimStartDropsSpace(s[1..], k);
      forall i | 0 < i < |s| - |TrimStart(s, k)| ensures IsSpace(k, s[i]) {
        assert s[i] == s[1..][i - 1];
      }
    }
  }

  /** Only white space is dropped from the back. */
  lemma {:induction false} TrimEndDropsSpace(s: string, k: Space)
    ensures forall i :: |TrimEnd(s, k)| <= i < |s| ==> IsSpace(k, s[i])
  {
    if s != [] && IsSpace(k, s[|s| - 1]) {
      TrimEndDropsSpace(s[..|s| - 1], k);
      forall i | |TrimEnd(s, k)| <= i < |s| - 1 ensures IsSpace(k, s[i]) {
        assert s[i] == s[..|s| - 1][i];
      }
    }
  }

  /** A string trims to nothing exactly when it is all white space. */
  lemma TrimEmptyIff(s: string, k: Space)
    ensures Trim(s, k) == [] <==> forall i :: 0 <= i < |s| ==> IsSpace(k, s[i])
  {
    var a := TrimStart(s, k);
    TrimStartDropsSpace(s, k);
    TrimEndDropsSpace(a, k);
  }

  /** A string that starts and ends with non-space characters is its own trim. */
  lemma TrimNoOp(s: string, k: Space)
    requires s != [] && !IsSpace(k, s[0]) && !IsSpace(k, s[|s| - 1])
    ensures Trim(s, k) == s
  {
  }

  /** Lower-casing after upper-casing is plain lower-casing. */
  lemma LowerUpper(s: string)
    ensures LowerStr(UpperStr(s)) == LowerStr(s)
  {
  }

  /** Upper-casing commutes with trimming: letters are never white space. */
  lemma {:induction false} UpperTrim(s: string, k: Space)
    ensures Trim(UpperStr(s), k) == UpperStr(Trim(s, k))
  {
    UpperTrimStart(s, k);
    UpperTrimEnd(TrimStart(s, k), k);
  }

  /** Upper-casing never makes or unmakes white space. */
  lemma UpperSpace(c: char, k: Space)
    ensures IsSpace(k, Upper(c)) == IsSpace(k, c)
  {
  }

  lemma {:induction false} UpperTrimStart(s: string, k: Space)
    ensures TrimStart(UpperStr(s), k) == UpperStr(TrimStart(s, k))
  {
    if s != [] {
      UpperSpace(s[0], k);
      var u := UpperStr(s);
      assert u[0] == Upper(s[0]);
      assert u[1..] == UpperStr(s[1..]);
      UpperTrimStart(s[1..], k);
    }
  }

  lemma {:induction false} UpperTrimEnd(s: string, k: Space)
    ensures TrimEnd(UpperStr(s), k) == UpperStr(TrimEnd(s, k))
  {
    if s != [] {
      UpperSpace(s[|s| - 1], k);
      var u := UpperStr(s);
      assert u[|s| - 1] == Upper(s[|s| - 1]);
      assert u[..|s| - 1] == UpperStr(s[..|s| - 1]);
      UpperTrimEnd(s[..|s| - 1], k);
    }
  }

  function JavaTrim(s: string): string { Trim(s, JavaTrimSpace) }
  function JsTrim(s: string): string { Trim(s, JsSpace) }
  function PyStrip(s: string): string { Trim(s, PySpace) }

  /** Java's `String.isBlank()`. */
  predicate JavaIsBlank(s: string) { forall i :: 0 <= i < |s| ==> JavaWhitespace(s[i]) }

  // ------------------------------------------------------------ searching

  predicate EndsWith(s: string, suffix: string) {
    |suffix| <= |s| && s[|s| - |suffix|..] == suffix
  }

  predicate StartsWith(s: string, prefix: string) {
    |prefix| <= |s| && s[..|prefix|] == prefix
  }

  /** JavaScript's `includes` / Python's `in` on strings. */
  predicate Contains(s: string, sub: string) {
    exists i :: 0 <= i <= |s| - |sub| && OccursAt(s, sub, i)
  }

  predicate OccursAt(s: string, sub: string, i: int) {
    0 <= i <= |s| - |sub| && s[i..i + |sub|] == sub
  }

  /** Joins strings with a separator, as JavaScript's `join` and Python's `str.join`. */
  function Join(parts: seq<string>, sep: string): string {
    if parts == [] then []
    else if |parts| == 1 then parts[0]
    else parts[0] + sep + Join(parts[1..], sep)
  }

  // ------------------------------------------------------------- numbers

  predicate AllDigits(s: string) { forall i :: 0 <= i < |s| ==> IsDigit(s[i]) }

  /** The number an all-digit string spells in base 10 (`parseInt`, `+s`). */
  function DecimalValue(s: string): (n: nat)
    requires AllDigits(s)
  {
    if s == [] then 0 else 10 * DecimalValue(s[..|s| - 1]) + DigitValue(s[|s| - 1])
  }

  /** Decimal digits of a natural number, without leading zeros ("0" for 0). */
  function NatToString(n: nat): (r: string)
    ensures |r| >= 1
    ensures forall i :: 0 <= i < |r| ==> IsDigit(r[i])
  {
    if n < 10 then [('0' as int + n) as char]
    else NatToString(n / 10) + [('0' as int + n % 10) as char]
  }

  /** Python's `str(int)`. */
  function IntToString(n: int): string {
    if n < 0 then "-" + NatToString(-n) else NatToString(n)
  }

  /** Python's `format(n, "0<w>d")`: the sign, then digits zero-padded so that
      the whole is at least `w` characters. */
  function ZeroPadInt(n: int, w: nat): (r: string)
    ensures |r| >= w
  {
    var sign := if n < 0 then "-" else "";
    var digits := NatToString(if n < 0 then -n else n);
    var pad := if |sign| + |digits| < w then w - |sign| - |digits| else 0;
    sign + seq(pad, _ => '0') + digits
  }
}

=== FILE: tips.dfy ===
/** `TipDAO`: the travel tips, shown in ORDEN order. Creating, editing and
    deleting a tip renumber the other tips so that the positions stay 1..n. */
module Tips {
  import opened Wrappers
  import opened OrdenTable

  datatype TipData = TipData(titulo: string, descripcion: string)

  /** `TipDTO.Upsert`: the requested columns; `orden` may be null. */
  datatype Upsert = Upsert(titulo: string, descripcion: string, orden: Option<int>)

  /** What `eliminar` reads as the deleted tip's ORDEN: nothing when there is
      no such tip, and `getInt`'s value otherwise, where a NULL reads as 0. */
  function DeletedOrden(s: seq<Row<TipData>>, id: int): (o: Option<int>)
    ensures !HasId(s, id) ==> o.None?
    ensures HasId(s, id) ==> o == Some(s[IndexOf(s, id)].orden.GetOr(0))
  {
    var k := IndexOf(s, id);
    if k == -1 then None else Some(s[k].orden.GetOr(0))
  }

  /** The TIPS table and its identity column. */
  class TipDAO {
    var rows: array<Row<TipData>>
    var nextId: int

    ghost predicate Valid()
      reads this, rows
    {
      Keys(rows[..], nextId)
    }

    constructor ()
      ensures Valid() && rows[..] == [] && fresh(rows)
    {
      rows := new Row<TipData>[0];
      nextId := 1;
    }

    /** `crear`: the tip goes to the requested position clamped to 1..max+1,
        the tips from there on move down one place, and the new key is returned. */
    method Crear(dto: Upsert) returns (id: int)
      requires Valid()
      modifies this, rows
      ensures Valid() && fresh(rows)
      ensures !HasId(old(rows[..]), id)
      ensures id == old(nextId) && nextId == old(nextId) + 1
      ensures rows[..] == AfterCreate(old(rows[..]), dto.orden, id, TipData(dto.titulo, dto.descripcion))
    {
      var maxOrden := NvlMax(rows[..]);
      var nuevo := InsertPosition(dto.orden, maxOrden);
      if nuevo <= maxOrden {
        ShiftOrden(rows, AtLeast(nuevo), 1);
      }
      id := nextId;
      rows := Appended(rows, Row(id, Some(nuevo), TipData(dto.titulo, dto.descripcion)));
      nextId := nextId + 1;
      CreateKeepsKeys(old(rows[..]), dto.orden, id, TipData(dto.titulo, dto.descripcion));
    }

    /** `actualizar`: a missing tip fails with "Tip no encontrado" and changes
        nothing; otherwise the tip moves to the requested position clamped to
        1..max (kept when none is requested) and the tips in between shift. */
    method Actualizar(idTip: int, dto: Upsert) returns (r: Outcome)
      requires Valid()
      modifies rows
      ensures Valid()
      ensures !HasId(old(rows[..]), idTip) ==> r == Fail("Tip no encontrado") && rows[..] == old(rows[..])
      ensures HasId(old(rows[..]), idTip) ==>
        && r == Pass
        && rows[..] == AfterMove(old(rows[..]), IndexOf(old(rows[..]), idTip), dto.orden,
                                 TipData(dto.titulo, dto.descripcion))
    {
      var i := FindRow(rows, idTip);
      if i < 0 {
        return Fail("Tip no encontrado");
      }
      var actual := rows[i].orden.GetOr(0);
      var maxOrden := NvlMax(rows[..]);
      var nuevo := TargetPosition(dto.orden, actual, maxOrden);
      if nuevo < actual {
        ShiftOrden(rows, FromUntil(nuevo, actual, idTip), 1);
      } else if nuevo > actual {
        ShiftOrden(rows, AfterUpTo(actual, nuevo, idTip), -1);
      }
      rows[i] := Row(idTip, Some(nuevo), TipData(dto.titulo, dto.descripcion));
      r := Pass;
      MoveKeepsKeys(old(rows[..]), i, dto.orden, TipData(dto.titulo, dto.descripcion), nextId);
    }

    /** `eliminar`: the tip is deleted (a missing one is not an error) and the
        tips after it move up one place. */
    method Eliminar(idTip: int)
      requires Valid()
      modifies this
      ensures Valid() && fresh(rows)
      ensures nextId == old(nextId)
      ensures rows[..] == AfterDelete(old(rows[..]), idTip, DeletedOrden(old(rows[..]), idTip))
    {
      var i := FindRow(rows, idTip);
      var orden: Option<int> := if i >= 0 then Some(rows[i].orden.GetOr(0)) else None;
      rows := Deleted(rows, idTip);
      if orden.Some? {
        ShiftOrden(rows, Above(orden.value), -1);
      }
      DeleteKeepsKeys(old(rows[..]), idTip, orden, nextId);
    }
  }

  /** Creating, editing and deleting tips keeps the positions exactly 1..n. */
  lemma TipOperationsKeepDense(s: seq<Row<TipData>>, dto: Upsert, id: int)
    requires Dense(s) && UniqueIds(s)
    ensures Dense(AfterCreate(s, dto.orden, id, TipData(dto.titulo, dto.descripcion)))
    ensures HasId(s, id) ==>
      Dense(AfterMove(s, IndexOf(s, id), dto.orden, TipData(dto.titulo, dto.descripcion)))
    ensures Dense(AfterDelete(s, id, DeletedOrden(s, id)))
  {
    CreateKeepsDense(s, dto.orden, id, TipData(dto.titulo, dto.descripcion));
    if HasId(s, id) {
      var i := IndexOf(s, id);
      MoveKeepsDense(s, i, dto.orden, TipData(dto.titulo, dto.descripcion));
      assert InRange(s[i], |s|);
      DeleteKeepsDense(s, i);
    } else {
      assert AfterDelete(s, id, DeletedOrden(s, id)) == s;
    }
  }
}

=== FILE: vuelo_dao.dfy ===
/** `VueloDAO`: round-trip pairing of flights, the flight state machine
    (CANCELADO is final), the checks for chaining two flights as a stopover,
    and the grouping of the public flight list by flight. */
module Vuelos {
  import opened Wrappers
  import opened Text

  /** `EstadosVuelo`: the two states a flight can be set to. */
  const PROGRAMADO := 1
  const CANCELADO := 2

  predicate ValidEstado(e: int) { e == PROGRAMADO || e == CANCELADO }

  /** A VUELO row with its route's city names; times are timestamps. ACTIVO
      and ID_VUELO_PAREJA may be NULL. */
  datatype Flight = Flight(estado: int, activo: Option<int>, pareja: Option<int>,
                           origen: string, destino: string, salida: int, llegada: int)

  /** A VUELO_MOTIVO row. */
  datatype Motivo = Motivo(vuelo: int, tipo: string, texto: string)

  // --------------------------------------------------------------- pairing

  /** Some flight other than `except` has `target` as its return flight. */
  predicate PointedBy(vuelos: map<int, Flight>, target: int, except: int) {
    exists id :: id in vuelos && id != except && vuelos[id].pareja == Some(target)
  }

  /** The pairing is well formed: every pair points at an existing other
      flight, and no flight is the return flight of two flights. */
  predicate WellPaired(vuelos: map<int, Flight>) {
    && (forall id :: id in vuelos && vuelos[id].pareja.Some? ==>
          vuelos[id].pareja.value in vuelos && vuelos[id].pareja.value != id)
    && (forall a, b :: a in vuelos && b in vuelos && a != b && vuelos[a].pareja.Some? ==>
          vuelos[a].pareja != vuelos[b].pareja)
  }

  /** The two UPDATEs of `vincularPareja`: the return flight loses its own
      pair, then the outbound flight points at it. */
  function Linked(vuelos: map<int, Flight>, ida: int, regreso: int): (t: map<int, Flight>)
    requires ida in vuelos && regreso in vuelos
    ensures t.Keys == vuelos.Keys && t[ida].pareja == Some(regreso)
    ensures forall k :: k in vuelos ==> t[k] == vuelos[k].(pareja := t[k].pareja)
  {
    var t := vuelos[regreso := vuelos[regreso].(pareja := None)];
    t[ida := t[ida].(pareja := Some(regreso))]
  }

  /** The two UPDATEs of `desvincularPareja`: the flight's own pair and every
      pair pointing at it are cleared. */
  function Unlinked(vuelos: map<int, Flight>, id: int): (t: map<int, Flight>)
    ensures t.Keys == vuelos.Keys
  {
    map k | k in vuelos :: if k == id || vuelos[k].pareja == Some(id) then vuelos[k].(pareja := None) else vuelos[k]
  }

  /** `vincularPareja`'s checks, in order. */
  function LinkCheck(vuelos: map<int, Flight>, ida: int, regreso: int): (r: Outcome)
    ensures r.Pass? <==>
      ida > 0 && regreso > 0 && ida != regreso && ida in vuelos && regreso in vuelos && !PointedBy(vuelos, regreso, ida)
  {
    if ida <= 0 || regreso <= 0 then Fail("IDs de vuelo inválidos")
    else if ida == regreso then Fail("Un vuelo no puede ser pareja de sí mismo")
    else if ida !in vuelos then Fail("Vuelo ida no existe: " + IntToString(ida))
    else if regreso !in vuelos then Fail("Vuelo regreso no existe: " + IntToString(regreso))
    else if PointedBy(vuelos, regreso, ida) then
      Fail("El vuelo de regreso " + IntToString(regreso) + " ya está enlazado por otra ida.")
    else Pass
  }

  /** After linking, the outbound flight points at the return flight, the
      return flight has no pair, and the other flights are untouched. */
  lemma LinkedShape(vuelos: map<int, Flight>, ida: int, regreso: int)
    requires LinkCheck(vuelos, ida, regreso).Pass?
    ensures var t := Linked(vuelos, ida, regreso);
      && t.Keys == vuelos.Keys
      && t[ida].pareja == Some(regreso) && t[regreso].pareja.None?
      && (forall k :: k in vuelos && k != ida && k != regreso ==> t[k] == vuelos[k])
  {
  }

  /** Linking keeps the pairing well formed. */
  lemma LinkKeepsWellPaired(vuelos: map<int, Flight>, ida: int, regreso: int)
    requires WellPaired(vuelos) && LinkCheck(vuelos, ida, regreso).Pass?
    ensures WellPaired(Linked(vuelos, ida, regreso))
  {
    var t := Linked(vuelos, ida, regreso);
    forall a, b | a in t && b in t && a != b && t[a].pareja.Some? ensures t[a].pareja != t[b].pareja {
      if a == ida && b != regreso {
        assert t[b] == vuelos[b];
      } else if b == ida && a != regreso {
        assert t[a] == vuelos[a];
      }
    }
  }

  /** After unlinking, the flight has no pair, no flight points at it, and
      every other pair is as before. */
  lemma UnlinkedShape(vuelos: map<int, Flight>, id: int)
    requires id in vuelos
    ensures var t := Unlinked(vuelos, id);
      && t[id].pareja.None?
      && (forall k :: k in t ==> t[k].pareja != Some(id))
      && (forall k :: k in t && k != id && vuelos[k].pareja != Some(id) ==> t[k] == vuelos[k])
  {
  }

  /** Unlinking keeps the pairing well formed. */
  lemma UnlinkKeepsWellPaired(vuelos: map<int, Flight>, id: int)
    requires WellPaired(vuelos)
    ensures WellPaired(Unlinked(vuelos, id))
  {
    var t := Unlinked(vuelos, id);
    forall a, b | a in t && b in t && a != b && t[a].pareja.Some? ensures t[a].pareja != t[b].pareja {
      assert t[a].pareja == vuelos[a].pareja;
    }
  }

  // ---------------------------------------------------------------- states

  /** `actualizarEstado`'s checks, in order. */
  function EstadoCheck(vuelos: map<int, Flight>, id: int, idEstado: int, motivo: Option<string>): (r: Outcome)
    ensures r.Pass? <==>
      && ValidEstado(idEstado) && id in vuelos
      && (vuelos[id].estado == CANCELADO ==> idEstado == CANCELADO)
      && (idEstado == CANCELADO ==> motivo.Some? && !JavaIsBlank(motivo.value))
  {
    if !ValidEstado(idEstado) then Fail("Estado inválido: " + IntToString(idEstado))
    else if id !in vuelos then Fail("Vuelo no existe: " + IntToString(id))
    else if vuelos[id].estado == CANCELADO && idEstado != CANCELADO then
      Fail("El vuelo ya está cancelado; no se permite cambiar a otro estado.")
    else if idEstado == CANCELADO && (motivo.None? || JavaIsBlank(motivo.value)) then
      Fail("Debe proporcionar el motivo de cancelación.")
    else Pass
  }

  /** A motivo with a character above U+0020 is stored non-empty. */
  lemma StoredMotivoNotEmpty(m: string, i: nat)
    requires i < |m| && m[i] as int > 0x20
    ensures JavaTrim(m) != []
  {
    TrimEmptyIff(m, JavaTrimSpace);
  }

  // -------------------------------------------------------------- stopover

  /** A state name that mentions "cancelado" in any letter case. */
  predicate NamesCancelled(nombre: string) {
    Contains(LowerStr(nombre), "cancelado")
  }

  /** The flight is present with a known state, active (a NULL ACTIVO
      reads as 0) and its state's name does not contain "cancelado" in any
      letter case. */
  predicate Usable(vuelos: map<int, Flight>, estados: map<int, string>, id: int) {
    && id in vuelos && vuelos[id].estado in estados
    && vuelos[id].activo == Some(1)
    && !NamesCancelled(estados[vuelos[id].estado])
  }

  /** Two flights can be chained as a stopover: positive distinct ids, both
      usable, and the first lands where the second departs, no later than it
      departs. */
  predicate Chainable(vuelos: map<int, Flight>, estados: map<int, string>, id1: int, id2: int) {
    && id1 > 0 && id2 > 0 && id1 != id2
    && Usable(vuelos, estados, id1) && Usable(vuelos, estados, id2)
    && vuelos[id1].destino == vuelos[id2].origen
    && vuelos[id1].llegada <= vuelos[id2].salida
  }

  /** `validarCompatibilidadEscala`'s checks, in order. */
  function EscalaCheck(vuelos: map<int, Flight>, estados: map<int, string>, id1: int, id2: int): (r: Outcome)
    ensures r.Pass? <==> Chainable(vuelos, estados, id1, id2)
  {
    if id1 <= 0 || id2 <= 0 then Fail("IDs de vuelo inválidos")
    else if id1 == id2 then Fail("Un vuelo no puede ser escala de sí mismo")
    else if id1 !in vuelos || id2 !in vuelos || vuelos[id1].estado !in estados || vuelos[id2].estado !in estados then
      Fail("Uno o ambos vuelos no existen")
    else SegmentsCheck(vuelos[id1], vuelos[id2], estados[vuelos[id1].estado], estados[vuelos[id2].estado])
  }

  /** The checks on the two flights themselves, once both are found. */
  function SegmentsCheck(v1: Flight, v2: Flight, nombre1: string, nombre2: string): (r: Outcome)
    ensures r.Pass? <==>
      && v1.activo == Some(1) && v2.activo == Some(1)
      && !NamesCancelled(nombre1) && !NamesCancelled(nombre2)
      && v1.destino == v2.origen && v1.llegada <= v2.salida
  {
    if v1.activo.GetOr(0) != 1 || v2.activo.GetOr(0) != 1 then Fail("Ambos vuelos deben estar activos")
    else if NamesCancelled(nombre1) || NamesCancelled(nombre2) then Fail("Los vuelos no pueden estar cancelados")
    else if v1.destino != v2.origen then Fail("El destino del primer vuelo debe ser el origen del segundo vuelo")
    else if v1.llegada > v2.salida then
      Fail("La llegada del primer vuelo debe ser antes o igual a la salida del segundo vuelo")
    else Pass
  }

  // --------------------------------------------------------------- the DAO

  /** The VUELO, ESTADOS and VUELO_MOTIVO tables. */
  class VueloDAO {
    var vuelos: map<int, Flight>
    var estados: map<int, string>
    var motivos: seq<Motivo>

    ghost predicate Valid()
      reads this
    {
      WellPaired(vuelos)
    }

    constructor (vs: map<int, Flight>, es: map<int, string>)
      requires WellPaired(vs)
      ensures Valid() && vuelos == vs && estados == es && motivos == []
    {
      vuelos := vs;
      estados := es;
      motivos := [];
    }

    /** `vincularPareja`: on success the outbound flight's pair is the return
        flight and the return flight has none; on failure nothing changes. */
    method VincularPareja(ida: int, regreso: int) returns (r: Outcome)
      requires Valid()
      modifies this
      ensures Valid() && estados == old(estados) && motivos == old(motivos)
      ensures r == LinkCheck(old(vuelos), ida, regreso)
      ensures r.Fail? ==> vuelos == old(vuelos)
      ensures r.Pass? ==> vuelos == Linked(old(vuelos), ida, regreso)
    {
      r := LinkCheck(vuelos, ida, regreso);
      if r.Fail? {
        return;
      }
      LinkKeepsWellPaired(vuelos, ida, regreso);
      vuelos := vuelos[regreso := vuelos[regreso].(pareja := None)];
      vuelos := vuelos[ida := vuelos[ida].(pareja := Some(regreso))];
    }

    /** `desvincularPareja`: a non-positive or unknown id is an error;
        otherwise the flight's pair and every pair pointing at it are cleared. */
    method DesvincularPareja(id: int) returns (r: Outcome)
      requires Valid()
      modifies this
      ensures Valid() && estados == old(estados) && motivos == old(motivos)
      ensures id <= 0 ==> r == Fail("ID de vuelo inválido") && vuelos == old(vuelos)
      ensures id > 0 && id !in old(vuelos) ==> r == Fail("Vuelo no encontrado: " + IntToString(id)) && vuelos == old(vuelos)
      ensures id > 0 && id in old(vuelos) ==> r == Pass && vuelos == Unlinked(old(vuelos), id)
    {
      if id <= 0 {
        return Fail("ID de vuelo inválido");
      }
      if id !in vuelos {
        return Fail("Vuelo no encontrado: " + IntToString(id));
      }
      UnlinkKeepsWellPaired(vuelos, id);
      vuelos := Unlinked(vuelos, id);
      r := Pass;
    }

    /** `actualizarEstado`: after the checks, the state changes (nothing is
        written when it is already the requested one) and a cancellation
        records its motivo, trimmed. A cancelled flight stays cancelled. */
    method ActualizarEstado(id: int, idEstado: int, motivo: Option<string>) returns (r: Outcome)
      requires Valid()
      modifies this
      ensures Valid() && estados == old(estados)
      ensures r == EstadoCheck(old(vuelos), id, idEstado, motivo)
      ensures r.Fail? || old(vuelos[id].estado) == idEstado ==> vuelos == old(vuelos) && motivos == old(motivos)
      ensures r.Pass? && old(vuelos[id].estado) != idEstado ==>
        vuelos == old(vuelos)[id := old(vuelos[id]).(estado := idEstado)]
      ensures r.Pass? && old(vuelos[id].estado) != idEstado && idEstado == CANCELADO ==>
        motivos == old(motivos) + [Motivo(id, "CANCELACION", JavaTrim(motivo.value))]
      ensures r.Pass? && old(vuelos[id].estado) != idEstado && idEstado != CANCELADO ==> motivos == old(motivos)
      ensures id in old(vuelos) && old(vuelos[id].estado) == CANCELADO ==> vuelos[id].estado == CANCELADO
    {
      r := EstadoCheck(vuelos, id, idEstado, motivo);
      if r.Fail? || vuelos[id].estado == idEstado {
        return;
      }
      vuelos := vuelos[id := vuelos[id].(estado := idEstado)];
      if idEstado == CANCELADO {
        motivos := motivos + [Motivo(id, "CANCELACION", JavaTrim(motivo.value))];
      }
    }
  }

  // --------------------------------------------------------- public listing

  /** `VueloDTO.ClaseConfig`. */
  datatype ClaseConfig = ClaseConfig(idClase: int, cupoTotal: int, precio: int)

  /** A row of the public listing query: a flight, one of its classes and
      the seats left in it (NULL when unknown). */
  datatype PublicRow = PublicRow(vuelo: int, clase: ClaseConfig, disponible: Option<int>)

  /** Rows with no seats left, or an unknown count, are skipped. */
  predicate Kept(r: PublicRow) { r.disponible.Some? && r.disponible.value > 0 }

  /** The flights of the kept rows, in the order they first appear. */
  function Order(rows: seq<PublicRow>): (o: seq<int>)
    ensures forall a, b :: 0 <= a < b < |o| ==> o[a] != o[b]
    ensures forall id :: id in o <==> exists j :: 0 <= j < |rows| && Kept(rows[j]) && rows[j].vuelo == id
  {
    if rows == [] then []
    else
      var init := rows[..|rows| - 1];
      var r := rows[|rows| - 1];
      var o := Order(init);
      assert forall j :: 0 <= j < |init| ==> init[j] == rows[j];
      if Kept(r) && r.vuelo !in o then o + [r.vuelo] else o
  }

  /** The classes of the kept rows of flight `id`, in row order. */
  function ClassesOf(rows: seq<PublicRow>, id: int): (cs: seq<ClaseConfig>)
    ensures |cs| <= |rows|
  {
    if rows == [] then []
    else
      var r := rows[|rows| - 1];
      ClassesOf(rows[..|rows| - 1], id) + (if Kept(r) && r.vuelo == id then [r.clase] else [])
  }

  /** The kept rows. */
  function KeptCount(rows: seq<PublicRow>): nat {
    if rows == [] then 0
    else KeptCount(rows[..|rows| - 1]) + (if Kept(rows[|rows| - 1]) then 1 else 0)
  }

  /** The classes listed under the flights `ids`. */
  function Listed(ids: seq<int>, rows: seq<PublicRow>): nat {
    if ids == [] then 0 else Listed(ids[..|ids| - 1], rows) + |ClassesOf(rows, ids[|ids| - 1])|
  }

  /** The LinkedHashMap `listarVuelosPublic` builds, row by row: a kept
      row's class is appended under its flight, which is added when new. */
  function Grouped(rows: seq<PublicRow>): map<int, seq<ClaseConfig>> {
    if rows == [] then map[]
    else
      var g := Grouped(rows[..|rows| - 1]);
      var r := rows[|rows| - 1];
      if !Kept(r) then g
      else g[r.vuelo := (if r.vuelo in g then g[r.vuelo] else []) + [r.clase]]
  }

  /** The grouping lists exactly the flights with a kept row, each with the
      classes of its kept rows in row order. */
  lemma {:induction false} GroupedMeaning(rows: seq<PublicRow>)
    ensures forall id :: id in Grouped(rows) <==> id in Order(rows)
    ensures forall id :: id in Grouped(rows) ==> Grouped(rows)[id] == ClassesOf(rows, id)
  {
    if rows != [] {
      var init := rows[..|rows| - 1];
      var r := rows[|rows| - 1];
      GroupedMeaning(init);
      if Kept(r) && r.vuelo !in Grouped(init) {
        NotListedNoClasses(init, r.vuelo);
      }
    }
  }

  /** The loop of `listarVuelosPublic` over the query's rows, filling a
      LinkedHashMap: `order` is its key order, `clases` its values. */
  method GroupPublic(rows: seq<PublicRow>) returns (order: seq<int>, clases: map<int, seq<ClaseConfig>>)
    ensures order == Order(rows) && clases == Grouped(rows)
  {
    order := [];
    clases := map[];
    var i := 0;
    while i < |rows|
      invariant 0 <= i <= |rows|
      invariant order == Order(rows[..i]) && clases == Grouped(rows[..i])
    {
      var r := rows[i];
      GroupedMeaning(rows[..i]);
      assert rows[..i + 1][..i] == rows[..i];
      assert Grouped(rows[..i + 1]) ==
        if !Kept(r) then clases else clases[r.vuelo := (if r.vuelo in clases then clases[r.vuelo] else []) + [r.clase]];
      if Kept(r) {
        if r.vuelo in clases {
          clases := clases[r.vuelo := clases[r.vuelo] + [r.clase]];
        } else {
          order := order + [r.vuelo];
          assert [] + [r.clase] == [r.clase];
          clases := clases[r.vuelo := [r.clase]];
        }
      }
      i := i + 1;
    }
    assert rows[..i] == rows;
  }

  /** Reading row `i` adds its class under its flight when it is kept. */
  lemma ClassesOfStep(rows: seq<PublicRow>, i: int, id: int)
    requires 0 <= i < |rows|
    ensures ClassesOf(rows[..i + 1], id) ==
            ClassesOf(rows[..i], id) + (if Kept(rows[i]) && rows[i].vuelo == id then [rows[i].clase] else [])
  {
    assert rows[..i + 1][..i] == rows[..i];
  }

  /** A flight that is not listed has no classes. */
  lemma {:induction false} NotListedNoClasses(rows: seq<PublicRow>, id: int)
    requires id !in Order(rows)
    ensures ClassesOf(rows, id) == []
  {
    if rows != [] {
      var init := rows[..|rows| - 1];
      assert forall j :: 0 <= j < |init| ==> init[j] == rows[j];
      NotListedNoClasses(init, id);
    }
  }

  /** One more kept row adds one class under its flight, if that flight is listed. */
  lemma {:induction false} ListedStep(ids: seq<int>, rows: seq<PublicRow>, r: PublicRow)
    requires Kept(r)
    requires forall a, b :: 0 <= a < b < |ids| ==> ids[a] != ids[b]
    ensures Listed(ids, rows + [r]) == Listed(ids, rows) + (if r.vuelo in ids then 1 else 0)
  {
    assert (rows + [r])[..|rows|] == rows;
    if ids != [] {
      var init := ids[..|ids| - 1];
      ListedStep(init, rows, r);
      assert r.vuelo in ids <==> r.vuelo in init || r.vuelo == ids[|ids| - 1];
    }
  }

  /** A skipped row changes no flight's classes. */
  lemma {:induction false} ListedSkip(ids: seq<int>, rows: seq<PublicRow>, r: PublicRow)
    requires !Kept(r)
    ensures Listed(ids, rows + [r]) == Listed(ids, rows)
  {
    assert (rows + [r])[..|rows|] == rows;
    if ids != [] {
      ListedSkip(ids[..|ids| - 1], rows, r);
    }
  }

  /** Every kept row appears exactly once in the grouped listing: the
      classes of all listed flights add up to the kept rows. */
  lemma {:induction false} GroupingConservesRows(rows: seq<PublicRow>)
    ensures Listed(Order(rows), rows) == KeptCount(rows)
  {
    if rows != [] {
      var init := rows[..|rows| - 1];
      var r := rows[|rows| - 1];
      assert rows == init + [r];
      GroupingConservesRows(init);
      var o := Order(init);
      if Kept(r) {
        ListedStep(o, init, r);
        if r.vuelo !in o {
          NotListedNoClasses(init, r.vuelo);
          assert (o + [r.vuelo])[..|o|] == o;
          assert ClassesOf(rows, r.vuelo) == [r.clase];
        }
      } else {
        ListedSkip(o, init, r);
      }
    }
  }
}

=== FILE: wrappers.dfy ===
/** Optional values (a SQL NULL, a JavaScript null/undefined, a Python None) and
    the outcome of an operation that can fail with a message. */
module Wrappers {

  datatype Option<+T> = None | Some(value: T) {
    function GetOr(default: T): T {
      match this
      case Some(v) => v
      case None => default
    }
  }

  /** Either the operation's value or the text of the exception it raises. */
  datatype Result<+T> = Ok(value: T) | Err(msg: string)

  /** The outcome of an operation that returns nothing or fails with a message. */
  datatype Outcome = Pass | Fail(error: string)
}
